=== FILE: README.md ===
# Chatipy core in Dafny

Chatipy turns a website into a chatbot. This project models the server-side core of that
pipeline and proves properties of it:

- **Scraping.** Discover the site's pages from its sitemap candidates or its `robots.txt`,
  or by a breadth-first crawl when neither yields anything. Then scrape each page into a
  cleaned page record.
- **Q&A generation.** Ask the language model for question/answer pairs. Pages go in
  batches of two, plus one overview request over the first three pages.
- **Knowledge base.** Embed every page and every QA pair and insert them into the store.
- **Chat answers.** Answer a chat message from the stored rows. Only the first three QA rows
  and the first three page rows, in store order, are scored. Rows are ranked by cosine
  similarity above 0.7, a bounded context is built from them, and the answer carries a
  confidence and a source list.
- **Analytics.** Aggregate logged interactions into the top queries and per-day statistics.
- **Routes.** Guard the HTTP routes:
  - chatbot generation, with its job state machine `processing → scraping → generating_qa →
    storing_data → completed | failed`;
  - the status report;
  - the cascading delete;
  - the chat endpoint, which refuses chatbots that are not `completed`;
  - the configuration update, which cannot touch the lifecycle fields.
- **Input checks.** The input validators and the error middleware.

Everything outside the program is a function-typed parameter:

- the network (`fetch`, the XML/HTML parser, `new URL`);
- the language model (`complete`, `parseJson`, `embed`, `reply`);
- the database (the rows a query returns, the outcome of an insert or delete);
- `Math.sqrt`;
- the clock and the uuid generator.

Modules, one per component:

| module | file | models |
|---|---|---|
| Base | base.dfy | `Option`, `Result` |
| Text | text.dfy | JavaScript string operations (trim, split/join, `\s+` collapsing, `includes`, `substring`, `slice`) |
| Seqs | seqs.dfy | filter, duplicate-free insertion (`Set` then `Array.from`), sums, subsequences |
| Sorting | sorting.dfy | `Array.prototype.sort` with a descending comparator (stable) |
| Urls | urls.dfy | the parsed URL record and `isValidUrl` |
| Validation | validation.dfy | `server/utils/validation.js` |
| ErrorHandling | errors.dfy | `server/middleware/errorHandler.js` |
| PageExtraction | extraction.dfy | `scrapePage` |
| Discovery | discovery.dfy | `getSitemapUrls`, `parseSitemap`, `parseRobotsTxt` |
| Crawl | crawl.dfy | `crawlWebsite`, `extractLinksFromPage` |
| Scraping | scraping.dfy | `scrapeWebsite` |
| Similarity | similarity.dfy | `calculateSimilarity` |
| Retrieval | retrieval.dfy | `searchSimilarContent`, `calculateConfidence`, `extractSources`, `generateContextualResponse`, `logInteraction` |
| Analytics | analytics.dfy | `getTopQueries`, `getDailyStats` |
| Compiler | compiler.dfy | `AIService` |
| Indexer | indexer.dfy | `storeKnowledgeBase` |
| Jobs | jobs.dfy | `server/routes/scraping.js` |
| ChatRoutes | chat.dfy | the chat and update routes of `server/routes/chatbot.js` |

## Model

| member | source | states |
|---|---|---|
| Validation.ValidateUrl | server/utils/validation.js:1-29 | A URL is accepted exactly when it parses, uses http or https, has a hostname, and is not a local or private host. The accepted value is the normalised href. Each failing check, in source order, yields its own error: format, protocol, hostname, then private host. |
| Validation.PrivateTestRefusesPublicName | server/utils/validation.js:17-22 | The private-host test is textual: the public name `10.example.com` is refused as private. |
| Validation.PrivateTestAdmitsRange172 | server/utils/validation.js:17-22 | The private range `172.16.0.0/12` is not covered: `172.16.0.1` is accepted. |
| Validation.AcceptedUrlIsScrapable | server/utils/validation.js:3-8 | Every URL the validator accepts also passes the scraper's `isValidUrl`. |
| Validation.ValidateBotType | server/utils/validation.js:31-34 | True exactly for the five flavours navigation, qa, whatsapp, support and general. |
| Validation.SanitizeInput | server/utils/validation.js:36-44 | A non-string gives `""`. Otherwise the result has at most 200 characters, contains only word characters, white space, `-`, `_` and `.`, and is a subsequence of the trimmed input. |
| Validation.DropAnglesSubsumed | server/utils/validation.js:41-42 | Removing `<` and `>` first never changes what the safe-character pass keeps. |
| Validation.SanitizeCanLeadWithSpace | server/utils/validation.js:39-43 | Trimming happens before characters are removed. So `<` followed by safe text with leading white space (such as `<  a`) sanitises to that text, and the result still has leading white space. |
| Validation.ValidateChatMessage | server/utils/validation.js:46-60 | A missing or empty message, a blank one, and one over 1000 characters are refused, each with its own error. A message is accepted exactly when it is non-blank and at most 1000 characters, and the accepted value is its trimmed form. |
| Validation.AcceptedMessageShape | server/utils/validation.js:55-59 | An accepted message has 1 to 1000 characters and no white space at either end. |
| ErrorHandling.HandleError | server/middleware/errorHandler.js:1-36 | The status is 400 for a validation error, 401 for an unauthorised one and 500 otherwise, unless a truthy `status` on the error overrides it. The message is fixed for the two named errors, and otherwise the error's own message or the generic one. The stack appears exactly in development mode. |
| ErrorHandling.NamedErrorsHideMessage | server/middleware/errorHandler.js:11-21 | The response to a validation or unauthorised error does not depend on the error's message. |
| ErrorHandling.BareErrorIsInternal | server/middleware/errorHandler.js:4-8 | An unnamed error with no message and no status is a 500 "Internal server error" with no stack. |
| ErrorHandling.ZeroStatusIgnored | server/middleware/errorHandler.js:27-29 | A `status` of 0 is falsy and behaves as no status. |
| PageExtraction.ScrapePage | server/services/WebScrapingService.js:268-361 | A failed fetch or a non-OK response is an error naming the URL, and the latter also names `HTTP <status>: <text>`. Otherwise the page has the trimmed title, the description fallback, the keywords meta tag or `""`, the cleaned main text, the collected headings and navigation links, and a word count equal to the number of words of that text. |
| PageExtraction.PageTextFaithful | server/services/WebScrapingService.js:317-344 | The stored words are exactly the non-space characters of the chosen main text, in order. The word count is 0 exactly when the text is empty. |
| PageExtraction.Description | server/services/WebScrapingService.js:287-288 | The description meta tag, else the Open Graph description, else `""`. An empty attribute counts as missing. |
| PageExtraction.MainText | server/services/WebScrapingService.js:292-314 | The body text when every content selector is empty. Otherwise the longest selector text, taking the first on ties. |
| PageExtraction.Longest | server/services/WebScrapingService.js:304-309 | The result is at least as long as every candidate, and is the first candidate of that length. |
| PageExtraction.CleanText | server/services/WebScrapingService.js:317-320 | The cleaned text has single spaces only and no white space at either end. It is empty exactly when the input is blank, and it keeps every non-space character in order. |
| PageExtraction.NewlinePassIsRedundant | server/services/WebScrapingService.js:318-319 | After the `\s+` pass, the newline pass changes nothing. |
| PageExtraction.HeadingOf | server/services/WebScrapingService.js:324-331 | A heading is kept exactly when its text is not blank. It keeps the trimmed text and the tag's level, 1 to 6. |
| PageExtraction.NavLinkOf | server/services/WebScrapingService.js:336-342 | A navigation link is kept exactly when its trimmed text and its href are both non-empty. |
| PageExtraction.HeadingsAppend | server/services/WebScrapingService.js:323-332 | Headings are collected element by element, so collection distributes over concatenation. |
| Discovery.SitemapCandidates | server/services/WebScrapingService.js:86-91 | There are four candidates, and only the last is the `robots.txt` one. |
| Discovery.ParseSitemap | server/services/WebScrapingService.js:150-187 | An unreachable sitemap yields nothing. Every URL kept is an http(s) URL. |
| Discovery.GetSitemapUrls | server/services/WebScrapingService.js:85-111 | The result is empty exactly when all four candidates yield nothing, and every URL in it is an http(s) URL. The robots candidate is read with the corrected directive reading (see Findings). |
| Discovery.DiscoveryDiffersOnlyAtRobots | server/services/WebScrapingService.js:85-111 | Discovery as written and the corrected discovery agree whenever one of the three XML candidates yields a URL. Otherwise each returns its own reading of `robots.txt`. |
| Discovery.FirstNonEmptyIsFirst | server/services/WebScrapingService.js:93-108 | The result is the list from the first candidate that yields anything. |
| Discovery.SitemapXmlFirst | server/services/WebScrapingService.js:86-102 | A usable `sitemap.xml` wins over every other candidate. |
| Discovery.RobotsLast | server/services/WebScrapingService.js:97-99 | `robots.txt` is consulted only when the three XML candidates yield nothing. |
| Discovery.ParseRobotsTxt | server/services/WebScrapingService.js:113-148 | The corrected reader: an unreachable robots file yields nothing, and every URL found through its `Sitemap:` directives is an http(s) URL. |
| Discovery.RobotsAsWrittenKeepsScheme | server/services/WebScrapingService.js:125-131 | As written, a one-line file `Sitemap: https://host/x.xml` makes the parser fetch the sitemap named `https`. |
| Discovery.RobotsIntendedKeepsUrl | server/services/WebScrapingService.js:125-131 | With the corrected reading, the same file fetches `https://host/x.xml`. |
| Discovery.RobotsDirectiveFinding | server/services/WebScrapingService.js:128 | Both readings together, on the same input: the code as written and the corrected reading fetch different sitemaps. |
| Crawl.BaseDomainContained | server/services/WebScrapingService.js:213 | The last two labels of the host name are contained in the host name, so the seed host always passes the subdomain policy. |
| Crawl.Crawler.Admit | server/services/WebScrapingService.js:206-224 | A link contributes a URL exactly when it resolves against the page, its host passes the domain policy, and no exclude pattern occurs in the raw link. The URL is protocol, `//`, host and path. |
| Crawl.EnqueueLinks | server/services/WebScrapingService.js:206-228 | The discovered list only grows at its end, stays duplicate-free and within the budget. Every new URL was admitted from this page, and every admitted link of the page is discovered unless the budget is used up. |
| Crawl.CrawlWebsite | server/services/WebScrapingService.js:189-240 | An unparsable seed is an error. Otherwise: the seed comes first; nothing appears twice; at most `max(maxPages, 1)` URLs; pages are read in discovery (FIFO) order; every later URL was admitted from a page read before it; every page read had all its admissible links discovered, budget permitting. The crawl stops early only when the budget is full. |
| Crawl.SpawnedIsAdmissible | server/services/WebScrapingService.js:255-259 | A discovered URL comes from an offered href: not a `#`, `mailto:` or `tel:` link, and passing the domain and exclusion checks. |
| Crawl.TinyBudget | server/services/WebScrapingService.js:197 | With a budget of at most one page, the crawl returns just the seed. |
| Scraping.MaxPagesPerSite | server/services/WebScrapingService.js:6 | `parseInt(MAX_PAGES_PER_SITE) \|\| 50`: a missing or zero setting gives 50, any other value is kept. |
| Scraping.KeptPagesOrigin | server/services/WebScrapingService.js:54-58 | A page is kept exactly when some URL's scrape succeeded with it and its text is longer than 100 characters. |
| Scraping.FailedPagesOrigin | server/services/WebScrapingService.js:59-66 | An error entry exists exactly for each URL whose scrape threw, and it carries that URL and message. |
| Scraping.OutcomeCount | server/services/WebScrapingService.js:50-72 | Kept pages plus errors number at most the URLs scraped, and exactly that many when every successful page is long enough. |
| Scraping.ScrapeEach | server/services/WebScrapingService.js:50-72 | The loop's pages and errors are exactly the kept pages and failures, in URL order. |
| Scraping.ScrapeWebsite | server/services/WebScrapingService.js:12-83 | The scrape fails, with the `Website scraping failed: ` prefix, exactly when there is no sitemap and the base URL does not parse. `sitemapFound` holds exactly when the sitemap list is non-empty. The URLs scraped are the first `maxPages` of the sitemap list or of the crawl. The pages and errors are those of that list, and `totalPages` is the page count. |
| Similarity.CalculateSimilarity | server/services/RAGService.js:136-159 | The loop computes exactly the cosine similarity `Cosine`, which is 0 when either embedding is not an array. |
| Similarity.CosineSymmetric | server/services/RAGService.js:143-154 | Similarity is symmetric. |
| Similarity.CosineUsesCommonPrefix | server/services/RAGService.js:147 | Only the common prefix of the two embeddings matters. |
| Similarity.SelfSimilarity | server/services/RAGService.js:143-154 | With a true square root, a non-zero vector has similarity 1 with itself. |
| Similarity.ZeroVectorDissimilar | server/services/RAGService.js:153-154 | A zero vector has similarity 0 with anything. |
| Retrieval.RankOrdered | server/services/RAGService.js:113-127 | Ranked results all score above 0.7, are in non-increasing order, and number at most `limit`. |
| Retrieval.RankDrawn | server/services/RAGService.js:113-127 | The ranking is a sub-multiset of the scored rows, and holds every relevant row when they all fit. |
| Retrieval.RankKeepsTop | server/services/RAGService.js:116-126 | A relevant row left out scores no higher than any row kept. |
| Retrieval.SearchSpec | server/services/RAGService.js:85-134 | For both lists: each result is a fetched row scored against the query, above 0.7, sorted, and at most `limit` of them. |
| Retrieval.Confidence | server/services/RAGService.js:243-259 | At least 0.3, and exactly 0.3 without results. It is at least both mean similarities and equal to one of 0.3 and the two means. |
| Retrieval.ConfidenceMonotone | server/services/RAGService.js:250-258 | Raising similarities never lowers the confidence. |
| Retrieval.FoundMeansConfident | server/services/RAGService.js:246-258 | Any search result makes the confidence exceed 0.7. |
| Retrieval.ExtractSourcesSpec | server/services/RAGService.js:261-275 | Sources are duplicate-free and are exactly the QA source pages and the page URLs. QA sources come first, in order of first mention, and the whole list is the de-duplication of the QA sources followed by the page URLs. |
| Retrieval.SearchContextBlank | server/services/RAGService.js:178-194 | The search context is blank exactly when there are no results. |
| Retrieval.FallbackOnlyWithoutResults | server/services/RAGService.js:196-210 | With any result, the fallback QA rows have no influence on the context. |
| Retrieval.ContextWithoutResults | server/services/RAGService.js:196-215 | Without results the context is the capped fallback block when fallback rows exist, and empty otherwise. |
| Retrieval.CapContext | server/services/RAGService.js:212-215 | A context of at most 3000 characters is kept unchanged. A longer one becomes exactly its first 3000 characters followed by `...`. No capped context exceeds 3003 characters. |
| Retrieval.PageEntryQuotesPrefix | server/services/RAGService.js:192 | A page entry quotes a prefix of at most 400 characters of the page's content. |
| Retrieval.BlankQueryFindsNothing | server/services/RAGService.js:85-133 | The query is embedded with `generateEmbeddings`, which refuses blank text. So a blank message (which passes the route's `!message` check) finds no rows, has the floor confidence 0.3, and has no sources. |
| Retrieval.GenerateContextualResponse | server/services/RAGService.js:161-241 | An unknown chatbot is the error "Chatbot not found", and a failed model reply is that reply's error. Otherwise the reply comes with the confidence and sources of the three-row search, and the interaction logged (`logInteraction`, lines 277-292) carries the same values. |
| Retrieval.AnswerShape | server/services/RAGService.js:212-234 | An answer's sources are duplicate-free, and the context it was built from has at most 3003 characters. |
| Analytics.TallySpec | server/services/RAGService.js:330-334 | The tally has one bucket per distinct key. Each bucket's count and total are the count and weight sum of that key's entries, and the counts add up to the number of entries. |
| Analytics.TopQueriesSpec | server/services/RAGService.js:329-340 | At most ten queries, each listed once, with counts non-increasing. Each count is at least 1 and is the number of interactions whose lowercased query is that query. |
| Analytics.TopQueriesKeepsTop | server/services/RAGService.js:336-339 | A query that was asked but is not listed was asked no more often than any listed query, so the list holds the most-asked of the counted queries. |
| Analytics.TopQueriesComplete | server/services/RAGService.js:336-339 | A query asked at least once is missing only when the list is full. |
| Analytics.DailyStatsSpec | server/services/RAGService.js:342-357 | Dates are distinct, and each day's count is its number of interactions. The average is that day's summed `confidence \|\| 0` over the count, and the counts add up to the number of interactions. |
| Analytics.DailyStatsCoverDays | server/services/RAGService.js:344-351 | Every interaction's day appears in the statistics. |
| Compiler.GetSystemPrompt | server/services/AIService.js:182-196 | One of the five flavour prompts, and the general prompt for any other name. |
| Compiler.FlavoursHaveDistinctPrompts | server/services/AIService.js:183-193 | Each of the five flavour names selects its own prompt. |
| Compiler.PromptLookupDiffers | server/services/AIService.js:195 | The lookup as written differs from the intended one exactly for the names of `Object.prototype` members. |
| Compiler.ConstructorFinding | server/services/AIService.js:195 | For `"constructor"`, the lookup as written returns an inherited function, while the corrected one returns the general prompt. |
| Compiler.CleanReply | server/services/AIService.js:97 | The cleaned reply is no longer than the reply and has no white space at either end. A reply without fences is just trimmed. |
| Compiler.FactsOfReply | server/services/AIService.js:94-118 | There are no facts exactly when there is no reply, the reply does not parse, or it has no non-empty `qa_pairs`. Otherwise there is one fact per pair, and every fact carries the batch's URLs. |
| Compiler.BatchFactFields | server/services/AIService.js:113-118 | Each fact copies its pair's fields, with confidence `qa.confidence \|\| 0.8`. |
| Compiler.BatchesPartition | server/services/AIService.js:23-25 | The batches cover the pages exactly once, in order, in `ceil(n/2)` batches of one or two pages. |
| Compiler.BatchFactSources | server/services/AIService.js:113-116 | Every batch fact's sources are the URLs of one batch. |
| Compiler.SilentModelYieldsNoBatchFacts | server/services/AIService.js:120-123 | When the model never answers, the batches contribute nothing. |
| Compiler.GeneralQAs | server/services/AIService.js:126-180 | Overview facts carry the URLs of the first three pages. No reply gives no facts. |
| Compiler.GeneralQAsReadFirstThree | server/services/AIService.js:128-130 | Pages after the third do not influence the overview facts. |
| Compiler.GenerateQuestionsAndAnswers | server/services/AIService.js:11-53 | A missing or empty page list is the error "No scraped data provided for Q&A generation". Otherwise the result is the batch facts in order, then the overview facts. |
| Compiler.SummarizeWebsite | server/services/AIService.js:254-293 | No pages gives "No content available for summary". A failed model call gives the fixed failure text. |
| Compiler.SummaryReadsFirstThree | server/services/AIService.js:262-265 | Pages after the third do not influence the summary. |
| Compiler.EmbeddingInput | server/services/AIService.js:201 | The embedding input has at most 8000 characters, single spaces, and no leading white space. It is empty exactly when the text is blank. |
| Compiler.GenerateEmbeddings | server/services/AIService.js:198-217 | Blank text is the error "Empty text provided for embedding". Any other text is embedded from its cleaned form. |
| Indexer.PageInsertsOrigin | server/services/RAGService.js:16-44 | A page row is inserted exactly for each page whose embedding succeeded, built from that page and its embedding. |
| Indexer.PageInsertsShape | server/services/RAGService.js:16-44 | At most one page row per page, all for the given chatbot. |
| Indexer.QaInsertsShape | server/services/RAGService.js:47-74 | At most one QA row per fact, all for the given chatbot. |
| Indexer.QaInsertAt | server/services/RAGService.js:48-65 | A fact is inserted exactly when the embedding of `question answer` succeeds, and the row carries its fields and that embedding. |
| Indexer.BlankPageSkipped | server/services/RAGService.js:18-20 | A page with blank title, description and text is never stored, because the embedding refuses blank input. |
| Indexer.StoreKnowledgeBase | server/services/RAGService.js:11-83 | It always reports success. The inserts are the page rows in page order, then the QA rows in fact order. |
| Indexer.PagesBeforeQas | server/services/RAGService.js:16-74 | Every page insert precedes every QA insert. |
| Jobs.StartGeneration | server/routes/scraping.js:14-80 | A missing URL gives 400 "Website URL is required", and an unparsable one gives 400 "Invalid URL format". A failed record insert gives 500, with the store's message after `Failed to create chatbot record: `. Otherwise the reply is 200 and the job starts from a `processing` record with the request's options, defaulting to `general`, 20 pages and no subdomains. |
| Jobs.NewRecordNames | server/routes/scraping.js:45-52 | The record is named after the bot, else the hostname. Its description is the given one, else `AI chatbot for <host>`, and its type defaults to `general`. |
| Jobs.GetStatus | server/routes/scraping.js:83-125 | An unknown id is not found. Otherwise the record comes with its QA and page row counts, where a failed count query reads as 0. |
| Jobs.ProcessWebsite | server/routes/scraping.js:182-260 | The record writes follow the lifecycle: `scraping` first, exactly one terminal write last, and progress strictly increasing through 10, 50, 80, 100. A failed scrape is `scraping → failed`. No pages is `scraping → generating_qa(0) → failed("No scraped data …")`. Otherwise the run is `scraping → generating_qa(pages) → storing_data(facts) → completed(summary)`, storing exactly the knowledge-base inserts. |
| Jobs.ApplyAllFinal | server/routes/scraping.js:186-258 | After the writes, the record has the terminal status and the last recorded progress, since a failure does not reset progress. Its id and URL are unchanged. |
| Jobs.EmptyScrapeFails | server/routes/scraping.js:203-214 | A scrape with no pages leaves the record `failed` at progress 50, with 0 pages and the "No scraped data" error. |
| Jobs.DeleteStepKeepsIntegrity | server/routes/scraping.js:156-163 | Each delete step leaves every child row pointing at an existing chatbot. |
| Jobs.DeleteChatbotSpec | server/routes/scraping.js:151-179 | Referential integrity is kept. The reply is 200 exactly when the chatbot row could be deleted, which needs every table holding the chatbot's rows to have been cleared. Then no row of the chatbot is left, and other chatbots' rows are untouched. |
| Jobs.ParentFirstRefused | server/routes/scraping.js:155 | The chatbot row cannot be deleted while child rows still reference it. |
| ChatRoutes.Chat | server/routes/chatbot.js:9-62 | A falsy message gives 400 and an unknown chatbot gives 404. A chatbot that is not `completed` gives 400 with its status and progress. A failed response gives 500 with the error's message. An answer carries the retrieval response, confidence and sources, plus the bot's name and type. |
| ChatRoutes.NotReadyIgnoresRetrieval | server/routes/chatbot.js:33-42 | Before a chatbot is ready the reply does not depend on the knowledge base or the model. |
| ChatRoutes.MissingMessageIgnoresRecord | server/routes/chatbot.js:14-21 | A missing message is refused before the chatbot is looked up. |
| ChatRoutes.AnsweredShape | server/routes/chatbot.js:42-53 | An answered chat has confidence at least 0.3 and duplicate-free sources. |
| ChatRoutes.StripProtected | server/routes/chatbot.js:98-104 | The update body loses `id`, `created_at`, `status` and `progress`, keeps every other field, and gets `updated_at`. |
| ChatRoutes.UpdateKeepsLifecycle | server/routes/chatbot.js:93-118 | Whatever the body holds, an update never changes the row's lifecycle fields. It sets every other field the body names and stamps `updated_at`. |

## Left out

- **Effects.** Logging, delays between requests and timestamps (`scrapedAt`, `generatedAt`, `created_at`, `completed_at`) are left out. They change no returned value.
- **Timeouts.** The scraper calls the runtime's global `fetch`, since WebScrapingService.js imports only cheerio and `URL` (lines 1-2). `timeout` is not a `fetch` option, so `timeout: this.timeout` (lines 117, 154, 246 and 272) and `SCRAPING_TIMEOUT` (line 7) are ignored. Only the runtime's own limits stop a slow server. The model's `fetch` oracle answers every request, so the model assumes every request ends. A request that fails is the oracle's failure case: `scrapePage` gives an error entry, and a sitemap or robots fetch yields nothing.
- **Concurrency.** `processWebsiteAsync` runs detached from the request. The model runs it as a separate call on the created record.
- **Sub-sitemaps.** A sitemap index's sub-sitemaps are fetched without being awaited (`.then`), so their URLs arrive after `parseSitemap` has returned. They are not modelled.
- **Supabase queries.** The rows a query returns are taken as inputs, including the `.limit(n)` row sets. `searchSimilarContent` limits both of its queries to `limit` rows (RAGService.js lines 93 and 101) before it scores anything. So a chat scores at most the first three rows of each table, in store order, and the slice after sorting never removes a row. Insert errors in `storeKnowledgeBase` are logged and ignored, so the model returns the inserts attempted. Update errors in `processWebsiteAsync` are ignored by the code and are not modelled.
- **Other functions.** `generateChatbotResponse` is the `reply` parameter, and its prompt text is not modelled. `getChatbotAnalytics` and `getTimeframeDate` are not modelled. `getChatbotAnalytics` (RAGService.js lines 294-320) reads the rows since the timeframe date. It reports `totalInteractions` (the row count) and `averageConfidence` (the mean of `confidence || 0`, or 0 for no rows). It also reports `lowConfidenceQueries`, the rows with `(confidence || 0) < 0.5`, and the `getTopQueries` and `getDailyStats` results, which the model covers.
- **Other routes.** `GET /chatbots`, `GET /:chatbotId`, `GET /:chatbotId/qa` and `GET /:chatbotId/pages` are plain reads and are not modelled.
- **Object key order.** JavaScript orders integer-like object keys before the others, which affects the order of `getTopQueries` ties. `getDailyStats` keys are dates such as `2024-05-01`, which are never integer-like. The model keeps first-insertion order for every key.
- **Strings.** Characters are Dafny characters, not UTF-16 code units, so lengths of astral characters differ. `toLowerCase` is modelled on ASCII letters only.
- **Arithmetic.** Similarities are exact reals, not IEEE doubles. `Math.sqrt` is a parameter.
- Discovery.ParseSitemap: the contract states only that every URL kept is an http(s) URL and that an unreachable sitemap yields nothing. Which `url loc` entries are kept is defined by `KeepLocs`, but is not restated as a property.
- Discovery.ParseRobotsTxt: the contract states only the validity of the URLs and the unreachable case. The corrected directive reading is stated by `Discovery.RobotsIntendedKeepsUrl`.
- Discovery.GetSitemapUrls: reads the robots candidate with the corrected `Discovery.ParseRobotsTxt`, not with the code as written at line 128. The two differ only when all three XML candidates yield nothing (`Discovery.DiscoveryDiffersOnlyAtRobots`). There, for `Sitemap: https://h/s.xml` the code fetches the sitemap `https` and finds nothing, so it falls back to crawling, while the model returns the sitemap's URLs. The as-written discovery is kept as `Discovery.GetSitemapUrlsAsWritten`.
- Scraping.ScrapeWebsite: inherits the corrected robots reading through `Discovery.GetSitemapUrls`. So when only `robots.txt` names a sitemap, it reports `sitemapFound` and scrapes that sitemap's URLs where the code crawls. The same holds for Jobs.ProcessWebsite, which runs it.
- Compiler.ProcessBatch: prompts with the corrected `Compiler.GetSystemPrompt`. For a `botType` naming an `Object.prototype` member, such as `constructor`, the code sends the inherited function as the system prompt (`Compiler.PromptLookupDiffers`), and the model sends the general prompt. Compiler.GenerateQuestionsAndAnswers and Jobs.ProcessWebsite inherit this.
- Compiler.FactsOfReply: `qa_pairs` entries are typed records, so two behaviours of lines 113-123 are not modelled. First, a `null` entry makes `qa.confidence` throw, and the catch at lines 120-123 then drops the whole batch. Second, a truthy non-number confidence, such as the string `"0.9"`, survives `qa.confidence || 0.8`; the model's optional real reads it as missing and uses 0.8. The extra fields that `...qa` would copy are not modelled either.
- Analytics.TopQueriesSpec: counts every lowercased query under its own key. The code counts into a plain `{}` object (lines 331-333), so two names behave differently. For `constructor` the count starts from the inherited `Object` function and becomes a string, and the sort comparator then returns `NaN`. An assignment to `__proto__` goes to the prototype setter, so that query is never counted. The model treats both as ordinary queries.
- Analytics.TopQueriesKeepsTop: for the same reason, the bound holds of the model's ordinary counting only. In the code a `__proto__` query is never counted, so it stays unlisted however often it is asked. A `constructor` query makes the comparator return `NaN`, so the code's order, and with it which queries are kept, is unspecified.
- Analytics.TopQueriesComplete: for the same reason, in the code the query `__proto__` is never listed even when the list has room, and the position of `constructor` is unspecified. The lemma holds of the model's ordinary counting only.
- Compiler.SummarizeWebsite: the contract does not restate the successful case, where the summary is the model's reply text.
- Compiler.GeneralQAs: the contract does not restate the per-field copy, which is the same as for batches (`Compiler.BatchFactFields`) with default confidence 0.85.

## Findings

| source | as written | input that shows it | evidently intended | confidence | as-written member | corrected member |
|---|---|---|---|---|---|---|
| server/services/WebScrapingService.js:128 | `line.split(':', 2)[1].trim()` keeps only the text between the first and second colon | a `robots.txt` holding `Sitemap: https://example.com/sitemap.xml` yields the sitemap URL `https` | the whole value after the first colon, `https://example.com/sitemap.xml` | not executed | Discovery.RobotsAsWrittenKeepsScheme | Discovery.RobotsIntendedKeepsUrl |
| server/services/AIService.js:195 | `prompts[botType] \|\| prompts.general` also finds members inherited from `Object.prototype` | `botType = "constructor"`, which `/generate-chatbot` accepts unchecked, selects the `Object` constructor as the system prompt | the general prompt for every name other than the five flavours | not executed | Compiler.ConstructorFinding | Compiler.GetSystemPrompt |

The corrected `Discovery.ParseRobotsTxt` and `Compiler.GetSystemPrompt` are the ones the
rest of the model uses. The code as written is kept as `Discovery.ParseRobotsTxtAsWritten`,
`Discovery.GetSitemapUrlsAsWritten` and `Compiler.GetSystemPromptAsWritten`. "## Left out"
names the operations that inherit the correction.

=== FILE: analytics.dfy ===
/** The interaction aggregates of `RAGService`: `getTopQueries` and `getDailyStats`.
    Both fill a plain object keyed by a string; the object is modelled as a list of
    buckets in key insertion order. */
module Analytics {
  import opened Base
  import opened Text
  import opened Seqs
  import opened Sorting

  /** A `chatbot_interactions` row as the aggregates read it. */
  datatype LoggedInteraction = LoggedInteraction(userQuery: string, createdAt: string, confidence: Option<real>)

  /** One contribution to a keyed tally. */
  datatype Entry = Entry(key: string, weight: real)

  /** A tally bucket: how many entries had the key, and their summed weight. */
  datatype Bucket = Bucket(key: string, count: nat, total: real)

  const MaxTopQueries := 10

  // ---------------------------------------------------------------------------
  // the keyed tally

  /** `counts[key] = (counts[key] || 0) + 1` and the weight added alongside. */
  function Add(t: seq<Bucket>, key: string, w: real): seq<Bucket>
    decreases |t|
  {
    if |t| == 0 then [Bucket(key, 1, w)]
    else if t[0].key == key then [Bucket(key, t[0].count + 1, t[0].total + w)] + t[1..]
    else [t[0]] + Add(t[1..], key, w)
  }

  function Tally(es: seq<Entry>): seq<Bucket>
    decreases |es|
  {
    if |es| == 0 then [] else Add(Tally(es[..|es| - 1]), es[|es| - 1].key, es[|es| - 1].weight)
  }

  /** The count under `k`, zero when there is no bucket for it. */
  function CountOf(t: seq<Bucket>, k: string): nat {
    if |t| == 0 then 0 else if t[0].key == k then t[0].count else CountOf(t[1..], k)
  }

  function TotalOf(t: seq<Bucket>, k: string): real {
    if |t| == 0 then 0.0 else if t[0].key == k then t[0].total else TotalOf(t[1..], k)
  }

  function SumCounts(t: seq<Bucket>): nat {
    if |t| == 0 then 0 else t[0].count + SumCounts(t[1..])
  }

  /** One bucket per key, and no empty bucket. */
  ghost predicate WellFormed(t: seq<Bucket>) {
    && Distinct(Keys(t))
    && (forall i | 0 <= i < |t| :: t[i].count >= 1)
  }

  /** Reference definitions: how many entries carry `k`, and their summed weight. */
  function KeyCount(es: seq<Entry>, k: string): nat
    decreases |es|
  {
    if |es| == 0 then 0 else KeyCount(es[..|es| - 1], k) + (if es[|es| - 1].key == k then 1 else 0)
  }

  function KeyWeight(es: seq<Entry>, k: string): real
    decreases |es|
  {
    if |es| == 0 then 0.0 else KeyWeight(es[..|es| - 1], k) + (if es[|es| - 1].key == k then es[|es| - 1].weight else 0.0)
  }

  /** Adding changes the count and total under `key` only, and the sum of counts by one. */
  lemma {:induction false} AddCounts(t: seq<Bucket>, key: string, w: real)
    ensures forall k :: CountOf(Add(t, key, w), k) == CountOf(t, k) + (if k == key then 1 else 0)
    ensures forall k :: TotalOf(Add(t, key, w), k) == TotalOf(t, k) + (if k == key then w else 0.0)
    ensures SumCounts(Add(t, key, w)) == SumCounts(t) + 1
    decreases |t|
  {
    if |t| > 0 && t[0].key != key {
      AddCounts(t[1..], key, w);
    }
  }

  /** Adding a new key appends it; adding a known key keeps the key order. */
  lemma {:induction false} AddKeys(t: seq<Bucket>, key: string, w: real)
    ensures Keys(Add(t, key, w)) == if key in Keys(t) then Keys(t) else Keys(t) + [key]
    decreases |t|
  {
    if |t| > 0 && t[0].key != key {
      AddKeys(t[1..], key, w);
      assert Keys(t) == [t[0].key] + Keys(t[1..]);
    }
  }

  lemma {:induction false} AddPositive(t: seq<Bucket>, key: string, w: real)
    requires forall i | 0 <= i < |t| :: t[i].count >= 1
    ensures forall i | 0 <= i < |Add(t, key, w)| :: Add(t, key, w)[i].count >= 1
    decreases |t|
  {
    if |t| > 0 && t[0].key != key {
      AddPositive(t[1..], key, w);
      var r := Add(t, key, w);
      assert forall i | 1 <= i < |r| :: r[i] == Add(t[1..], key, w)[i - 1];
    }
  }

  lemma AddSpec(t: seq<Bucket>, key: string, w: real)
    requires WellFormed(t)
    ensures WellFormed(Add(t, key, w))
  {
    AddKeys(t, key, w);
    AddPositive(t, key, w);
  }

  function Keys(t: seq<Bucket>): (ks: seq<string>)
    ensures |ks| == |t|
    ensures forall i | 0 <= i < |t| :: ks[i] == t[i].key
  {
    if |t| == 0 then [] else [t[0].key] + Keys(t[1..])
  }

  /** The tally has one bucket per key; each bucket's count and total are the reference
      count and weight of its key; counts add up to the number of entries. */
  lemma {:induction false} TallySpec(es: seq<Entry>)
    ensures WellFormed(Tally(es))
    ensures forall k :: CountOf(Tally(es), k) == KeyCount(es, k)
    ensures forall k :: TotalOf(Tally(es), k) == KeyWeight(es, k)
    ensures SumCounts(Tally(es)) == |es|
    decreases |es|
  {
    if |es| > 0 {
      var init := es[..|es| - 1];
      TallySpec(init);
      AddSpec(Tally(init), es[|es| - 1].key, es[|es| - 1].weight);
      AddCounts(Tally(init), es[|es| - 1].key, es[|es| - 1].weight);
    }
  }

  /** In a well-formed tally, a bucket's fields are what the lookups find under its key. */
  lemma {:induction false} BucketLookup(t: seq<Bucket>, i: nat)
    requires WellFormed(t) && i < |t|
    ensures CountOf(t, t[i].key) == t[i].count && TotalOf(t, t[i].key) == t[i].total
    decreases i
  {
    if i > 0 {
      assert Keys(t)[0] != Keys(t)[i];
      assert Keys(t[1..]) == Keys(t)[1..];
      BucketLookup(t[1..], i - 1);
    }
  }

  /** A key with a positive count has a bucket. */
  lemma {:induction false} CountedHasBucket(t: seq<Bucket>, k: string)
    requires CountOf(t, k) > 0
    ensures exists i | 0 <= i < |t| :: t[i].key == k
  {
    if t[0].key != k {
      CountedHasBucket(t[1..], k);
      var i :| 0 <= i < |t[1..]| && t[1..][i].key == k;
      assert t[i + 1].key == k;
    }
  }

  /** Every entry's key is counted at least once. */
  lemma {:induction false} EntryCounted(es: seq<Entry>, j: nat)
    requires j < |es|
    ensures KeyCount(es, es[j].key) >= 1
    decreases |es|
  {
    if j < |es| - 1 {
      var init := es[..|es| - 1];
      assert init[j] == es[j];
      EntryCounted(init, j);
    }
  }

  // ---------------------------------------------------------------------------
  // getTopQueries

  datatype QueryCount = QueryCount(query: string, count: nat)

  /** Each interaction contributes its lowercased query. */
  function QueryEntries(xs: seq<LoggedInteraction>): (es: seq<Entry>)
    ensures |es| == |xs|
    ensures forall i | 0 <= i < |xs| :: es[i] == Entry(LowerStr(xs[i].userQuery), 0.0)
  {
    if |xs| == 0 then [] else [Entry(LowerStr(xs[0].userQuery), 0.0)] + QueryEntries(xs[1..])
  }

  function CountKey(b: Bucket): real { b.count as real }

  function AsQueryCounts(bs: seq<Bucket>): (qs: seq<QueryCount>)
    ensures |qs| == |bs|
    ensures forall i | 0 <= i < |bs| :: qs[i] == QueryCount(bs[i].key, bs[i].count)
  {
    if |bs| == 0 then [] else [QueryCount(bs[0].key, bs[0].count)] + AsQueryCounts(bs[1..])
  }

  /** The buckets `getTopQueries` keeps: sorted by descending count, the first ten. */
  function TopBuckets(es: seq<Entry>): seq<Bucket> {
    JsSliceTo(SortDesc(Tally(es), CountKey), MaxTopQueries)
  }

  /** `getTopQueries`: the kept buckets as query counts. */
  function TopQueries(xs: seq<LoggedInteraction>): seq<QueryCount> {
    AsQueryCounts(TopBuckets(QueryEntries(xs)))
  }

  /** The kept buckets are buckets of the tally in non-increasing count order, and all of
      them when there are at most ten. */
  lemma TopBucketsDrawn(es: seq<Entry>)
    ensures var top := TopBuckets(es);
      && |top| == (if |Tally(es)| < MaxTopQueries then |Tally(es)| else MaxTopQueries)
      && SortedDesc(top, CountKey)
      && (forall i | 0 <= i < |top| :: top[i] in Tally(es))
      && (|Tally(es)| <= MaxTopQueries ==> forall b | b in Tally(es) :: b in top)
  {
    var t := Tally(es);
    var sorted := SortDesc(t, CountKey);
    var top := TopBuckets(es);
    SortDescSpec(t, CountKey);
    assert top == sorted[..|top|];
    SortedPrefix(sorted, CountKey, |top|);
    forall i | 0 <= i < |top| ensures top[i] in t {
      assert top[i] == sorted[i];
      assert top[i] in multiset(sorted);
    }
    if |t| <= MaxTopQueries {
      assert top == sorted;
      forall b | b in t ensures b in top {
        assert b in multiset(t);
      }
    }
  }

  /** A bucket of the tally counts the entries with its key, at least one. */
  lemma TallyBucketCount(es: seq<Entry>, b: Bucket)
    requires b in Tally(es)
    ensures b.count >= 1 && b.count == KeyCount(es, b.key)
  {
    var t := Tally(es);
    TallySpec(es);
    var j :| 0 <= j < |t| && t[j] == b;
    BucketLookup(t, j);
  }

  /** With one bucket per key, a bucket occurs at most once. */
  lemma {:induction false} BucketOnce(t: seq<Bucket>, b: Bucket)
    requires Distinct(Keys(t))
    ensures multiset(t)[b] <= 1
    decreases |t|
  {
    if |t| > 0 {
      assert t == [t[0]] + t[1..];
      assert Keys(t[1..]) == Keys(t)[1..];
      BucketOnce(t[1..], b);
      if t[0] == b {
        forall k | 0 <= k < |t[1..]| ensures t[1..][k] != b {
          assert Keys(t)[0] != Keys(t)[k + 1];
        }
      }
    }
  }

  /** An element at two positions occurs at least twice. */
  lemma TwiceCounted<T>(s: seq<T>, i: nat, j: nat)
    requires i < j < |s| && s[i] == s[j]
    ensures multiset(s)[s[i]] >= 2
  {
    assert s == s[..j] + [s[j]] + s[j + 1..];
    assert s[..j][i] == s[i];
  }

  /** Two buckets of a well-formed tally with the same key are the same bucket. */
  lemma SameKeySameBucket(t: seq<Bucket>, a: Bucket, c: Bucket)
    requires WellFormed(t) && a in t && c in t && a.key == c.key
    ensures a == c
  {
    var x :| 0 <= x < |t| && t[x] == a;
    var y :| 0 <= y < |t| && t[y] == c;
    assert Keys(t)[x] == Keys(t)[y];
  }

  /** Any arrangement of a well-formed tally still has one bucket per key. */
  lemma ArrangedKeysDistinct(t: seq<Bucket>, s: seq<Bucket>)
    requires WellFormed(t) && multiset(s) == multiset(t)
    ensures forall i, j | 0 <= i < j < |s| :: s[i].key != s[j].key
  {
    forall i, j | 0 <= i < j < |s| ensures s[i].key != s[j].key {
      assert s[i] in multiset(s) && s[j] in multiset(s);
      if s[i].key == s[j].key {
        SameKeySameBucket(t, s[i], s[j]);
        TwiceCounted(s, i, j);
        BucketOnce(t, s[i]);
      }
    }
  }

  /** Each query of the top list is listed once. */
  lemma TopQueriesDistinct(xs: seq<LoggedInteraction>)
    ensures var r := TopQueries(xs);
      forall i, j | 0 <= i < j < |r| :: r[i].query != r[j].query
  {
    var es := QueryEntries(xs);
    var top := TopBuckets(es);
    var r := TopQueries(xs);
    var sorted := SortDesc(Tally(es), CountKey);
    SortDescSpec(Tally(es), CountKey);
    TallySpec(es);
    ArrangedKeysDistinct(Tally(es), sorted);
    assert top == sorted[..|top|];
    forall i, j | 0 <= i < j < |r| ensures r[i].query != r[j].query {
      assert top[i] == sorted[i] && top[j] == sorted[j];
    }
  }

  /** The top queries: at most ten, each listed once, counts non-increasing, and each
      count is the number of interactions whose lowercased query is that query. */
  lemma TopQueriesSpec(xs: seq<LoggedInteraction>)
    ensures var r := TopQueries(xs);
      && |r| <= MaxTopQueries
      && (forall i, j | 0 <= i < j < |r| :: r[i].query != r[j].query)
      && (forall i, j | 0 <= i < j < |r| :: r[i].count >= r[j].count)
      && (forall i | 0 <= i < |r| :: r[i].count >= 1 && r[i].count == KeyCount(QueryEntries(xs), r[i].query))
  {
    var es := QueryEntries(xs);
    var top := TopBuckets(es);
    var r := TopQueries(xs);
    TopBucketsDrawn(es);
    TopQueriesDistinct(xs);
    forall i | 0 <= i < |r| ensures r[i].count >= 1 && r[i].count == KeyCount(es, r[i].query) {
      TallyBucketCount(es, top[i]);
    }
    forall i, j | 0 <= i < j < |r| ensures r[i].count >= r[j].count {
      assert CountKey(top[i]) >= CountKey(top[j]);
    }
  }

  /** A query is missing from the top list only when the list is full. */
  lemma TopQueriesComplete(xs: seq<LoggedInteraction>, n: nat)
    requires n < |xs|
    ensures var r := TopQueries(xs);
      |r| == MaxTopQueries || exists i | 0 <= i < |r| :: r[i].query == LowerStr(xs[n].userQuery)
  {
    var es := QueryEntries(xs);
    var t := Tally(es);
    var top := TopBuckets(es);
    var r := TopQueries(xs);
    TopBucketsDrawn(es);
    if |t| <= MaxTopQueries {
      var k := LowerStr(xs[n].userQuery);
      var j: nat :| j < |t| && t[j].key == k by {
        assert es[n].key == k;
        EntryCounted(es, n);
        TallySpec(es);
        CountedHasBucket(t, k);
      }
      var i: nat :| i < |top| && top[i] == t[j] by {
        assert t[j] in top;
      }
      assert r[i].query == k;
    }
  }

  /** A query left out of the top list was asked no more often than any listed query:
      the list holds the most-asked queries. */
  lemma TopQueriesKeepsTop(xs: seq<LoggedInteraction>, n: nat)
    requires n < |xs|
    requires forall i | 0 <= i < |TopQueries(xs)| :: TopQueries(xs)[i].query != LowerStr(xs[n].userQuery)
    ensures forall i | 0 <= i < |TopQueries(xs)| ::
      TopQueries(xs)[i].count >= KeyCount(QueryEntries(xs), LowerStr(xs[n].userQuery))
  {
    var es := QueryEntries(xs);
    var t := Tally(es);
    var sorted := SortDesc(t, CountKey);
    var top := TopBuckets(es);
    var r := TopQueries(xs);
    var k := LowerStr(xs[n].userQuery);
    SortDescSpec(t, CountKey);
    TallySpec(es);
    assert es[n].key == k;
    EntryCounted(es, n);
    CountedHasBucket(t, k);
    var j :| 0 <= j < |t| && t[j].key == k;
    BucketLookup(t, j);
    assert t[j] in multiset(sorted);
    var p :| 0 <= p < |sorted| && sorted[p] == t[j];
    assert top == sorted[..|top|];
    assert forall i | 0 <= i < |top| :: sorted[i].key != k by {
      forall i | 0 <= i < |top| ensures sorted[i].key != k {
        assert r[i].query == top[i].key;
      }
    }
    assert sorted[p].key == k;
    forall i | 0 <= i < |r| ensures r[i].count >= KeyCount(es, k) {
      assert top[i] == sorted[i];
      assert CountKey(sorted[i]) >= CountKey(sorted[p]);
    }
  }

  // ---------------------------------------------------------------------------
  // getDailyStats

  datatype DailyStat = DailyStat(date: string, interactions: nat, averageConfidence: real)

  /** `createdAt.split('T')[0]` */
  function DayOf(createdAt: string): string {
    Split(createdAt, 'T')[0]
  }

  /** Each interaction contributes its day, weighted by `confidence || 0`. */
  function DayEntries(xs: seq<LoggedInteraction>): (es: seq<Entry>)
    ensures |es| == |xs|
    ensures forall i | 0 <= i < |xs| :: es[i] == Entry(DayOf(xs[i].createdAt), xs[i].confidence.GetOr(0.0))
  {
    if |xs| == 0 then [] else [Entry(DayOf(xs[0].createdAt), xs[0].confidence.GetOr(0.0))] + DayEntries(xs[1..])
  }

  function AsDailyStats(bs: seq<Bucket>): (ds: seq<DailyStat>)
    ensures |ds| == |bs|
    ensures forall i | 0 <= i < |bs| :: ds[i].date == bs[i].key && ds[i].interactions == bs[i].count
  {
    if |bs| == 0 then []
    else
      var b := bs[0];
      [DailyStat(b.key, b.count, if b.count > 0 then b.total / b.count as real else 0.0)] + AsDailyStats(bs[1..])
  }

  function SumInteractions(ds: seq<DailyStat>): nat {
    if |ds| == 0 then 0 else ds[0].interactions + SumInteractions(ds[1..])
  }

  lemma {:induction false} SumInteractionsOf(bs: seq<Bucket>)
    ensures SumInteractions(AsDailyStats(bs)) == SumCounts(bs)
  {
    if |bs| > 0 {
      SumInteractionsOf(bs[1..]);
    }
  }

  lemma {:induction false} AverageOf(bs: seq<Bucket>, i: nat)
    requires i < |bs|
    ensures bs[i].count > 0 ==> AsDailyStats(bs)[i].averageConfidence == bs[i].total / bs[i].count as real
  {
    if i > 0 {
      AverageOf(bs[1..], i - 1);
    }
  }

  /** `getDailyStats`: one entry per day, in order of first appearance. */
  function DailyStats(xs: seq<LoggedInteraction>): seq<DailyStat> {
    AsDailyStats(Tally(DayEntries(xs)))
  }

  /** Each day appears once; its count is the number of interactions on that day and its
      average is their summed confidence over that count; the counts add up to the number
      of interactions. */
  lemma DailyStatsSpec(xs: seq<LoggedInteraction>)
    ensures var ds := DailyStats(xs);
      && (forall i, j | 0 <= i < j < |ds| :: ds[i].date != ds[j].date)
      && (forall i | 0 <= i < |ds| ::
            && ds[i].interactions >= 1
            && ds[i].interactions == KeyCount(DayEntries(xs), ds[i].date)
            && ds[i].averageConfidence == KeyWeight(DayEntries(xs), ds[i].date) / ds[i].interactions as real)
      && SumInteractions(ds) == |xs|
  {
    var es := DayEntries(xs);
    var t := Tally(es);
    TallySpec(es);
    SumInteractionsOf(t);
    var ds := AsDailyStats(t);
    forall i | 0 <= i < |ds|
      ensures ds[i].interactions >= 1
      ensures ds[i].interactions == KeyCount(es, ds[i].date)
      ensures ds[i].averageConfidence == KeyWeight(es, ds[i].date) / ds[i].interactions as real
    {
      BucketLookup(t, i);
      AverageOf(t, i);
    }
  }

  /** Every interaction's day has an entry. */
  lemma DailyStatsCoverDays(xs: seq<LoggedInteraction>, n: nat)
    requires n < |xs|
    ensures exists i | 0 <= i < |DailyStats(xs)| :: DailyStats(xs)[i].date == DayOf(xs[n].createdAt)
  {
    var es := DayEntries(xs);
    var t := Tally(es);
    TallySpec(es);
    assert es[n].key == DayOf(xs[n].createdAt);
    EntryCounted(es, n);
    CountedHasBucket(t, DayOf(xs[n].createdAt));
    var j :| 0 <= j < |t| && t[j].key == DayOf(xs[n].createdAt);
    assert DailyStats(xs)[j].date == t[j].key;
  }
}

=== FILE: base.dfy ===
/** Failure-carrying values shared by every component: a missing JavaScript value
    (`undefined`, a failed lookup) is `None`, and a thrown exception is `Err` carrying
    its message. */
module Base {

  datatype Option<+T> = None | Some(value: T) {
    function GetOr(default: T): T {
      match this
      case Some(v) => v
      case None => default
    }
  }

  datatype Result<+T> = Ok(value: T) | Err(error: string)
}

=== FILE: chat.dfy ===
/** The chatbot routes that guard the job lifecycle: the chat endpoint's checks before it
    asks the retrieval service, and the configuration update that cannot touch the
    lifecycle fields. */
module ChatRoutes {
  import opened Base
  import opened Retrieval
  import opened Jobs

  const MessageRequired := "Message is required"
  const NotFoundMessage := "Chatbot not found"
  const NotReadyMessage := "Chatbot is not ready yet"
  const ChatFailed := "Failed to generate response"
  const UpdateFailedMessage := "Failed to update chatbot"

  /** The chat endpoint's answer. */
  datatype ChatReply =
    | ChatError(code: nat, error: string, message: Option<string>)
    | NotReady(error: string, status: Status, progress: Option<nat>)
    | Answered(response: string, confidence: real, sources: seq<string>, name: string, botType: string)

  function HttpStatus(r: ChatReply): nat {
    match r
    case ChatError(code, _, _) => code
    case NotReady(_, _, _) => 400
    case Answered(_, _, _, _, _) => 200
  }

  /** `POST /:chatbotId/chat`: the message must be present, the chatbot must exist and be
      `completed`; only then is the retrieval service asked, and its failure is a 500. */
  function Chat(record: Option<JobRecord>, message: Option<string>, store: RagStore, rsp: Responder, chatbotId: string): (r: ChatReply)
    ensures !Truthy(message) ==> r == ChatError(400, MessageRequired, None)
    ensures Truthy(message) && record.None? ==> r == ChatError(404, NotFoundMessage, None)
    ensures Truthy(message) && record.Some? && record.value.status != Completed ==>
      r == NotReady(NotReadyMessage, record.value.status, record.value.progress)
    ensures r.Answered? ==>
      && Truthy(message) && record.Some? && record.value.status == Completed
      && var answer := GenerateContextualResponse(store, rsp, chatbotId, message.value);
      && answer.Ok?
      && r == Answered(answer.value.answer.response, answer.value.answer.confidence, answer.value.answer.sources,
                       record.value.websiteName, record.value.botType)
    ensures HttpStatus(r) == 500 <==>
      Truthy(message) && record.Some? && record.value.status == Completed
      && GenerateContextualResponse(store, rsp, chatbotId, message.value).Err?
  {
    if !Truthy(message) then ChatError(400, MessageRequired, None)
    else match record
      case None => ChatError(404, NotFoundMessage, None)
      case Some(bot) =>
        if bot.status != Completed then NotReady(NotReadyMessage, bot.status, bot.progress)
        else match GenerateContextualResponse(store, rsp, chatbotId, message.value)
          case Err(e) => ChatError(500, ChatFailed, Some(e))
          case Ok(x) => Answered(x.answer.response, x.answer.confidence, x.answer.sources, bot.websiteName, bot.botType)
  }

  /** Before the chatbot is ready, the reply does not depend on the knowledge base or the
      model at all: the retrieval service is never consulted. */
  lemma NotReadyIgnoresRetrieval(record: Option<JobRecord>, message: Option<string>, chatbotId: string,
                                 store: RagStore, rsp: Responder, store': RagStore, rsp': Responder)
    requires record.None? || record.value.status != Completed
    ensures Chat(record, message, store, rsp, chatbotId) == Chat(record, message, store', rsp', chatbotId)
  {
  }

  /** A missing message is rejected before the chatbot is looked up. */
  lemma MissingMessageIgnoresRecord(record: Option<JobRecord>, record': Option<JobRecord>, message: Option<string>,
                                    store: RagStore, rsp: Responder, chatbotId: string)
    requires !Truthy(message)
    ensures Chat(record, message, store, rsp, chatbotId) == Chat(record', message, store, rsp, chatbotId)
  {
  }

  /** Every answered reply carries a confidence of at least 0.3 and duplicate-free sources. */
  lemma AnsweredShape(record: Option<JobRecord>, message: Option<string>, store: RagStore, rsp: Responder, chatbotId: string)
    requires Chat(record, message, store, rsp, chatbotId).Answered?
    ensures Chat(record, message, store, rsp, chatbotId).confidence >= ConfidenceFloor
    ensures Seqs.Distinct(Chat(record, message, store, rsp, chatbotId).sources)
  {
    AnswerShape(store, rsp, chatbotId, message.value);
  }

  // ---------------------------------------------------------------------------
  // PUT /:chatbotId

  /** A JSON object with its values rendered as text. */
  type Fields = map<string, string>

  /** The fields an update may not set. */
  const ProtectedFields: set<string> := {"id", "created_at", "status", "progress"}

  const UpdatedAt := "updated_at"

  /** The body after the `delete`s and the `updated_at` stamp. */
  function StripProtected(body: Fields, now: string): (u: Fields)
    ensures forall k :: k in u <==> (k in body && k !in ProtectedFields) || k == UpdatedAt
    ensures UpdatedAt in u && u[UpdatedAt] == now
    ensures forall k | k in u && k != UpdatedAt :: u[k] == body[k]
  {
    (map k | k in body && k !in ProtectedFields :: body[k])[UpdatedAt := now]
  }

  datatype UpdateReply = UpdateFailed(error: string, message: string) | Updated(chatbot: Fields)

  /** `PUT /:chatbotId`: `row` is the store's single matching row, or its error. */
  function UpdateChatbot(row: Result<Fields>, body: Fields, now: string): UpdateReply {
    match row
    case Err(e) => UpdateFailed(UpdateFailedMessage, e)
    case Ok(fields) => Updated(fields + StripProtected(body, now))
  }

  /** An update never changes the lifecycle fields of the row, whatever the body holds,
      sets every other field the body names, and stamps `updated_at`. */
  lemma UpdateKeepsLifecycle(row: Fields, body: Fields, now: string)
    ensures var r := UpdateChatbot(Ok(row), body, now);
      && r.Updated?
      && (forall k | k in ProtectedFields :: (k in r.chatbot <==> k in row) && (k in row ==> r.chatbot[k] == row[k]))
      && (forall k | k in body && k !in ProtectedFields && k != UpdatedAt :: k in r.chatbot && r.chatbot[k] == body[k])
      && r.chatbot[UpdatedAt] == now
  {
    var u := StripProtected(body, now);
    assert UpdatedAt !in ProtectedFields;
    forall k | k in ProtectedFields ensures k !in u {
    }
  }
}

=== FILE: compiler.dfy ===
/** The QA compiler (`AIService`): pages are sent to a chat model two at a time, the
    replies are parsed leniently and stamped with their source pages, and a general
    overview batch is added at the end. The chat model, `JSON.parse` and the embedding
    model are parameters; the prompt wording is not modelled, only what each prompt is
    built from. */
module Compiler {
  import opened Base
  import opened Text
  import opened PageExtraction

  /** One entry of a reply's `qa_pairs` array. `confidence` is `None` when it is missing
      or not a number. Nothing else is checked. */
  datatype RawQa = RawQa(question: string, answer: string, category: string, keywords: seq<string>,
                         confidence: Option<real>)

  /** A generated fact, stamped with the pages it came from (the timestamp is left out). */
  datatype QaFact = QaFact(question: string, answer: string, category: string, keywords: seq<string>,
                           confidence: real, sourcePages: seq<string>)

  /** What `JSON.parse` makes of a cleaned reply: a syntax error, or an object whose
      `qa_pairs` is an array (`Some`) or is missing or not an array (`None`). */
  datatype ParsedReply = Malformed | Parsed(qaPairs: Option<seq<RawQa>>)

  /** The assistant flavour's system prompt; the prompt texts themselves are left out.
      `InheritedMember` is what a lookup by an `Object.prototype` member name yields. */
  datatype SystemPrompt =
    | NavigationPrompt | QaPrompt | WhatsappPrompt | SupportPrompt | GeneralPrompt
    | InheritedMember(name: string)

  /** What a chat request is built from. */
  datatype Prompt =
    | BatchPrompt(system: SystemPrompt, botType: string, content: string)
    | OverviewPrompt(overview: string)
    | SummaryPrompt(content: string)

  /** The model service: a chat reply (`None` when the call throws), the parser, and
      the embedding call. */
  datatype Ai = Ai(complete: Prompt -> Option<string>, parseJson: string -> ParsedReply,
                   embed: string -> Result<seq<real>>)

  const NoPagesError := "No scraped data provided for Q&A generation"
  const EmptyEmbeddingError := "Empty text provided for embedding"
  const NoSummaryText := "No content available for summary"
  const SummaryFailedText := "Unable to generate website summary due to processing error."

  const BatchSize := 2
  const BatchDefaultConfidence := 0.8
  const OverviewDefaultConfidence := 0.85
  const OverviewPages := 3

  // ---------------------------------------------------------------------------
  // system prompts

  /** The names `Object.prototype` carries, which a plain object literal inherits. */
  const PrototypeMembers: seq<string> := [
    "constructor", "hasOwnProperty", "isPrototypeOf", "propertyIsEnumerable", "toLocaleString",
    "toString", "valueOf", "__proto__", "__defineGetter__", "__defineSetter__",
    "__lookupGetter__", "__lookupSetter__"]

  function OwnPrompt(botType: string): Option<SystemPrompt> {
    if botType == "navigation" then Some(NavigationPrompt)
    else if botType == "qa" then Some(QaPrompt)
    else if botType == "whatsapp" then Some(WhatsappPrompt)
    else if botType == "support" then Some(SupportPrompt)
    else if botType == "general" then Some(GeneralPrompt)
    else None
  }

  /** `prompts[botType] || prompts.general` as written: the lookup also finds inherited
      members, which are truthy. */
  function GetSystemPromptAsWritten(botType: string): SystemPrompt {
    match OwnPrompt(botType)
    case Some(p) => p
    case None => if botType in PrototypeMembers then InheritedMember(botType) else GeneralPrompt
  }

  /** The intended lookup: one of the five flavour prompts, the general one for any
      other name. */
  function GetSystemPrompt(botType: string): (p: SystemPrompt)
    ensures !p.InheritedMember?
    ensures botType !in {"navigation", "qa", "whatsapp", "support", "general"} ==> p == GeneralPrompt
  {
    OwnPrompt(botType).GetOr(GeneralPrompt)
  }

  /** The five flavours each get their own prompt. */
  lemma FlavoursHaveDistinctPrompts()
    ensures GetSystemPrompt("navigation") == NavigationPrompt
    ensures GetSystemPrompt("qa") == QaPrompt
    ensures GetSystemPrompt("whatsapp") == WhatsappPrompt
    ensures GetSystemPrompt("support") == SupportPrompt
    ensures GetSystemPrompt("general") == GeneralPrompt
  {
  }

  /** The two lookups differ exactly on the inherited member names. */
  lemma {:induction false} PromptLookupDiffers(botType: string)
    ensures GetSystemPromptAsWritten(botType) != GetSystemPrompt(botType) <==> botType in PrototypeMembers
  {
  }

  /** A bot type of `constructor` reaches the prompt as the inherited constructor, not
      as the general prompt. */
  lemma ConstructorFinding()
    ensures GetSystemPromptAsWritten("constructor") == InheritedMember("constructor")
    ensures GetSystemPrompt("constructor") == GeneralPrompt
  {
    PromptLookupDiffers("constructor");
  }

  // ---------------------------------------------------------------------------
  // reply cleaning

  /** `s.replace(/<tag>\n?/g, '')`: every occurrence of `tag`, with one newline right
      after it, is removed, scanning left to right. */
  function DropFence(s: string, tag: string): (r: string)
    requires |tag| > 0
    ensures |r| <= |s|
    ensures !Contains(s, tag) ==> r == s
    decreases |s|
  {
    if |s| == 0 then ""
    else if StartsWith(s, tag) then
      var rest := s[|tag|..];
      DropFence(if |rest| > 0 && rest[0] == '\n' then rest[1..] else rest, tag)
    else [s[0]] + DropFence(s[1..], tag)
  }

  /** The code fences a model wraps JSON in are removed, then the edges trimmed. */
  function CleanReply(content: string): (r: string)
    ensures |r| <= |content|
    ensures |r| > 0 ==> !IsSpace(r[0]) && !IsSpace(r[|r| - 1])
    ensures !Contains(content, "```json") && !Contains(content, "```") ==> r == Trim(content)
  {
    Trim(DropFence(DropFence(content, "```json"), "```"))
  }

  // ---------------------------------------------------------------------------
  // batches

  function Urls(pages: seq<Page>): (urls: seq<string>)
    ensures |urls| == |pages| && forall i | 0 <= i < |pages| :: urls[i] == pages[i].url
  {
    seq(|pages|, i requires 0 <= i < |pages| => pages[i].url)
  }

  /** JavaScript truthiness of a confidence: missing and zero are falsy. */
  function ConfidenceOr(c: Option<real>, default: real): (r: real)
    ensures c.Some? && c.value != 0.0 ==> r == c.value
    ensures c.None? || c == Some(0.0) ==> r == default
  {
    if c.Some? && c.value != 0.0 then c.value else default
  }

  /** `{...qa, sourcePages, confidence: qa.confidence || default}` */
  function Stamp(qa: RawQa, sources: seq<string>, default: real): QaFact {
    QaFact(qa.question, qa.answer, qa.category, qa.keywords, ConfidenceOr(qa.confidence, default), sources)
  }

  function StampAll(qas: seq<RawQa>, sources: seq<string>, default: real): (facts: seq<QaFact>)
    ensures |facts| == |qas|
    ensures forall i | 0 <= i < |qas| :: facts[i] == Stamp(qas[i], sources, default)
  {
    seq(|qas|, i requires 0 <= i < |qas| => Stamp(qas[i], sources, default))
  }

  /** What one page contributes to a batch prompt: its URL, title, description and the
      first 1500 characters of its text. */
  function PageDigest(p: Page): string {
    "URL: " + p.url + "\nTitle: " + p.title + "\nDescription: " + p.description
      + "\nContent: " + Take(p.textContent, 1500)
  }

  function Digests(pages: seq<Page>): (ds: seq<string>)
    ensures |ds| == |pages| && forall i | 0 <= i < |pages| :: ds[i] == PageDigest(pages[i])
  {
    seq(|pages|, i requires 0 <= i < |pages| => PageDigest(pages[i]))
  }

  function BatchPromptOf(batch: seq<Page>, botType: string): Prompt {
    BatchPrompt(GetSystemPrompt(botType), botType, JoinWith(Digests(batch), "\n\n---PAGE_SEPARATOR---\n\n"))
  }

  /** The facts a reply yields: none unless it parses to an object with a `qa_pairs`
      array, and then one per entry, each stamped with the given sources. */
  function FactsOfReply(ai: Ai, reply: Option<string>, sources: seq<string>, default: real): (facts: seq<QaFact>)
    ensures facts == [] <==>
      reply.None? || ai.parseJson(CleanReply(reply.value)).Malformed?
      || ai.parseJson(CleanReply(reply.value)).qaPairs.None?
      || ai.parseJson(CleanReply(reply.value)).qaPairs.value == []
    ensures facts != [] ==> |facts| == |ai.parseJson(CleanReply(reply.value)).qaPairs.value|
    ensures forall i | 0 <= i < |facts| :: facts[i].sourcePages == sources
  {
    match reply
    case None => []
    case Some(content) =>
      match ai.parseJson(CleanReply(content))
      case Malformed => []
      case Parsed(None) => []
      case Parsed(Some(qas)) => StampAll(qas, sources, default)
  }

  /** `processBatch`: every way the call or the parse can fail gives no facts. */
  function ProcessBatch(ai: Ai, batch: seq<Page>, botType: string): (facts: seq<QaFact>)
    ensures forall i | 0 <= i < |facts| :: facts[i].sourcePages == Urls(batch)
    ensures ai.complete(BatchPromptOf(batch, botType)).None? ==> facts == []
  {
    FactsOfReply(ai, ai.complete(BatchPromptOf(batch, botType)), Urls(batch), BatchDefaultConfidence)
  }

  /** A falsy confidence becomes 0.8; everything else in an entry passes through. */
  lemma BatchFactFields(ai: Ai, batch: seq<Page>, botType: string, i: nat)
    requires var reply := ai.complete(BatchPromptOf(batch, botType));
      reply.Some? && ai.parseJson(CleanReply(reply.value)).Parsed?
      && ai.parseJson(CleanReply(reply.value)).qaPairs.Some?
      && i < |ai.parseJson(CleanReply(reply.value)).qaPairs.value|
    ensures var qa := ai.parseJson(CleanReply(ai.complete(BatchPromptOf(batch, botType)).value)).qaPairs.value[i];
      var f := ProcessBatch(ai, batch, botType)[i];
      && f.question == qa.question && f.answer == qa.answer && f.category == qa.category
      && f.keywords == qa.keywords
      && f.confidence == (if qa.confidence.Some? && qa.confidence.value != 0.0 then qa.confidence.value else 0.8)
  {
  }

  function Min(a: int, b: int): int { if a <= b then a else b }

  /** `pages.slice(i, i + 2)` */
  function BatchAt(pages: seq<Page>, i: nat): seq<Page>
    requires i < |pages|
  {
    pages[i..Min(i + BatchSize, |pages|)]
  }

  /** The batches from index `i` on, for `i` = 0, 2, 4, ... */
  function Batches(pages: seq<Page>, i: nat): seq<seq<Page>>
    decreases |pages| - i
  {
    if i >= |pages| then [] else [BatchAt(pages, i)] + Batches(pages, i + BatchSize)
  }

  function Concat<T>(xss: seq<seq<T>>): seq<T> {
    if |xss| == 0 then [] else xss[0] + Concat(xss[1..])
  }

  /** The batches cover the pages exactly once, in order, in `ceil(n/2)` batches of one
      or two pages. */
  lemma {:induction false} BatchesPartition(pages: seq<Page>, i: nat)
    requires i <= |pages|
    ensures Concat(Batches(pages, i)) == pages[i..]
    ensures |Batches(pages, i)| == (|pages| - i + 1) / 2
    ensures forall k | 0 <= k < |Batches(pages, i)| :: 1 <= |Batches(pages, i)[k]| <= 2
    decreases |pages| - i
  {
    if i < |pages| {
      var j := Min(i + BatchSize, |pages|);
      BatchesPartition(pages, j);
      if j < i + BatchSize {
        assert Batches(pages, i + BatchSize) == [];
      }
      assert pages[i..] == pages[i..j] + pages[j..];
    }
  }

  /** The facts of all batches from index `i` on, batch by batch. */
  function BatchFacts(ai: Ai, pages: seq<Page>, i: nat, botType: string): seq<QaFact>
    decreases |pages| - i
  {
    if i >= |pages| then []
    else ProcessBatch(ai, BatchAt(pages, i), botType) + BatchFacts(ai, pages, i + BatchSize, botType)
  }

  /** Every batch fact names one or two consecutive pages, in page order. */
  lemma {:induction false} BatchFactSources(ai: Ai, pages: seq<Page>, i: nat, botType: string, f: QaFact)
    requires f in BatchFacts(ai, pages, i, botType)
    ensures exists k | i <= k < |pages| :: f.sourcePages == Urls(BatchAt(pages, k))
    decreases |pages| - i
  {
    var batch := BatchAt(pages, i);
    var here := ProcessBatch(ai, batch, botType);
    var later := BatchFacts(ai, pages, i + BatchSize, botType);
    assert BatchFacts(ai, pages, i, botType) == here + later;
    if f in here {
      var m :| 0 <= m < |here| && here[m] == f;
      assert f.sourcePages == Urls(batch);
    } else {
      assert f in later;
      BatchFactSources(ai, pages, i + BatchSize, botType, f);
    }
  }

  /** One turn of the batch loop. */
  lemma BatchFactsStep(ai: Ai, pages: seq<Page>, i: nat, botType: string, done: seq<QaFact>)
    requires i < |pages|
    ensures done + BatchFacts(ai, pages, i, botType)
         == (done + ProcessBatch(ai, pages[i..Min(i + BatchSize, |pages|)], botType)) + BatchFacts(ai, pages, i + BatchSize, botType)
  {
  }

  /** A model that never answers. */
  function NoReply(p: Prompt): Option<string> { None }

  /** When the model is unreachable every batch yields nothing. */
  lemma {:induction false} SilentModelYieldsNoBatchFacts(ai: Ai, pages: seq<Page>, i: nat, botType: string)
    requires ai.complete == NoReply
    ensures BatchFacts(ai, pages, i, botType) == []
    decreases |pages| - i
  {
    if i < |pages| {
      SilentModelYieldsNoBatchFacts(ai, pages, i + BatchSize, botType);
    }
  }

  // ---------------------------------------------------------------------------
  // overview, summary

  /** `title: text.substring(0, n)` for each of the first three pages, blank-line joined. */
  function Overview(pages: seq<Page>, n: int): string {
    var firsts := Take3(pages);
    JoinWith(seq(|firsts|, i requires 0 <= i < |firsts| => firsts[i].title + ": " + Take(firsts[i].textContent, n)), "\n\n")
  }

  function Take3(pages: seq<Page>): (r: seq<Page>)
    ensures |r| == Min(|pages|, OverviewPages) && r == pages[..|r|]
  {
    if |pages| <= OverviewPages then pages else pages[..OverviewPages]
  }

  /** `generateGeneralQAs`: one request built from the first three pages; its facts name
      those three pages and default to 0.85; any failure gives none. */
  function GeneralQAs(ai: Ai, pages: seq<Page>): (facts: seq<QaFact>)
    ensures forall i | 0 <= i < |facts| :: facts[i].sourcePages == Urls(Take3(pages))
    ensures ai.complete(OverviewPrompt(Overview(pages, 800))).None? ==> facts == []
  {
    FactsOfReply(ai, ai.complete(OverviewPrompt(Overview(pages, 800))), Urls(Take3(pages)), OverviewDefaultConfidence)
  }

  /** The overview reads nothing past the third page. */
  lemma GeneralQAsReadFirstThree(ai: Ai, pages: seq<Page>, more: seq<Page>)
    requires |pages| >= OverviewPages
    ensures GeneralQAs(ai, pages + more) == GeneralQAs(ai, pages)
  {
    assert Take3(pages + more) == Take3(pages);
  }

  /** `generateQuestionsAndAnswers`: no pages is an error before any model call;
      otherwise the batch facts in batch order, then the overview facts. */
  method GenerateQuestionsAndAnswers(ai: Ai, pages: Option<seq<Page>>, botType: string)
    returns (r: Result<seq<QaFact>>)
    ensures r.Err? <==> pages.None? || pages.value == []
    ensures r.Err? ==> r.error == NoPagesError
    ensures r.Ok? ==> r.value == BatchFacts(ai, pages.value, 0, botType) + GeneralQAs(ai, pages.value)
  {
    if pages.None? || pages.value == [] {
      return Err(NoPagesError);
    }
    var ps := pages.value;
    var all: seq<QaFact> := [];
    var i := 0;
    while i < |ps|
      invariant all + BatchFacts(ai, ps, i, botType) == BatchFacts(ai, ps, 0, botType)
      decreases |ps| - i
    {
      var batch := ps[i..Min(i + BatchSize, |ps|)];
      var batchFacts := ProcessBatch(ai, batch, botType);
      BatchFactsStep(ai, ps, i, botType, all);
      all := all + batchFacts;
      i := i + BatchSize;
    }
    assert BatchFacts(ai, ps, i, botType) == [];
    assert all == all + BatchFacts(ai, ps, i, botType);
    all := all + GeneralQAs(ai, ps);
    r := Ok(all);
  }

  /** `summarizeWebsite`: fixed texts when there are no pages or the call fails. */
  function SummarizeWebsite(ai: Ai, pages: Option<seq<Page>>): (summary: string)
    ensures pages.None? || pages.value == [] ==> summary == NoSummaryText
    ensures pages.Some? && pages.value != [] && ai.complete(SummaryPrompt(Overview(pages.value, 1000))).None?
            ==> summary == SummaryFailedText
  {
    if pages.None? || pages.value == [] then NoSummaryText
    else ai.complete(SummaryPrompt(Overview(pages.value, 1000))).GetOr(SummaryFailedText)
  }

  /** The summary reads nothing past the third page. */
  lemma SummaryReadsFirstThree(ai: Ai, pages: seq<Page>, more: seq<Page>)
    requires |pages| >= OverviewPages
    ensures SummarizeWebsite(ai, Some(pages + more)) == SummarizeWebsite(ai, Some(pages))
  {
    assert Take3(pages + more) == Take3(pages);
  }

  // ---------------------------------------------------------------------------
  // embeddings

  const MaxEmbeddingInput := 8000

  /** `text.replace(/\s+/g, ' ').trim().substring(0, 8000)` */
  function EmbeddingInput(text: string): (r: string)
    ensures |r| <= MaxEmbeddingInput
    ensures r == "" <==> AllSpace(text)
    ensures |r| > 0 ==> !IsSpace(r[0])
    ensures Collapsed(r)
  {
    var c := Collapse(text);
    CollapsedTrim(c);
    CleanBlankIffAllSpace(text);
    TrimBlankIffAllSpace(c);
    var t := Trim(c);
    var r := Take(t, MaxEmbeddingInput);
    CollapsedPrefix(t, |r|);
    r
  }

  lemma CollapsedPrefix(s: string, n: nat)
    requires Collapsed(s) && n <= |s|
    ensures Collapsed(s[..n])
  {
    CollapsedInfix(s, 0, n);
    assert s[0..n] == s[..n];
  }

  /** The embedding input is the page-cleaning rule, cut at 8000 characters. */
  lemma EmbeddingInputIsCleanText(text: string)
    ensures EmbeddingInput(text) == Take(CleanText(text), MaxEmbeddingInput)
  {
    NewlinePassIsRedundant(text);
  }

  /** `generateEmbeddings`: blank text is refused before the model is called. */
  function GenerateEmbeddings(ai: Ai, text: string): (r: Result<seq<real>>)
    ensures AllSpace(text) ==> r == Err(EmptyEmbeddingError)
    ensures !AllSpace(text) ==> r == ai.embed(EmbeddingInput(text))
  {
    var input := EmbeddingInput(text);
    if input == "" then Err(EmptyEmbeddingError) else ai.embed(input)
  }
}

=== FILE: crawl.dfy ===
/** `crawlWebsite`: breadth-first discovery of a site's pages when no sitemap is found.
    Fetching a page's anchors and resolving a link against a page are parameters. */
module Crawl {
  import opened Base
  import opened Text
  import opened Seqs
  import opened Urls

  const DefaultExcludePatterns: seq<string> :=
    ["/admin", "/login", "/api", ".pdf", ".jpg", ".png", ".gif", ".css", ".js"]

  /** `${protocol}//${hostname}${pathname}`: port, query and fragment are dropped. */
  function Normalize(u: Url): string {
    u.protocol + "//" + u.hostname + u.pathname
  }

  /** `hostname.split('.').slice(-2).join('.')`: the last two labels, or the whole name
      when it has fewer. */
  function BaseDomain(host: string): string {
    var labels := Split(host, '.');
    Join(labels[if |labels| >= 2 then |labels| - 2 else 0..], '.')
  }

  /** The base domain is a tail of the host name, so the seed host always passes the
      subdomain policy. */
  lemma BaseDomainContained(host: string)
    ensures Contains(host, BaseDomain(host))
  {
    var labels := Split(host, '.');
    var m := JoinSuffixOfSplit(host, '.', if |labels| >= 2 then |labels| - 2 else 0);
    SuffixContained(host, m);
  }

  /** The `href` filter of `extractLinksFromPage`. */
  predicate IsOfferedHref(href: string) {
    href != "" && !StartsWith(href, "#") && !StartsWith(href, "mailto:") && !StartsWith(href, "tel:")
  }

  /** The crawl's fixed inputs: the page budget, the domain policy, the exclusion
      patterns, the seed's host name, and the two environment functions. `anchors` gives
      the `href` of every `a[href]` of a page, or nothing when the fetch fails. */
  datatype Crawler = Crawler(
    maxPages: int,
    includeSubdomains: bool,
    excludePatterns: seq<string>,
    baseHost: string,
    anchors: string -> seq<string>,
    resolve: Resolver)
  {
    /** `extractLinksFromPage` */
    function Links(page: string): (links: seq<string>)
      ensures forall i | 0 <= i < |links| :: IsOfferedHref(links[i])
    {
      Filter(anchors(page), IsOfferedHref)
    }

    predicate DomainAllowed(host: string) {
      if includeSubdomains then Contains(host, BaseDomain(baseHost)) else host == baseHost
    }

    /** Exclusion looks at the raw link text, not at the resolved URL. */
    predicate Excluded(link: string) {
      exists i | 0 <= i < |excludePatterns| :: Contains(link, excludePatterns[i])
    }

    /** The normalised URL a link on `page` contributes, if it passes the checks. */
    function Admit(page: string, link: string): (r: Option<string>)
      ensures r.Some? <==> resolve(link, page).Some? && DomainAllowed(resolve(link, page).value.hostname) && !Excluded(link)
      ensures r.Some? ==> r.value == Normalize(resolve(link, page).value)
    {
      match resolve(link, page)
      case None => None
      case Some(u) => if !DomainAllowed(u.hostname) || Excluded(link) then None else Some(Normalize(u))
    }

    /** `child` is admitted from some link of `page`. */
    ghost predicate Spawns(page: string, child: string) {
      exists k | 0 <= k < |Links(page)| :: Admit(page, Links(page)[k]) == Some(child)
    }

    /** Every admitted link of `page` is in `found`, unless the budget is used up. */
    ghost predicate Closed(page: string, found: seq<string>) {
      forall k | 0 <= k < |Links(page)| :: Admit(page, Links(page)[k]).Some? ==>
        Admit(page, Links(page)[k]).value in found || |found| >= maxPages
    }
  }

  function Max(a: int, b: int): int { if a >= b then a else b }

  /** The inner loop over one page's links: each admitted URL not yet discovered is
      appended while the budget lasts. */
  method EnqueueLinks(c: Crawler, page: string, discovered: seq<string>) returns (found: seq<string>)
    requires Distinct(discovered)
    ensures |discovered| <= |found| && found[..|discovered|] == discovered
    ensures Distinct(found)
    ensures |found| <= Max(|discovered|, c.maxPages)
    ensures forall i | |discovered| <= i < |found| :: c.Spawns(page, found[i])
    ensures c.Closed(page, found)
  {
    var links := c.Links(page);
    found := discovered;
    var k := 0;
    while k < |links|
      invariant 0 <= k <= |links|
      invariant |discovered| <= |found| && found[..|discovered|] == discovered
      invariant Distinct(found)
      invariant |found| <= Max(|discovered|, c.maxPages)
      invariant forall i | |discovered| <= i < |found| :: c.Spawns(page, found[i])
      invariant forall j | 0 <= j < k :: c.Admit(page, links[j]).Some? ==>
        c.Admit(page, links[j]).value in found || |found| >= c.maxPages
    {
      var admitted := c.Admit(page, links[k]);
      if admitted.Some? && admitted.value !in found && |found| < c.maxPages {
        assert c.Spawns(page, admitted.value);
        found := found + [admitted.value];
      }
      k := k + 1;
    }
  }

  /** What holds of the discovered list and the pages whose links were read
      (`extracted`, in the order they were read) at every turn of the crawl loop. */
  ghost predicate Progress(c: Crawler, seed: string, discovered: seq<string>, extracted: seq<string>) {
    // the seed comes first, nothing twice, within the budget (the seed always counts)
    && |discovered| >= 1 && discovered[0] == seed
    && Distinct(discovered)
    && |discovered| <= Max(c.maxPages, 1)
    // pages are read in discovery order (breadth first)
    && |extracted| <= |discovered| && extracted == discovered[..|extracted|]
    // every later URL was admitted from a page read before it
    && (forall i | 1 <= i < |discovered| ::
          exists j | 0 <= j < i && j < |extracted| :: c.Spawns(discovered[j], discovered[i]))
    // every page read had all its admitted links discovered, budget permitting
    && (forall j | 0 <= j < |extracted| :: c.Closed(extracted[j], discovered))
  }

  /** What the crawl guarantees on return: the loop's facts, and it stops before
      reading every discovered page only when the budget is used up. */
  ghost predicate CrawlOutcome(c: Crawler, seed: string, discovered: seq<string>, extracted: seq<string>) {
    && Progress(c, seed, discovered, extracted)
    && (|discovered| < c.maxPages ==> |extracted| == |discovered|)
  }

  /** The crawl loop: a FIFO queue of discovered, unprocessed URLs. */
  method Bfs(c: Crawler, seed: string) returns (discovered: seq<string>, extracted: seq<string>)
    ensures CrawlOutcome(c, seed, discovered, extracted)
  {
    discovered := [seed];
    var queue := [seed];
    var processed: set<string> := {};
    extracted := [];
    while |queue| > 0 && |discovered| < c.maxPages
      invariant Progress(c, seed, discovered, extracted)
      invariant queue == discovered[|extracted|..]
      invariant forall x :: x in processed <==> x in extracted
      decreases c.maxPages - |discovered|, |queue|
    {
      discovered, extracted, queue, processed := Turn(c, seed, discovered, extracted, queue, processed);
    }
  }

  /** One turn of the crawl loop: take the head of the queue and, unless it was read
      already, read its links and queue the new URLs. */
  method Turn(c: Crawler, seed: string, discovered: seq<string>, extracted: seq<string>,
              queue: seq<string>, processed: set<string>)
    returns (discovered': seq<string>, extracted': seq<string>, queue': seq<string>, processed': set<string>)
    requires |queue| > 0 && |discovered| < c.maxPages
    requires Progress(c, seed, discovered, extracted)
    requires queue == discovered[|extracted|..]
    requires forall x :: x in processed <==> x in extracted
    ensures Progress(c, seed, discovered', extracted')
    ensures queue' == discovered'[|extracted'|..]
    ensures forall x :: x in processed' <==> x in extracted'
    ensures |discovered| <= |discovered'| && (|discovered'| == |discovered| ==> |queue'| < |queue|)
  {
    var current := queue[0];
    discovered', extracted', queue', processed' := discovered, extracted, queue[1..], processed;
    NextIsUnread(discovered, extracted);
    if current !in processed {
      processed' := processed + {current};
      extracted' := extracted + [current];
      discovered' := EnqueueLinks(c, current, discovered);
      queue' := queue' + discovered'[|discovered|..];
      BfsStep(c, seed, discovered, extracted, current, discovered');
      QueueStep(discovered, discovered', |extracted|);
    }
  }

  /** After a page is read, the queue is the rest of the old queue followed by what the
      page added. */
  lemma QueueStep(before: seq<string>, after: seq<string>, n: nat)
    requires n < |before| <= |after| && after[..|before|] == before
    ensures before[n..][1..] + after[|before|..] == after[n + 1..]
  {
    assert before[n..][1..] == after[n + 1..|before|];
  }

  /** The head of the queue has not been read yet: the list holds nothing twice. */
  lemma NextIsUnread(discovered: seq<string>, extracted: seq<string>)
    requires Distinct(discovered) && |extracted| < |discovered| && extracted == discovered[..|extracted|]
    ensures discovered[|extracted|] !in extracted
  {
  }

  /** One turn of the crawl loop keeps the discovery tree and the closure. */
  lemma BfsStep(c: Crawler, seed: string, before: seq<string>, read: seq<string>, current: string, after: seq<string>)
    requires Progress(c, seed, before, read)
    requires |read| < |before| < c.maxPages && current == before[|read|]
    requires |before| <= |after| && after[..|before|] == before
    requires Distinct(after) && |after| <= Max(|before|, c.maxPages)
    requires forall i | |before| <= i < |after| :: c.Spawns(current, after[i])
    requires c.Closed(current, after)
    ensures Progress(c, seed, after, read + [current])
  {
    assert after[|read|] == current;
    assert read + [current] == after[..|read| + 1];
    forall i | 1 <= i < |after|
      ensures exists j | 0 <= j < i && j < |read| + 1 :: c.Spawns(after[j], after[i])
    {
      if i < |before| {
        var j :| 0 <= j < i && j < |read| && c.Spawns(before[j], before[i]);
        assert after[j] == before[j] && after[i] == before[i];
      } else {
        assert c.Spawns(after[|read|], after[i]);
      }
    }
    forall j | 0 <= j < |read| + 1 ensures c.Closed((read + [current])[j], after) {
      if j < |read| {
        ClosedGrows(c, read[j], before, after);
      }
    }
  }

  /** Closure survives appending to the discovered list. */
  lemma ClosedGrows(c: Crawler, page: string, before: seq<string>, after: seq<string>)
    requires c.Closed(page, before)
    requires |before| <= |after| && after[..|before|] == before
    ensures c.Closed(page, after)
  {
    forall k | 0 <= k < |c.Links(page)| && c.Admit(page, c.Links(page)[k]).Some?
      ensures c.Admit(page, c.Links(page)[k]).value in after || |after| >= c.maxPages
    {
      var v := c.Admit(page, c.Links(page)[k]).value;
      if v in before {
        var p :| 0 <= p < |before| && before[p] == v;
        assert after[p] == v;
      }
    }
  }

  /** `crawlWebsite`: the seed must parse, since its host name anchors the domain
      policy; the result is the discovered list in discovery order. */
  method CrawlWebsite(seed: string, maxPages: int, includeSubdomains: bool, excludePatterns: seq<string>,
                      parse: Parser, anchors: string -> seq<string>, resolve: Resolver)
    returns (r: Result<seq<string>>, c: Crawler, extracted: seq<string>)
    ensures r.Err? <==> parse(seed).None?
    ensures r.Err? ==> r.error == InvalidUrlMessage
    ensures r.Ok? ==> c == Crawler(maxPages, includeSubdomains, excludePatterns, parse(seed).value.hostname, anchors, resolve)
    ensures r.Ok? ==> CrawlOutcome(c, seed, r.value, extracted)
  {
    c := Crawler(maxPages, includeSubdomains, excludePatterns, "", anchors, resolve);
    extracted := [];
    match parse(seed)
    case None =>
      r := Err(InvalidUrlMessage);
    case Some(u) =>
      c := Crawler(maxPages, includeSubdomains, excludePatterns, u.hostname, anchors, resolve);
      var discovered, read := Bfs(c, seed);
      extracted := read;
      r := Ok(discovered);
  }

  /** The message of the `TypeError` the `URL` constructor throws. */
  const InvalidUrlMessage := "Invalid URL"

  /** A URL admitted from a page is the normal form of a resolved link that the page
      offers, whose host obeys the domain policy and whose text matches no exclusion
      pattern. */
  lemma SpawnedIsAdmissible(c: Crawler, page: string, child: string)
    requires c.Spawns(page, child)
    ensures exists k | 0 <= k < |c.anchors(page)| ::
      && IsOfferedHref(c.anchors(page)[k])
      && c.resolve(c.anchors(page)[k], page).Some?
      && c.DomainAllowed(c.resolve(c.anchors(page)[k], page).value.hostname)
      && !c.Excluded(c.anchors(page)[k])
      && child == Normalize(c.resolve(c.anchors(page)[k], page).value)
  {
    var k :| 0 <= k < |c.Links(page)| && c.Admit(page, c.Links(page)[k]) == Some(child);
    var link := c.Links(page)[k];
    FilterMembers(c.anchors(page), IsOfferedHref);
    assert link in c.anchors(page);
    var m :| 0 <= m < |c.anchors(page)| && c.anchors(page)[m] == link;
  }

  /** Without subdomains only the seed's own host is followed; with them, the seed's
      host is always admissible. */
  lemma SeedHostAllowed(c: Crawler)
    ensures c.DomainAllowed(c.baseHost)
  {
    if c.includeSubdomains {
      BaseDomainContained(c.baseHost);
    }
  }

  /** With a budget of one page or less the crawl reads nothing and returns the seed. */
  lemma TinyBudget(c: Crawler, seed: string, discovered: seq<string>, extracted: seq<string>)
    requires CrawlOutcome(c, seed, discovered, extracted) && c.maxPages <= 1
    ensures discovered == [seed]
  {
  }
}

=== FILE: discovery.dfy ===
/** Sitemap discovery (`getSitemapUrls`, `parseSitemap`, `parseRobotsTxt`). Fetching is
    a parameter: `fetchText` gives the body of an OK response, `None` when the request
    fails or the status is not OK; `urlLocs` gives the text of every `url loc` element of
    an XML body. */
module Discovery {
  import opened Base
  import opened Text
  import opened Urls

  datatype Web = Web(fetchText: string -> Option<string>, urlLocs: string -> seq<string>, parse: Parser)

  /** The four places a sitemap is looked for, in order; only the last is a robots file. */
  function SitemapCandidates(baseUrl: string): (cs: seq<string>)
    ensures |cs| == 4
    ensures EndsWith(cs[3], "robots.txt") && forall i | 0 <= i < 3 :: !EndsWith(cs[i], "robots.txt")
  {
    var cs := [baseUrl + "/sitemap.xml", baseUrl + "/sitemap_index.xml", baseUrl + "/sitemaps.xml", baseUrl + "/robots.txt"];
    EndsWithAppended(baseUrl + "/", "robots.txt");
    assert forall i | 0 <= i < 3 :: cs[i][|cs[i]| - 1] == 'l';
    cs
  }

  lemma EndsWithAppended(a: string, b: string)
    ensures EndsWith(a + b, b)
  {
    assert (a + b)[|a + b| - |b|..] == b;
  }

  /** Only valid http(s) URLs are ever reported. */
  predicate AllValid(parse: Parser, urls: seq<string>) {
    forall i | 0 <= i < |urls| :: IsValidHttpUrl(parse, urls[i])
  }

  /** A `url loc` text is kept, trimmed, when it is non-empty and an http(s) URL. */
  function KeepLocs(parse: Parser, locs: seq<string>): (urls: seq<string>)
    ensures |urls| <= |locs|
    ensures AllValid(parse, urls)
  {
    if |locs| == 0 then []
    else
      var rest := KeepLocs(parse, locs[1..]);
      var u := Trim(locs[0]);
      if u != "" && IsValidHttpUrl(parse, u) then
        AllValidAppend(parse, [u], rest);
        [u] + rest
      else rest
  }

  lemma {:induction false} KeepLocsAppend(parse: Parser, a: seq<string>, b: seq<string>)
    ensures KeepLocs(parse, a + b) == KeepLocs(parse, a) + KeepLocs(parse, b)
  {
    if |a| == 0 {
      assert a + b == b;
    } else {
      assert (a + b)[1..] == a[1..] + b;
      KeepLocsAppend(parse, a[1..], b);
    }
  }

  lemma AllValidAppend(parse: Parser, a: seq<string>, b: seq<string>)
    requires AllValid(parse, a) && AllValid(parse, b)
    ensures AllValid(parse, a + b)
  {
    assert forall i | 0 <= i < |a| + |b| :: (a + b)[i] == if i < |a| then a[i] else b[i - |a|];
  }

  /** `parseSitemap`: the `url loc` entries of the fetched document. Entries of nested
      `sitemap loc` indexes are appended by callbacks that run after the function has
      returned, so they are not part of the result. */
  function ParseSitemap(web: Web, sitemapUrl: string): (urls: seq<string>)
    ensures AllValid(web.parse, urls)
    ensures web.fetchText(sitemapUrl).None? ==> urls == []
  {
    match web.fetchText(sitemapUrl)
    case None => []
    case Some(xml) => KeepLocs(web.parse, web.urlLocs(xml))
  }

  /** The value the code extracts from a `Sitemap:` line: `line.split(':', 2)[1].trim()`,
      the text between the first and the second colon. */
  function SitemapDirectiveValue(line: string): (v: string)
    ensures ':' !in v
  {
    var parts := Split(line, ':');
    if |parts| >= 2 then
      var t := Trim(parts[1]);
      TrimInfixNoColon(parts[1]);
      t
    else ""
  }

  lemma TrimInfixNoColon(s: string)
    requires ':' !in s
    ensures ':' !in Trim(s)
  {
    var t := TrimStart(s);
    assert forall i | 0 <= i < |t| :: t[i] == s[|s| - |t| + i];
    var r := TrimEnd(t);
    assert forall i | 0 <= i < |r| :: r[i] == t[i];
  }

  /** The lines of a robots file that start, case-insensitively, with `sitemap:`. */
  predicate IsSitemapLine(line: string) {
    StartsWith(LowerStr(line), "sitemap:")
  }

  /** The values of the `Sitemap:` directives of a robots file, in order, each read by
      `value`. */
  function RobotsDirectives(lines: seq<string>, value: string -> string): (vs: seq<string>)
    ensures |vs| <= |lines|
  {
    if |lines| == 0 then []
    else
      var rest := RobotsDirectives(lines[1..], value);
      if IsSitemapLine(lines[0]) then [value(lines[0])] + rest else rest
  }

  function SitemapsOf(web: Web, sitemaps: seq<string>): (urls: seq<string>)
    ensures AllValid(web.parse, urls)
  {
    if |sitemaps| == 0 then []
    else
      var a := ParseSitemap(web, sitemaps[0]);
      var b := SitemapsOf(web, sitemaps[1..]);
      AllValidAppend(web.parse, a, b);
      a + b
  }

  /** `parseRobotsTxt`: every sitemap named by a directive, parsed in turn, results
      concatenated. Directive values are read as intended (see `IntendedDirectiveValue`). */
  function ParseRobotsTxt(web: Web, robotsUrl: string): (urls: seq<string>)
    ensures AllValid(web.parse, urls)
    ensures web.fetchText(robotsUrl).None? ==> urls == []
  {
    match web.fetchText(robotsUrl)
    case None => []
    case Some(text) => SitemapsOf(web, RobotsDirectives(Split(text, '\n'), IntendedDirectiveValue))
  }

  /** `parseRobotsTxt` as written, reading each directive with `split(':', 2)[1]`. */
  function ParseRobotsTxtAsWritten(web: Web, robotsUrl: string): (urls: seq<string>)
    ensures AllValid(web.parse, urls)
    ensures web.fetchText(robotsUrl).None? ==> urls == []
  {
    match web.fetchText(robotsUrl)
    case None => []
    case Some(text) => SitemapsOf(web, RobotsDirectives(Split(text, '\n'), SitemapDirectiveValue))
  }

  /** Dispatch on the candidate's name, as the loop in `getSitemapUrls` does. */
  function ProbeCandidate(web: Web, candidate: string): (urls: seq<string>)
    ensures AllValid(web.parse, urls)
  {
    if EndsWith(candidate, "robots.txt") then ParseRobotsTxt(web, candidate) else ParseSitemap(web, candidate)
  }

  function FirstNonEmpty(web: Web, candidates: seq<string>): (urls: seq<string>)
    ensures AllValid(web.parse, urls)
    ensures urls == [] <==> forall i | 0 <= i < |candidates| :: ProbeCandidate(web, candidates[i]) == []
  {
    if |candidates| == 0 then []
    else
      var urls := ProbeCandidate(web, candidates[0]);
      if urls != [] then urls
      else
        var rest := FirstNonEmpty(web, candidates[1..]);
        assert forall i | 1 <= i < |candidates| :: candidates[1..][i - 1] == candidates[i];
        rest
  }

  /** The result is that of the first candidate yielding anything. */
  lemma {:induction false} FirstNonEmptyIsFirst(web: Web, candidates: seq<string>, k: nat)
    requires k < |candidates| && ProbeCandidate(web, candidates[k]) != []
    requires forall j | 0 <= j < k :: ProbeCandidate(web, candidates[j]) == []
    ensures FirstNonEmpty(web, candidates) == ProbeCandidate(web, candidates[k])
  {
    if k > 0 {
      var tail := candidates[1..];
      assert ProbeCandidate(web, candidates[0]) == [];
      assert FirstNonEmpty(web, candidates) == FirstNonEmpty(web, tail);
      assert tail[k - 1] == candidates[k];
      forall j | 0 <= j < k - 1 ensures ProbeCandidate(web, tail[j]) == [] {
        assert tail[j] == candidates[j + 1];
      }
      FirstNonEmptyIsFirst(web, tail, k - 1);
    }
  }

  /** `getSitemapUrls`: the result of the first candidate that yields any URL. */
  function GetSitemapUrls(web: Web, baseUrl: string): (urls: seq<string>)
    ensures AllValid(web.parse, urls)
    ensures urls == [] <==> forall i | 0 <= i < 4 :: ProbeCandidate(web, SitemapCandidates(baseUrl)[i]) == []
  {
    FirstNonEmpty(web, SitemapCandidates(baseUrl))
  }

  /** An OK `sitemap.xml` with a usable entry wins over every other candidate. */
  lemma SitemapXmlFirst(web: Web, baseUrl: string)
    requires ParseSitemap(web, baseUrl + "/sitemap.xml") != []
    ensures GetSitemapUrls(web, baseUrl) == ParseSitemap(web, baseUrl + "/sitemap.xml")
  {
    var cs := SitemapCandidates(baseUrl);
    assert ProbeCandidate(web, cs[0]) == ParseSitemap(web, cs[0]);
    FirstNonEmptyIsFirst(web, cs, 0);
  }

  /** The robots file is consulted only when the three XML candidates yield nothing. */
  lemma RobotsLast(web: Web, baseUrl: string)
    requires forall i | 0 <= i < 3 :: ParseSitemap(web, SitemapCandidates(baseUrl)[i]) == []
    ensures GetSitemapUrls(web, baseUrl) == ParseRobotsTxt(web, baseUrl + "/robots.txt")
  {
    var cs := SitemapCandidates(baseUrl);
    assert forall i | 0 <= i < 3 :: ProbeCandidate(web, cs[i]) == ParseSitemap(web, cs[i]);
    assert ProbeCandidate(web, cs[3]) == ParseRobotsTxt(web, cs[3]);
    if ParseRobotsTxt(web, cs[3]) != [] {
      FirstNonEmptyIsFirst(web, cs, 3);
    }
  }

  /** The first non-empty result of a concatenated candidate list is that of the first
      part, unless the first part yields nothing. */
  lemma {:induction false} FirstNonEmptyAppend(web: Web, a: seq<string>, b: seq<string>)
    ensures FirstNonEmpty(web, a + b) == if FirstNonEmpty(web, a) != [] then FirstNonEmpty(web, a) else FirstNonEmpty(web, b)
    decreases |a|
  {
    if |a| > 0 {
      assert (a + b)[0] == a[0];
      assert (a + b)[1..] == a[1..] + b;
      FirstNonEmptyAppend(web, a[1..], b);
    } else {
      assert a + b == b;
    }
  }

  /** `getSitemapUrls` as written: the three XML candidates in order, then the robots
      file read by `parseRobotsTxt` as written. */
  function GetSitemapUrlsAsWritten(web: Web, baseUrl: string): (urls: seq<string>)
    ensures AllValid(web.parse, urls)
  {
    var cs := SitemapCandidates(baseUrl);
    var xml := FirstNonEmpty(web, cs[..3]);
    if xml != [] then xml else ParseRobotsTxtAsWritten(web, cs[3])
  }

  /** The discovery as written and the corrected one agree unless all three XML
      candidates fail; then they differ only in how the robots file is read. */
  lemma DiscoveryDiffersOnlyAtRobots(web: Web, baseUrl: string)
    ensures FirstNonEmpty(web, SitemapCandidates(baseUrl)[..3]) != [] ==>
      GetSitemapUrlsAsWritten(web, baseUrl) == GetSitemapUrls(web, baseUrl)
    ensures FirstNonEmpty(web, SitemapCandidates(baseUrl)[..3]) == [] ==>
      && GetSitemapUrlsAsWritten(web, baseUrl) == ParseRobotsTxtAsWritten(web, baseUrl + "/robots.txt")
      && GetSitemapUrls(web, baseUrl) == ParseRobotsTxt(web, baseUrl + "/robots.txt")
  {
    var cs := SitemapCandidates(baseUrl);
    assert cs == cs[..3] + [cs[3]];
    FirstNonEmptyAppend(web, cs[..3], [cs[3]]);
    assert FirstNonEmpty(web, [cs[3]]) == ProbeCandidate(web, cs[3]);
    assert cs[3] == baseUrl + "/robots.txt";
  }

  // ---------------------------------------------------------------------------
  // the directive value: as written and as evidently intended

  /** The value the directive evidently means: everything after the first colon, trimmed. */
  function IntendedDirectiveValue(line: string): (v: string)
  {
    var i := IndexOf(line, ':');
    if i < 0 then "" else Trim(line[i + 1..])
  }

  /** For a directive whose value is itself a URL, the intended reading keeps the whole
      URL: the colon of the scheme stays. */
  lemma IntendedKeepsUrl(name: string, gap: string, url: string)
    requires ':' !in name && AllSpace(gap)
    requires |url| > 0 && !IsSpace(url[0]) && !IsSpace(url[|url| - 1])
    ensures IntendedDirectiveValue(name + ":" + gap + url) == url
  {
    var line := name + ":" + gap + url;
    assert line == name + [':'] + (gap + url);
    IndexOfJoined(name, ':', gap + url);
    assert line[|name| + 1..] == gap + url;
    TrimOfSpacePrefix(gap, url);
  }

  lemma {:induction false} TrimOfSpacePrefix(gap: string, url: string)
    requires AllSpace(gap)
    requires |url| > 0 && !IsSpace(url[0]) && !IsSpace(url[|url| - 1])
    ensures Trim(gap + url) == url
    decreases |gap|
  {
    if |gap| == 0 {
      assert gap + url == url;
      TrimOfTrimmed(url);
    } else {
      assert (gap + url)[1..] == gap[1..] + url;
      assert TrimStart(gap + url) == TrimStart(gap[1..] + url);
      TrimOfSpacePrefix(gap[1..], url);
    }
  }

  /** The second piece of `a:b:c`, for colon-free `a` and `b`, is `b`. */
  lemma SecondPiece(a: string, b: string, c: string)
    requires ':' !in a && ':' !in b
    ensures var parts := Split(a + [':'] + b + [':'] + c, ':'); |parts| >= 2 && parts[1] == b
  {
    var tail := b + [':'] + c;
    var line := a + [':'] + tail;
    assert line == a + [':'] + b + [':'] + c;
    FirstPiece(a, tail);
    FirstPiece(b, c);
  }

  /** Splitting `a:rest` for colon-free `a` gives `a`, then the pieces of `rest`. */
  lemma FirstPiece(a: string, rest: string)
    requires ':' !in a
    ensures Split(a + [':'] + rest, ':') == [a] + Split(rest, ':')
  {
    var line := a + [':'] + rest;
    IndexOfJoined(a, ':', rest);
    SplitStep(line, ':');
    assert line[..|a|] == a;
    assert line[|a| + 1..] == rest;
  }

  /** Under the code as written, a directive whose value is a URL `scheme:rest` yields
      only the scheme name. */
  lemma AsWrittenKeepsScheme(name: string, gap: string, scheme: string, rest: string)
    requires ':' !in name && ':' !in scheme && AllSpace(gap)
    requires |scheme| > 0 && !IsSpace(scheme[0]) && !IsSpace(scheme[|scheme| - 1])
    ensures SitemapDirectiveValue(name + ":" + gap + scheme + ":" + rest) == scheme
  {
    var mid := gap + scheme;
    assert ':' !in mid by {
      assert forall i | 0 <= i < |gap| :: IsSpace(gap[i]);
      assert forall i | 0 <= i < |mid| :: mid[i] == if i < |gap| then gap[i] else scheme[i - |gap|];
    }
    assert name + ":" + gap + scheme + ":" + rest == name + [':'] + mid + [':'] + rest;
    SecondPiece(name, mid, rest);
    TrimOfSpacePrefix(gap, scheme);
  }

  /** A robots file of one directive line names exactly that line's value. */
  lemma SingleDirective(web: Web, text: string, value: string -> string)
    requires '\n' !in text && IsSitemapLine(text)
    ensures SitemapsOf(web, RobotsDirectives(Split(text, '\n'), value)) == ParseSitemap(web, value(text))
  {
    assert Split(text, '\n') == [text];
    assert RobotsDirectives([text], value) == [value(text)];
    assert SitemapsOf(web, [value(text)]) == ParseSitemap(web, value(text)) + SitemapsOf(web, []);
  }

  /** A line starting with any capitalisation of `sitemap:` is a directive. */
  lemma SitemapPrefixLine(name: string, x: string)
    requires LowerStr(name) == "sitemap"
    ensures IsSitemapLine(name + ":" + x)
  {
    var line := name + ":" + x;
    var low := LowerStr(line);
    assert forall i | 0 <= i < 7 :: low[i] == Lower(name[i]) == LowerStr(name)[i];
    assert low[7] == ':';
    assert low[..8] == "sitemap:";
  }

  lemma NoNewlineInDirective(name: string, gap: string, scheme: string, rest: string)
    requires LowerStr(name) == "sitemap" && '\n' !in gap + scheme + rest
    ensures '\n' !in name + ":" + gap + scheme + ":" + rest
    ensures ':' !in name
  {
    var text := name + ":" + gap + scheme + ":" + rest;
    assert forall i | 0 <= i < |name| :: Lower(name[i]) == "sitemap"[i];
    var body := gap + scheme + rest;
    var n := |name|;
    assert forall i | 0 <= i < |text| :: text[i] == if i < n then name[i]
      else if i == n then ':'
      else if i < n + 1 + |gap| + |scheme| then body[i - n - 1]
      else if i == n + 1 + |gap| + |scheme| then ':'
      else body[i - n - 2];
  }

  /** The predicates shared by the two readings of a one-line `Sitemap: scheme:rest` file. */
  predicate OneUrlDirective(name: string, gap: string, scheme: string, rest: string) {
    && LowerStr(name) == "sitemap"
    && AllSpace(gap) && ':' !in scheme
    && |scheme| > 0 && !IsSpace(scheme[0]) && !IsSpace(scheme[|scheme| - 1])
    && |rest| > 0 && !IsSpace(rest[|rest| - 1]) && '\n' !in gap + scheme + rest
  }

  lemma RobotsAsWrittenKeepsScheme(web: Web, robotsUrl: string, name: string, gap: string, scheme: string, rest: string)
    requires OneUrlDirective(name, gap, scheme, rest)
    requires web.fetchText(robotsUrl) == Some(name + ":" + gap + scheme + ":" + rest)
    ensures ParseRobotsTxtAsWritten(web, robotsUrl) == ParseSitemap(web, scheme)
  {
    var text := name + ":" + gap + scheme + ":" + rest;
    assert '\n' !in text && IsSitemapLine(text) && ':' !in name by {
      NoNewlineInDirective(name, gap, scheme, rest);
      assert text == name + ":" + (gap + scheme + ":" + rest);
      SitemapPrefixLine(name, gap + scheme + ":" + rest);
    }
    assert SitemapDirectiveValue(text) == scheme by {
      AsWrittenKeepsScheme(name, gap, scheme, rest);
    }
    SingleDirective(web, text, SitemapDirectiveValue);
  }

  lemma RobotsIntendedKeepsUrl(web: Web, robotsUrl: string, name: string, gap: string, scheme: string, rest: string)
    requires OneUrlDirective(name, gap, scheme, rest)
    requires web.fetchText(robotsUrl) == Some(name + ":" + gap + scheme + ":" + rest)
    ensures ParseRobotsTxt(web, robotsUrl) == ParseSitemap(web, scheme + ":" + rest)
  {
    var url := scheme + ":" + rest;
    var text := name + ":" + gap + scheme + ":" + rest;
    assert '\n' !in text && IsSitemapLine(text) && ':' !in name by {
      NoNewlineInDirective(name, gap, scheme, rest);
      assert text == name + ":" + (gap + url);
      SitemapPrefixLine(name, gap + url);
    }
    assert IntendedDirectiveValue(text) == url by {
      assert text == name + ":" + gap + url;
      IntendedKeepsUrl(name, gap, url);
    }
    SingleDirective(web, text, IntendedDirectiveValue);
  }

  /** A robots file holding one standard directive `Sitemap: scheme:rest` (for instance
      `Sitemap: https://example.com/sitemap.xml`): the code as written goes on to fetch a
      "sitemap" named after the scheme; the intended reading fetches the named sitemap. */
  lemma RobotsDirectiveFinding(web: Web, robotsUrl: string, name: string, gap: string, scheme: string, rest: string)
    requires LowerStr(name) == "sitemap"
    requires AllSpace(gap) && ':' !in scheme
    requires |scheme| > 0 && !IsSpace(scheme[0]) && !IsSpace(scheme[|scheme| - 1])
    requires |rest| > 0 && !IsSpace(rest[|rest| - 1]) && '\n' !in gap + scheme + rest
    requires web.fetchText(robotsUrl) == Some(name + ":" + gap + scheme + ":" + rest)
    ensures ParseRobotsTxtAsWritten(web, robotsUrl) == ParseSitemap(web, scheme)
    ensures ParseRobotsTxt(web, robotsUrl) == ParseSitemap(web, scheme + ":" + rest)
  {
    RobotsAsWrittenKeepsScheme(web, robotsUrl, name, gap, scheme, rest);
    RobotsIntendedKeepsUrl(web, robotsUrl, name, gap, scheme, rest);
  }
}

=== FILE: errors.dfy ===
/** The Express error middleware: how a thrown error becomes a status code and a JSON
    body. */
module ErrorHandling {
  import opened Base

  /** The fields of a thrown value the handler reads. A missing `message` or `status`
      is `None`; `stack` is whatever the error carries. */
  datatype ThrownError = ThrownError(name: string, message: Option<string>, status: Option<int>, stack: string)

  /** The JSON body and status sent back. `stack` is present only in development mode;
      the timestamp is left out. */
  datatype ErrorResponse = ErrorResponse(status: int, error: string, stack: Option<string>)

  const DefaultMessage := "Internal server error"
  const ValidationMessage := "Validation error"
  const UnauthorizedMessage := "Unauthorized access"

  /** JavaScript truthiness of an optional string and an optional number. */
  predicate TruthyText(s: Option<string>) { s.Some? && s.value != "" }
  predicate TruthyStatus(n: Option<int>) { n.Some? && n.value != 0 }

  /** `errorHandler`: the error's name picks the message and default status (a
      validation error hides its own message, an unauthorised one too, any other error
      shows its message when it has one); a truthy `status` on the error then overrides
      the default. */
  function HandleError(err: ThrownError, development: bool): (r: ErrorResponse)
    ensures TruthyStatus(err.status) ==> r.status == err.status.value
    ensures !TruthyStatus(err.status) ==>
      r.status == (if err.name == "ValidationError" then 400
                   else if err.name == "UnauthorizedError" then 401 else 500)
    ensures err.name == "ValidationError" ==> r.error == ValidationMessage
    ensures err.name == "UnauthorizedError" ==> r.error == UnauthorizedMessage
    ensures err.name != "ValidationError" && err.name != "UnauthorizedError" ==>
      r.error == (if TruthyText(err.message) then err.message.value else DefaultMessage)
    ensures r.stack.Some? <==> development
    ensures development ==> r.stack == Some(err.stack)
  {
    var (status, message) :=
      if err.name == "ValidationError" then (400, ValidationMessage)
      else if err.name == "UnauthorizedError" then (401, UnauthorizedMessage)
      else if TruthyText(err.message) then (500, err.message.value)
      else (500, DefaultMessage);
    ErrorResponse(
      if TruthyStatus(err.status) then err.status.value else status,
      message,
      if development then Some(err.stack) else None)
  }

  /** The body of a validation or unauthorised error never depends on the error's own
      message: the details recorded for a validation error are not sent. */
  lemma NamedErrorsHideMessage(err: ThrownError, other: Option<string>, development: bool)
    requires err.name == "ValidationError" || err.name == "UnauthorizedError"
    ensures HandleError(err, development) == HandleError(err.(message := other), development)
  {
  }

  /** An error without name, message or status is reported as a plain 500. */
  lemma BareErrorIsInternal(name: string, stack: string)
    requires name != "ValidationError" && name != "UnauthorizedError"
    ensures HandleError(ThrownError(name, None, None, stack), false)
         == ErrorResponse(500, DefaultMessage, None)
  {
  }

  /** A zero status counts as absent: the response keeps the default for the name. */
  lemma ZeroStatusIgnored(err: ThrownError, development: bool)
    requires err.status == Some(0)
    ensures HandleError(err, development) == HandleError(err.(status := None), development)
  {
  }
}

=== FILE: extraction.dfy ===
/** `scrapePage`: turning one fetched HTML document into a page record. The HTML parser
    is not modelled; a `Document` carries what its selectors return once scripts,
    styles, `nav`, `header`, `footer` and advertisement blocks have been removed. */
module PageExtraction {
  import opened Base
  import opened Text

  /** An element matched by `h1, h2, h3, h4, h5, h6`: its tag name and text. */
  type HeadingTag = t: string | t in {"h1", "h2", "h3", "h4", "h5", "h6"} witness "h1"

  datatype RawHeading = RawHeading(tag: HeadingTag, text: string)

  /** An anchor matched by the navigation selectors; `href` is `None` when absent. */
  datatype RawAnchor = RawAnchor(text: string, href: Option<string>)

  datatype Document = Document(
    title: string,                       // `$('title').text()`
    metaDescription: Option<string>,     // `meta[name="description"]` content
    ogDescription: Option<string>,       // `meta[property="og:description"]` content
    metaKeywords: Option<string>,        // `meta[name="keywords"]` content
    selectorText: string -> string,      // `$(selector).text()` for a content selector
    bodyText: string,                    // `$('body').text()`
    headings: seq<RawHeading>,
    navAnchors: seq<RawAnchor>)

  /** What `fetch` produced: a thrown failure, or a response with its status line and,
      when it is readable, the parsed document. */
  datatype Fetched =
    | FetchFailed(message: string)
    | Response(ok: bool, status: nat, statusText: string, document: Document)

  datatype Heading = Heading(level: nat, text: string) {
    predicate Valid() { 1 <= level <= 6 && |text| > 0 }
  }

  datatype NavLink = NavLink(text: string, href: string) {
    predicate Valid() { |text| > 0 && |href| > 0 }
  }

  datatype Page = Page(
    url: string, title: string, description: string, keywords: string,
    textContent: string, headings: seq<Heading>, navLinks: seq<NavLink>, wordCount: nat)

  const ContentSelectors: seq<string> :=
    ["main", "article", ".content", ".main-content", "#content", "#main", ".post-content", ".entry-content"]

  /** `a || b` on optional strings: the first non-empty one, else `""`. */
  function OrElse(a: Option<string>, b: string): string {
    if a.Some? && a.value != "" then a.value else b
  }

  /** The candidate texts, scanned in order, keeping a text only when it is strictly
      longer than the best so far. The result is the FIRST text of maximal length. */
  function Longest(texts: seq<string>): (r: string)
    ensures forall i | 0 <= i < |texts| :: |texts[i]| <= |r|
    ensures |r| > 0 ==> exists i | 0 <= i < |texts| :: texts[i] == r && forall j | 0 <= j < i :: |texts[j]| < |r|
    ensures |r| == 0 || r in texts
  {
    if |texts| == 0 then ""
    else
      var best := Longest(texts[..|texts| - 1]);
      var last := texts[|texts| - 1];
      assert forall i | 0 <= i < |texts| - 1 :: texts[..|texts| - 1][i] == texts[i];
      if |last| > |best| then last else best
  }

  /** The main text: the longest content-selector text, or the body text when every
      content selector is empty. */
  function MainText(doc: Document): (r: string)
    ensures (forall i | 0 <= i < |ContentSelectors| :: doc.selectorText(ContentSelectors[i]) == "")
            ==> r == doc.bodyText
    ensures (exists i | 0 <= i < |ContentSelectors| :: doc.selectorText(ContentSelectors[i]) != "")
            ==> r == Longest(SelectorTexts(doc))
  {
    var texts := SelectorTexts(doc);
    var best := Longest(texts);
    if best == "" then doc.bodyText else best
  }

  function SelectorTexts(doc: Document): (texts: seq<string>)
    ensures |texts| == |ContentSelectors|
    ensures forall i | 0 <= i < |ContentSelectors| :: texts[i] == doc.selectorText(ContentSelectors[i])
  {
    seq(|ContentSelectors|, i requires 0 <= i < |ContentSelectors| => doc.selectorText(ContentSelectors[i]))
  }

  /** `replace(/\s+/g, ' ').replace(/\n+/g, ' ').trim()`: single plain spaces between
      runs of other characters, nothing at the edges, and no character other than
      white space lost. */
  function CleanText(s: string): (r: string)
    ensures Collapsed(r)
    ensures |r| > 0 ==> !IsSpace(r[0]) && !IsSpace(r[|r| - 1])
    ensures |r| == 0 <==> AllSpace(s)
    ensures NonSpace(r) == NonSpace(s)
  {
    var c := Collapse(s);
    CollapsedHasNoNewline(c);
    ReplaceNewlineRunsNoop(c);
    CollapsedTrim(c);
    TrimNonSpace(c);
    CollapseNonSpace(s);
    CleanBlankIffAllSpace(s);
    Trim(ReplaceNewlineRuns(c))
  }

  lemma CleanBlankIffAllSpace(s: string)
    ensures AllSpace(Collapse(s)) <==> AllSpace(s)
  {
    CollapseNonSpace(s);
    if AllSpace(s) {
      NonSpaceOfAllSpace(s);
      NonSpaceEmptyIsAllSpace(Collapse(s));
    }
    if AllSpace(Collapse(s)) {
      NonSpaceOfAllSpace(Collapse(s));
      NonSpaceEmptyIsAllSpace(s);
    }
  }

  /** The second replacement in the cleaning chain never has anything left to do. */
  lemma NewlinePassIsRedundant(s: string)
    ensures ReplaceNewlineRuns(Collapse(s)) == Collapse(s)
  {
    CollapsedHasNoNewline(Collapse(s));
    ReplaceNewlineRunsNoop(Collapse(s));
  }

  /** `parseInt(tagName.charAt(1))` */
  function HeadingLevel(tag: HeadingTag): (level: nat)
    ensures 1 <= level <= 6
    ensures tag[1] == DigitChar(level)
  {
    tag[1] as int - '0' as int
  }

  /** A heading element is kept, trimmed, when its text is not blank. */
  function HeadingOf(h: RawHeading): (r: Option<Heading>)
    ensures r.Some? <==> !AllSpace(h.text)
    ensures r.Some? ==> r.value.text == Trim(h.text) && r.value.Valid()
  {
    var t := Trim(h.text);
    if |t| > 0 then Some(Heading(HeadingLevel(h.tag), t)) else None
  }

  /** Headings with non-blank text, in document order. */
  function Headings(raw: seq<RawHeading>): (hs: seq<Heading>)
    ensures |hs| <= |raw|
    ensures forall i | 0 <= i < |hs| :: hs[i].Valid()
  {
    if |raw| == 0 then []
    else
      var rest := Headings(raw[1..]);
      match HeadingOf(raw[0])
      case None => rest
      case Some(h) =>
        ConsValidHeadings(h, rest);
        [h] + rest
  }

  lemma ConsValidHeadings(h: Heading, rest: seq<Heading>)
    requires h.Valid() && forall i | 0 <= i < |rest| :: rest[i].Valid()
    ensures forall i | 0 <= i < |rest| + 1 :: ([h] + rest)[i].Valid()
  {
  }

  /** Extraction works element by element: the headings of two consecutive runs of
      elements are the headings of each, in order. */
  lemma {:induction false} HeadingsAppend(a: seq<RawHeading>, b: seq<RawHeading>)
    ensures Headings(a + b) == Headings(a) + Headings(b)
  {
    if |a| == 0 {
      assert a + b == b;
    } else {
      assert (a + b)[1..] == a[1..] + b;
      HeadingsAppend(a[1..], b);
    }
  }

  /** An anchor is kept when its trimmed text is non-empty and it has a non-empty `href`. */
  function NavLinkOf(a: RawAnchor): (r: Option<NavLink>)
    ensures r.Some? <==> !AllSpace(a.text) && a.href.Some? && a.href.value != ""
    ensures r.Some? ==> r.value == NavLink(Trim(a.text), a.href.value)
  {
    var t := Trim(a.text);
    if |t| > 0 && a.href.Some? && a.href.value != "" then Some(NavLink(t, a.href.value)) else None
  }

  /** Navigation anchors with non-blank text and an `href`, in order. */
  function NavLinks(raw: seq<RawAnchor>): (ls: seq<NavLink>)
    ensures |ls| <= |raw|
    ensures forall i | 0 <= i < |ls| :: ls[i].Valid()
  {
    if |raw| == 0 then []
    else
      var rest := NavLinks(raw[1..]);
      match NavLinkOf(raw[0])
      case None => rest
      case Some(l) =>
        ConsValidLinks(l, rest);
        [l] + rest
  }

  lemma ConsValidLinks(l: NavLink, rest: seq<NavLink>)
    requires l.Valid() && forall i | 0 <= i < |rest| :: rest[i].Valid()
    ensures forall i | 0 <= i < |rest| + 1 :: ([l] + rest)[i].Valid()
  {
  }

  lemma {:induction false} NavLinksAppend(a: seq<RawAnchor>, b: seq<RawAnchor>)
    ensures NavLinks(a + b) == NavLinks(a) + NavLinks(b)
  {
    if |a| == 0 {
      assert a + b == b;
    } else {
      assert (a + b)[1..] == a[1..] + b;
      NavLinksAppend(a[1..], b);
    }
  }

  /** The description meta tag, then the Open Graph description, then empty; an empty
      attribute counts as missing. */
  function Description(doc: Document): (d: string)
    ensures doc.metaDescription.Some? && doc.metaDescription.value != "" ==> d == doc.metaDescription.value
    ensures doc.metaDescription.GetOr("") == "" && doc.ogDescription.Some? ==> d == doc.ogDescription.value
    ensures doc.metaDescription.GetOr("") == "" && doc.ogDescription.GetOr("") == "" ==> d == ""
  {
    OrElse(doc.metaDescription, OrElse(doc.ogDescription, ""))
  }

  /** The error text of a failed scrape. */
  function ScrapeError(url: string, cause: string): string {
    "Failed to scrape " + url + ": " + cause
  }

  /** `HTTP <status>: <statusText>` */
  function HttpError(status: nat, statusText: string): string {
    "HTTP " + NatToDecimal(status) + ": " + statusText
  }

  /** `scrapePage`: a failed fetch or a non-OK response is an error naming the URL;
      otherwise the page record built from the document. */
  function ScrapePage(url: string, fetched: Fetched): (r: Result<Page>)
    ensures r.Ok? <==> fetched.Response? && fetched.ok
    ensures fetched.FetchFailed? ==> r == Err(ScrapeError(url, fetched.message))
    ensures fetched.Response? && !fetched.ok ==>
      r == Err(ScrapeError(url, HttpError(fetched.status, fetched.statusText)))
    ensures r.Ok? ==> r.value.url == url && r.value.title == Trim(fetched.document.title)
    ensures r.Ok? ==> r.value.description == Description(fetched.document)
    ensures r.Ok? ==> r.value.textContent == CleanText(MainText(fetched.document))
    ensures r.Ok? ==> r.value.wordCount == |Words(r.value.textContent)|
    ensures r.Ok? ==> r.value.keywords == if fetched.document.metaKeywords.Some? && fetched.document.metaKeywords.value != ""
                                         then fetched.document.metaKeywords.value else ""
    ensures r.Ok? ==> r.value.headings == Headings(fetched.document.headings)
                      && r.value.navLinks == NavLinks(fetched.document.navAnchors)
  {
    match fetched
    case FetchFailed(message) => Err(ScrapeError(url, message))
    case Response(ok, status, statusText, doc) =>
      if !ok then Err(ScrapeError(url, HttpError(status, statusText)))
      else
        var text := CleanText(MainText(doc));
        Ok(Page(
          url,
          Trim(doc.title),
          Description(doc),
          OrElse(doc.metaKeywords, ""),
          text,
          Headings(doc.headings),
          NavLinks(doc.navAnchors),
          |Words(text)|))
  }

  /** The page's words are exactly the non-space characters of the chosen main text,
      in order, and a page without words has empty text. */
  lemma PageTextFaithful(url: string, fetched: Fetched)
    requires ScrapePage(url, fetched).Ok?
    ensures var p := ScrapePage(url, fetched).value;
      && Flatten(Words(p.textContent)) == NonSpace(MainText(fetched.document))
      && (p.wordCount == 0 <==> p.textContent == "")
  {
    var p := ScrapePage(url, fetched).value;
    WordsCoverNonSpace(p.textContent);
    WordsOfBlank(p.textContent);
    if |p.textContent| > 0 {
      assert !IsSpace(p.textContent[0]);
    }
  }
}

=== FILE: indexer.dfy ===
/** `storeKnowledgeBase`: every page, then every QA fact, is embedded and inserted into
    the store. A failed embedding skips only that item; a failed insert is logged and
    does not change what happens next, so the result is the list of inserts attempted. */
module Indexer {
  import opened Base
  import opened Text
  import opened PageExtraction
  import opened Compiler

  /** A `chatbot_pages` row (the scrape timestamp is left out). */
  datatype PageRow = PageRow(
    chatbotId: string, url: string, title: string, description: string, content: string,
    headings: seq<Heading>, navLinks: seq<NavLink>, wordCount: nat, embedding: seq<real>)

  /** A `chatbot_qa` row (the generation timestamp is left out). */
  datatype QaRow = QaRow(
    chatbotId: string, question: string, answer: string, category: string, keywords: seq<string>,
    confidence: real, sourcePages: seq<string>, embedding: seq<real>)

  datatype Insert = InsertPage(page: PageRow) | InsertQa(qa: QaRow)

  /** Title, description and the first 2000 characters of the text, space separated. */
  function PageEmbeddingInput(p: Page): string {
    p.title + " " + p.description + " " + Take(p.textContent, 2000)
  }

  function QaEmbeddingInput(qa: QaFact): string {
    qa.question + " " + qa.answer
  }

  /** Embedding one text: the service's `generateEmbeddings`. */
  function Embedder(ai: Ai): string -> Result<seq<real>> {
    text => GenerateEmbeddings(ai, text)
  }

  /** The row for a page, once its embedding is known. */
  function PageRowOf(chatbotId: string, p: Page, embedding: seq<real>): PageRow {
    PageRow(chatbotId, p.url, p.title, p.description, p.textContent, p.headings, p.navLinks, p.wordCount, embedding)
  }

  function QaRowOf(chatbotId: string, qa: QaFact, embedding: seq<real>): QaRow {
    QaRow(chatbotId, qa.question, qa.answer, qa.category, qa.keywords, qa.confidence, qa.sourcePages, embedding)
  }

  /** The insert a page leads to: one when its embedding succeeds, none otherwise. */
  function PageInsertAt(embed: string -> Result<seq<real>>, chatbotId: string, p: Page): (ins: seq<Insert>)
    ensures |ins| <= 1
    ensures |ins| == 1 <==> embed(PageEmbeddingInput(p)).Ok?
    ensures |ins| == 1 ==> ins[0] == InsertPage(PageRowOf(chatbotId, p, embed(PageEmbeddingInput(p)).value))
  {
    match embed(PageEmbeddingInput(p))
    case Ok(e) => [InsertPage(PageRowOf(chatbotId, p, e))]
    case Err(_) => []
  }

  function QaInsertAt(embed: string -> Result<seq<real>>, chatbotId: string, qa: QaFact): (ins: seq<Insert>)
    ensures |ins| <= 1
    ensures |ins| == 1 <==> embed(QaEmbeddingInput(qa)).Ok?
    ensures |ins| == 1 ==> ins[0] == InsertQa(QaRowOf(chatbotId, qa, embed(QaEmbeddingInput(qa)).value))
  {
    match embed(QaEmbeddingInput(qa))
    case Ok(e) => [InsertQa(QaRowOf(chatbotId, qa, e))]
    case Err(_) => []
  }

  function PageInserts(embed: string -> Result<seq<real>>, chatbotId: string, pages: seq<Page>): seq<Insert>
    decreases |pages|
  {
    if pages == [] then [] else PageInserts(embed, chatbotId, pages[..|pages| - 1]) + PageInsertAt(embed, chatbotId, pages[|pages| - 1])
  }

  function QaInserts(embed: string -> Result<seq<real>>, chatbotId: string, qas: seq<QaFact>): seq<Insert>
    decreases |qas|
  {
    if qas == [] then [] else QaInserts(embed, chatbotId, qas[..|qas| - 1]) + QaInsertAt(embed, chatbotId, qas[|qas| - 1])
  }

  /** Page inserts are page rows of the given chatbot, at most one per page. */
  lemma {:induction false} PageInsertsShape(embed: string -> Result<seq<real>>, chatbotId: string, pages: seq<Page>)
    ensures |PageInserts(embed, chatbotId, pages)| <= |pages|
    ensures forall k | 0 <= k < |PageInserts(embed, chatbotId, pages)| ::
      PageInserts(embed, chatbotId, pages)[k].InsertPage? && PageInserts(embed, chatbotId, pages)[k].page.chatbotId == chatbotId
    decreases |pages|
  {
    if pages != [] {
      PageInsertsShape(embed, chatbotId, pages[..|pages| - 1]);
    }
  }

  lemma {:induction false} QaInsertsShape(embed: string -> Result<seq<real>>, chatbotId: string, qas: seq<QaFact>)
    ensures |QaInserts(embed, chatbotId, qas)| <= |qas|
    ensures forall k | 0 <= k < |QaInserts(embed, chatbotId, qas)| ::
      QaInserts(embed, chatbotId, qas)[k].InsertQa? && QaInserts(embed, chatbotId, qas)[k].qa.chatbotId == chatbotId
    decreases |qas|
  {
    if qas != [] {
      QaInsertsShape(embed, chatbotId, qas[..|qas| - 1]);
    }
  }

  /** A page row is inserted exactly for the pages whose embedding succeeded. */
  lemma {:induction false} PageInsertsOrigin(embed: string -> Result<seq<real>>, chatbotId: string, pages: seq<Page>, row: PageRow)
    ensures InsertPage(row) in PageInserts(embed, chatbotId, pages) <==>
      exists i | 0 <= i < |pages| ::
        embed(PageEmbeddingInput(pages[i])).Ok?
        && row == PageRowOf(chatbotId, pages[i], embed(PageEmbeddingInput(pages[i])).value)
    decreases |pages|
  {
    if pages != [] {
      var init := pages[..|pages| - 1];
      PageInsertsOrigin(embed, chatbotId, init, row);
      assert forall i | 0 <= i < |init| :: init[i] == pages[i];
      if exists i | 0 <= i < |pages| ::
        embed(PageEmbeddingInput(pages[i])).Ok?
        && row == PageRowOf(chatbotId, pages[i], embed(PageEmbeddingInput(pages[i])).value)
      {
        var i :| 0 <= i < |pages| &&
          embed(PageEmbeddingInput(pages[i])).Ok?
          && row == PageRowOf(chatbotId, pages[i], embed(PageEmbeddingInput(pages[i])).value);
        if i < |init| {
          assert init[i] == pages[i];
        }
      }
    }
  }

  /** A page whose title, description and text are all blank is never stored: the
      embedding refuses blank input. */
  lemma BlankPageSkipped(ai: Ai, chatbotId: string, p: Page)
    requires AllSpace(p.title) && AllSpace(p.description) && AllSpace(p.textContent)
    ensures PageInsertAt(Embedder(ai), chatbotId, p) == []
  {
    var t := Take(p.textContent, 2000);
    assert AllSpace(t) by {
      assert forall i | 0 <= i < |t| :: t[i] == p.textContent[i];
    }
    var input := PageEmbeddingInput(p);
    assert forall i | 0 <= i < |input| :: IsSpace(input[i]) by {
      forall i | 0 <= i < |input| ensures IsSpace(input[i]) {
        var a := p.title + " ";
        var b := a + p.description + " ";
        if i < |p.title| {
          assert input[i] == p.title[i];
        } else if i < |a| {
          assert input[i] == ' ';
        } else if i < |a| + |p.description| {
          assert input[i] == p.description[i - |a|];
        } else if i < |b| {
          assert input[i] == ' ';
        } else {
          assert input[i] == t[i - |b|];
        }
      }
    }
  }

  /** The page loop: each page in order, skipping those whose embedding fails. */
  method StorePages(embed: string -> Result<seq<real>>, chatbotId: string, pages: seq<Page>)
    returns (inserts: seq<Insert>)
    ensures inserts == PageInserts(embed, chatbotId, pages)
  {
    inserts := [];
    var i := 0;
    while i < |pages|
      invariant 0 <= i <= |pages|
      invariant inserts == PageInserts(embed, chatbotId, pages[..i])
    {
      inserts := inserts + PageInsertAt(embed, chatbotId, pages[i]);
      assert pages[..i + 1][..i] == pages[..i];
      i := i + 1;
    }
    assert pages[..i] == pages;
  }

  /** The QA loop: each fact in order, skipping those whose embedding fails. */
  method StoreQas(embed: string -> Result<seq<real>>, chatbotId: string, qas: seq<QaFact>)
    returns (inserts: seq<Insert>)
    ensures inserts == QaInserts(embed, chatbotId, qas)
  {
    inserts := [];
    var j := 0;
    while j < |qas|
      invariant 0 <= j <= |qas|
      invariant inserts == QaInserts(embed, chatbotId, qas[..j])
    {
      inserts := inserts + QaInsertAt(embed, chatbotId, qas[j]);
      assert qas[..j + 1][..j] == qas[..j];
      j := j + 1;
    }
    assert qas[..j] == qas;
  }

  /** `storeKnowledgeBase`: all pages in order, then all QA facts in order. It always
      reports success. */
  method StoreKnowledgeBase(ai: Ai, chatbotId: string, pages: seq<Page>, qas: seq<QaFact>)
    returns (inserts: seq<Insert>, ok: bool)
    ensures ok
    ensures inserts == PageInserts(Embedder(ai), chatbotId, pages) + QaInserts(Embedder(ai), chatbotId, qas)
  {
    var pageInserts := StorePages(Embedder(ai), chatbotId, pages);
    var qaInserts := StoreQas(Embedder(ai), chatbotId, qas);
    inserts := pageInserts + qaInserts;
    ok := true;
  }

  /** Every page insert comes before every QA insert. */
  lemma PagesBeforeQas(embed: string -> Result<seq<real>>, chatbotId: string, pages: seq<Page>, qas: seq<QaFact>, a: nat, b: nat)
    requires var ins := PageInserts(embed, chatbotId, pages) + QaInserts(embed, chatbotId, qas);
      a < |ins| && b < |ins| && ins[a].InsertQa? && ins[b].InsertPage?
    ensures b < a
  {
    PageInsertsShape(embed, chatbotId, pages);
    QaInsertsShape(embed, chatbotId, qas);
  }
}

=== FILE: jobs.dfy ===
/** The chatbot-generation routes: the request guards of `/generate-chatbot`, the job
    record it creates, the `processWebsiteAsync` pipeline that walks the record through
    its statuses, the status report, and the cascading delete. Timestamps, the random
    id and the store are parameters. */
module Jobs {
  import opened Base
  import opened Urls
  import opened PageExtraction
  import opened Discovery
  import Site = Scraping
  import opened Compiler
  import opened Indexer

  datatype Status = Processing | Scraping | GeneratingQa | StoringData | Completed | Failed

  /** One write of `processWebsiteAsync` to the job record. */
  datatype Update =
    | ToScraping
    | ToGeneratingQa(pagesScraped: nat)
    | ToStoringData(qaPairsGenerated: nat)
    | ToCompleted(summary: string)
    | ToFailed(errorMessage: string)

  function StatusOf(u: Update): Status {
    match u
    case ToScraping => Scraping
    case ToGeneratingQa(_) => GeneratingQa
    case ToStoringData(_) => StoringData
    case ToCompleted(_) => Completed
    case ToFailed(_) => Failed
  }

  /** The progress a write records; a failure records none. */
  function ProgressOf(u: Update): Option<nat> {
    match u
    case ToScraping => Some(10)
    case ToGeneratingQa(_) => Some(50)
    case ToStoringData(_) => Some(80)
    case ToCompleted(_) => Some(100)
    case ToFailed(_) => None
  }

  predicate Terminal(u: Update) { u.ToCompleted? || u.ToFailed? }

  /** A run's writes: it starts by moving to `scraping`, ends with exactly one terminal
      write, and the progress it records strictly increases. */
  ghost predicate Lifecycle(ws: seq<Update>) {
    && |ws| >= 2
    && ws[0] == ToScraping
    && Terminal(ws[|ws| - 1])
    && (forall i | 0 <= i < |ws| - 1 :: !Terminal(ws[i]))
    && (forall i, j | 0 <= i < j < |ws| && ProgressOf(ws[i]).Some? && ProgressOf(ws[j]).Some? ::
          ProgressOf(ws[i]).value < ProgressOf(ws[j]).value)
  }

  /** The job record (creation and update timestamps are left out). */
  datatype JobRecord = JobRecord(
    id: string, websiteUrl: string, websiteName: string, botType: string, description: string,
    status: Status, progress: Option<nat>, pagesScraped: Option<nat>, qaPairsGenerated: Option<nat>,
    summary: Option<string>, errorMessage: Option<string>)

  /** The record after one write: only the fields the write names change. */
  function Apply(r: JobRecord, u: Update): JobRecord {
    match u
    case ToScraping => r.(status := Scraping, progress := Some(10))
    case ToGeneratingQa(n) => r.(status := GeneratingQa, progress := Some(50), pagesScraped := Some(n))
    case ToStoringData(n) => r.(status := StoringData, progress := Some(80), qaPairsGenerated := Some(n))
    case ToCompleted(s) => r.(status := Completed, progress := Some(100), summary := Some(s))
    case ToFailed(m) => r.(status := Failed, errorMessage := Some(m))
  }

  function ApplyAll(r: JobRecord, ws: seq<Update>): JobRecord
    decreases |ws|
  {
    if |ws| == 0 then r else ApplyAll(Apply(r, ws[0]), ws[1..])
  }

  /** After a run the record's status is the terminal one, and its progress is the last
      progress recorded (a failure does not rewrite it). */
  lemma {:induction false} ApplyAllFinal(r: JobRecord, ws: seq<Update>)
    requires |ws| >= 1
    ensures ApplyAll(r, ws).status == StatusOf(ws[|ws| - 1])
    ensures ProgressOf(ws[|ws| - 1]).Some? ==> ApplyAll(r, ws).progress == ProgressOf(ws[|ws| - 1])
    ensures |ws| >= 2 && ws[|ws| - 1].ToFailed? && ProgressOf(ws[|ws| - 2]).Some? ==>
      ApplyAll(r, ws).progress == ProgressOf(ws[|ws| - 2])
    ensures ApplyAll(r, ws).id == r.id && ApplyAll(r, ws).websiteUrl == r.websiteUrl
    decreases |ws|
  {
    if |ws| > 1 {
      ApplyAllFinal(Apply(r, ws[0]), ws[1..]);
      if |ws| == 2 {
        assert ApplyAll(r, ws) == Apply(Apply(r, ws[0]), ws[1]);
      }
    }
  }

  // ---------------------------------------------------------------------------
  // processWebsiteAsync

  /** The options handed to the job. */
  datatype JobOptions = JobOptions(botType: string, maxPages: int, includeSubdomains: bool)

  /** What a run hands back: the record writes in order, the knowledge-base inserts, and
      the scrape result it worked from. */
  datatype Run = Run(writes: seq<Update>, inserts: seq<Insert>, scraped: Result<Site.ScrapedSite>)

  /** `processWebsiteAsync`: scrape, generate, store, summarise, recording each stage. The
      first failure is recorded as `failed` with its message and ends the run. */
  method ProcessWebsite(site: Site.Site, ai: Ai, chatbotId: string, websiteUrl: string, options: JobOptions, maxPagesPerSite: int)
    returns (run: Run)
    ensures Lifecycle(run.writes)
    ensures run.scraped.Err? <==> GetSitemapUrls(site.web, websiteUrl) == [] && site.web.parse(websiteUrl).None?
    ensures run.scraped.Err? ==> run.writes == [ToScraping, ToFailed(run.scraped.error)] && run.inserts == []
    ensures run.scraped.Ok? && run.scraped.value.pages == [] ==>
      run.writes == [ToScraping, ToGeneratingQa(0), ToFailed(NoPagesError)] && run.inserts == []
    ensures run.scraped.Ok? && run.scraped.value.pages != [] ==>
      var pages := run.scraped.value.pages;
      var facts := BatchFacts(ai, pages, 0, options.botType) + GeneralQAs(ai, pages);
      && run.writes == [ToScraping, ToGeneratingQa(|pages|), ToStoringData(|facts|),
                        ToCompleted(SummarizeWebsite(ai, Some(pages)))]
      && run.inserts == PageInserts(Embedder(ai), chatbotId, pages) + QaInserts(Embedder(ai), chatbotId, facts)
  {
    var scraped, _ := Site.ScrapeWebsite(site, websiteUrl,
                                         Site.ScrapeOptions(Some(options.maxPages), Some(options.includeSubdomains), None),
                                         maxPagesPerSite);
    if scraped.Err? {
      RunShapes(0, 0, scraped.error, "");
      return Run([ToScraping, ToFailed(scraped.error)], [], scraped);
    }
    var pages := scraped.value.pages;
    var facts := GenerateQuestionsAndAnswers(ai, Some(pages), options.botType);
    if facts.Err? {
      RunShapes(|pages|, 0, facts.error, "");
      return Run([ToScraping, ToGeneratingQa(|pages|), ToFailed(facts.error)], [], scraped);
    }
    var inserts, _ := StoreKnowledgeBase(ai, chatbotId, pages, facts.value);
    var summary := SummarizeWebsite(ai, Some(pages));
    RunShapes(|pages|, |facts.value|, "", summary);
    run := Run([ToScraping, ToGeneratingQa(|pages|), ToStoringData(|facts.value|), ToCompleted(summary)], inserts, scraped);
  }

  /** The three shapes a run can take are all proper lifecycles. */
  lemma RunShapes(pagesScraped: nat, qaPairs: nat, error: string, summary: string)
    ensures Lifecycle([ToScraping, ToFailed(error)])
    ensures Lifecycle([ToScraping, ToGeneratingQa(pagesScraped), ToFailed(error)])
    ensures Lifecycle([ToScraping, ToGeneratingQa(pagesScraped), ToStoringData(qaPairs), ToCompleted(summary)])
  {
  }

  /** A site from which no page with enough text was scraped fails at the generation
      stage, with the record left at progress 50. */
  lemma EmptyScrapeFails(r: JobRecord, run: Run)
    requires run.scraped.Ok? && run.scraped.value.pages == []
    requires run.writes == [ToScraping, ToGeneratingQa(0), ToFailed(NoPagesError)]
    ensures ApplyAll(r, run.writes).status == Failed
    ensures ApplyAll(r, run.writes).progress == Some(50)
    ensures ApplyAll(r, run.writes).pagesScraped == Some(0)
    ensures ApplyAll(r, run.writes).errorMessage == Some(NoPagesError)
  {
    var ws := run.writes;
    assert ws[1..][1..] == [ToFailed(NoPagesError)];
    assert ApplyAll(r, ws) == ApplyAll(Apply(Apply(r, ToScraping), ToGeneratingQa(0)), [ToFailed(NoPagesError)]);
  }

  // ---------------------------------------------------------------------------
  // POST /generate-chatbot

  /** The request body; `None` is an absent field. */
  datatype GenerateRequest = GenerateRequest(
    websiteUrl: Option<string>, botType: Option<string>, botName: Option<string>,
    description: Option<string>, maxPages: Option<int>, includeSubdomains: Option<bool>)

  /** A present, non-empty string. */
  predicate Truthy(s: Option<string>) { s.Some? && s.value != "" }

  datatype Reply = Reply(status: nat, error: Option<string>, message: Option<string>)

  datatype Start = Start(reply: Reply, created: Option<JobRecord>, job: Option<JobOptions>)

  const UrlRequired := "Website URL is required"
  const InvalidUrlFormat := "Invalid URL format"
  const StartFailed := "Failed to start chatbot generation"
  const RecordFailedPrefix := "Failed to create chatbot record: "
  const GenerationStarted := "Chatbot generation started"

  /** The record inserted for a request whose URL parsed to `url`. */
  function NewRecord(chatbotId: string, websiteUrl: string, url: Url, req: GenerateRequest): JobRecord {
    JobRecord(chatbotId, websiteUrl,
              if Truthy(req.botName) then req.botName.value else url.hostname,
              req.botType.GetOr("general"),
              if Truthy(req.description) then req.description.value else "AI chatbot for " + url.hostname,
              Processing, None, None, None, None, None)
  }

  /** `POST /generate-chatbot`. `chatbotId` is the fresh id and `insert` the store's answer
      to the record insert (an error message, or `None` on success). */
  function StartGeneration(req: GenerateRequest, parse: Parser, chatbotId: string, insert: JobRecord -> Option<string>): (s: Start)
    ensures !Truthy(req.websiteUrl) ==> s == Start(Reply(400, Some(UrlRequired), None), None, None)
    ensures Truthy(req.websiteUrl) && parse(req.websiteUrl.value).None? ==>
      s == Start(Reply(400, Some(InvalidUrlFormat), None), None, None)
    ensures s.created.Some? <==> s.job.Some?
    ensures s.created.Some? ==>
      && Truthy(req.websiteUrl) && parse(req.websiteUrl.value).Some?
      && s.created.value.status == Processing && s.created.value.id == chatbotId
      && s.created.value.websiteUrl == req.websiteUrl.value
      && insert(s.created.value).None?
      && s.reply == Reply(200, None, Some(GenerationStarted))
      && s.job == Some(JobOptions(req.botType.GetOr("general"), req.maxPages.GetOr(20), req.includeSubdomains.GetOr(false)))
    ensures s.reply.status == 500 ==>
      && Truthy(req.websiteUrl) && parse(req.websiteUrl.value).Some?
      && insert(NewRecord(chatbotId, req.websiteUrl.value, parse(req.websiteUrl.value).value, req)).Some?
      && s.created.None? && s.reply.error == Some(StartFailed)
      && s.reply.message == Some(RecordFailedPrefix + insert(NewRecord(chatbotId, req.websiteUrl.value, parse(req.websiteUrl.value).value, req)).value)
    ensures s.reply.status in {200, 400, 500}
  {
    if !Truthy(req.websiteUrl) then Start(Reply(400, Some(UrlRequired), None), None, None)
    else match parse(req.websiteUrl.value)
      case None => Start(Reply(400, Some(InvalidUrlFormat), None), None, None)
      case Some(url) =>
        var record := NewRecord(chatbotId, req.websiteUrl.value, url, req);
        match insert(record)
        case Some(e) => Start(Reply(500, Some(StartFailed), Some(RecordFailedPrefix + e)), None, None)
        case None =>
          Start(Reply(200, None, Some(GenerationStarted)), Some(record),
                Some(JobOptions(req.botType.GetOr("general"), req.maxPages.GetOr(20), req.includeSubdomains.GetOr(false))))
  }

  /** The created record is named after the bot or, failing that, the site's hostname. */
  lemma NewRecordNames(req: GenerateRequest, parse: Parser, chatbotId: string, insert: JobRecord -> Option<string>)
    requires StartGeneration(req, parse, chatbotId, insert).created.Some?
    ensures var r := StartGeneration(req, parse, chatbotId, insert).created.value;
      var host := parse(req.websiteUrl.value).value.hostname;
      && (r.websiteName == if Truthy(req.botName) then req.botName.value else host)
      && (r.description == if Truthy(req.description) then req.description.value else "AI chatbot for " + host)
      && (req.botType.None? ==> r.botType == "general")
  {
  }

  // ---------------------------------------------------------------------------
  // GET /status/:chatbotId

  datatype StatusReport = NotFound | Found(record: JobRecord, totalQAs: nat, totalPages: nat)

  /** The report: 404 for an unknown id, otherwise the record and its row counts, a
      failed count query reading as zero. */
  function GetStatus(record: Option<JobRecord>, qaRows: Option<nat>, pageRows: Option<nat>): (r: StatusReport)
    ensures r.NotFound? <==> record.None?
    ensures r.Found? ==> r.record == record.value
    ensures r.Found? ==> (qaRows.None? ==> r.totalQAs == 0) && (qaRows.Some? ==> r.totalQAs == qaRows.value)
    ensures r.Found? ==> (pageRows.None? ==> r.totalPages == 0) && (pageRows.Some? ==> r.totalPages == pageRows.value)
  {
    match record
    case None => NotFound
    case Some(rec) => Found(rec, qaRows.GetOr(0), pageRows.GetOr(0))
  }

  // ---------------------------------------------------------------------------
  // DELETE /chatbot/:chatbotId

  /** The four tables, each row reduced to the chatbot id it belongs to. */
  datatype Db = Db(chatbots: seq<string>, qa: seq<string>, pages: seq<string>, interactions: seq<string>)

  datatype Table = ChatbotsTable | QaTable | PagesTable | InteractionsTable

  /** Every row of a child table belongs to an existing chatbot. */
  ghost predicate Integrity(db: Db) {
    && (forall i | 0 <= i < |db.qa| :: db.qa[i] in db.chatbots)
    && (forall i | 0 <= i < |db.pages| :: db.pages[i] in db.chatbots)
    && (forall i | 0 <= i < |db.interactions| :: db.interactions[i] in db.chatbots)
  }

  /** The rows not belonging to `id`. */
  function Without(rows: seq<string>, id: string): (r: seq<string>)
    ensures id !in r
    ensures forall x | x != id :: x in r <==> x in rows
    ensures |r| <= |rows|
  {
    if |rows| == 0 then []
    else if rows[0] == id then Without(rows[1..], id)
    else [rows[0]] + Without(rows[1..], id)
  }

  predicate Referenced(db: Db, id: string) {
    id in db.qa || id in db.pages || id in db.interactions
  }

  /** One `delete().eq(...)`. A store failure leaves the table as it was, and so does the
      foreign-key check when a chatbot row is still referenced. */
  function DeleteFrom(db: Db, table: Table, id: string, fails: Table -> bool): (r: Result<Db>)
    ensures r.Err? ==> fails(table) || (table == ChatbotsTable && Referenced(db, id))
  {
    if fails(table) || (table == ChatbotsTable && Referenced(db, id)) then Err("delete failed")
    else match table
      case ChatbotsTable => Ok(db.(chatbots := Without(db.chatbots, id)))
      case QaTable => Ok(db.(qa := Without(db.qa, id)))
      case PagesTable => Ok(db.(pages := Without(db.pages, id)))
      case InteractionsTable => Ok(db.(interactions := Without(db.interactions, id)))
  }

  /** The state after a step: unchanged when the step failed. */
  function After(db: Db, r: Result<Db>): Db {
    if r.Ok? then r.value else db
  }

  const DeleteFailed := "Failed to delete chatbot"
  const Deleted := "Chatbot deleted successfully"

  /** `DELETE /chatbot/:chatbotId`: interactions, QA rows, pages, then the chatbot; only
      the last step's error is looked at. */
  function DeleteChatbot(db: Db, id: string, fails: Table -> bool): (r: (Reply, Db))
  {
    var db1 := After(db, DeleteFrom(db, InteractionsTable, id, fails));
    var db2 := After(db1, DeleteFrom(db1, QaTable, id, fails));
    var db3 := After(db2, DeleteFrom(db2, PagesTable, id, fails));
    var last := DeleteFrom(db3, ChatbotsTable, id, fails);
    if last.Err? then (Reply(500, Some(DeleteFailed), Some(last.error)), db3)
    else (Reply(200, None, Some(Deleted)), last.value)
  }

  /** Each delete step keeps every child row pointing at an existing chatbot. */
  lemma DeleteStepKeepsIntegrity(db: Db, table: Table, id: string, fails: Table -> bool)
    requires Integrity(db)
    ensures Integrity(After(db, DeleteFrom(db, table, id, fails)))
  {
    var r := DeleteFrom(db, table, id, fails);
    if r.Ok? {
      var db' := r.value;
      match table {
        case ChatbotsTable =>
          assert !Referenced(db, id);
          assert forall i | 0 <= i < |db.qa| :: db.qa[i] != id && db.qa[i] in db'.chatbots;
          assert forall i | 0 <= i < |db.pages| :: db.pages[i] != id && db.pages[i] in db'.chatbots;
          assert forall i | 0 <= i < |db.interactions| :: db.interactions[i] != id && db.interactions[i] in db'.chatbots;
        case QaTable =>
          assert forall i | 0 <= i < |db'.qa| :: db'.qa[i] in db.qa;
        case PagesTable =>
          assert forall i | 0 <= i < |db'.pages| :: db'.pages[i] in db.pages;
        case InteractionsTable =>
          assert forall i | 0 <= i < |db'.interactions| :: db'.interactions[i] in db.interactions;
      }
    }
  }

  /** The cascade keeps integrity. It succeeds exactly when the chatbot delete itself does
      not fail and no failed child delete left rows of the chatbot behind; a success leaves no row of the chatbot anywhere, and
      the other chatbots' rows are untouched either way. */
  lemma DeleteChatbotSpec(db: Db, id: string, fails: Table -> bool)
    requires Integrity(db)
    ensures var reply, db' := DeleteChatbot(db, id, fails).0, DeleteChatbot(db, id, fails).1;
      && Integrity(db')
      && (reply.status == 200 <==>
            && !fails(ChatbotsTable)
            && (fails(QaTable) ==> id !in db.qa)
            && (fails(PagesTable) ==> id !in db.pages)
            && (fails(InteractionsTable) ==> id !in db.interactions))
      && (reply.status == 200 ==> id !in db'.chatbots && !Referenced(db', id))
      && (forall x | x != id :: (x in db'.chatbots <==> x in db.chatbots))
      && (forall x | x != id :: (x in db'.qa <==> x in db.qa) && (x in db'.pages <==> x in db.pages)
                                && (x in db'.interactions <==> x in db.interactions))
  {
    var db1 := After(db, DeleteFrom(db, InteractionsTable, id, fails));
    var db2 := After(db1, DeleteFrom(db1, QaTable, id, fails));
    var db3 := After(db2, DeleteFrom(db2, PagesTable, id, fails));
    DeleteStepKeepsIntegrity(db, InteractionsTable, id, fails);
    DeleteStepKeepsIntegrity(db1, QaTable, id, fails);
    DeleteStepKeepsIntegrity(db2, PagesTable, id, fails);
    DeleteStepKeepsIntegrity(db3, ChatbotsTable, id, fails);
    assert DeleteChatbot(db, id, fails).1 == After(db3, DeleteFrom(db3, ChatbotsTable, id, fails));
  }

  /** Why the order matters: removing the chatbot row first is refused while any of its
      rows remain in a child table. */
  lemma ParentFirstRefused(db: Db, id: string, fails: Table -> bool)
    requires Referenced(db, id)
    ensures DeleteFrom(db, ChatbotsTable, id, fails).Err?
  {
  }
}

=== FILE: retrieval.dfy ===
/** The retrieval half of `RAGService`: scoring and ranking stored rows against a query,
    the confidence and source list of a set of results, the context handed to the
    language model, and `generateContextualResponse` around them. The store, the
    embedding call and the reply generation are parameters. */
module Retrieval {
  import opened Base
  import opened Text
  import opened Seqs
  import opened Sorting
  import opened Similarity
  import Compiler

  /** Only results scoring strictly above this are kept. */
  const SimilarityThreshold: real := 0.7

  /** `generateContextualResponse` searches with this limit. */
  const ContextSearchLimit := 3

  const MaxContextLength := 3000

  /** Characters of page content quoted in the context. */
  const ExcerptLength := 400

  const ConfidenceFloor: real := 0.3

  const ChatbotNotFound := "Chatbot not found"

  /** A `chatbot_qa` row as searched: `sourcePages` is `None` when missing or not an array. */
  datatype QaCandidate = QaCandidate(question: string, answer: string, sourcePages: Option<seq<string>>, embedding: Embedding)

  /** A `chatbot_pages` row as searched. */
  datatype PageCandidate = PageCandidate(url: string, title: string, content: string, embedding: Embedding)

  /** A row with its `similarity` field added. */
  datatype Scored<T> = Scored(item: T, similarity: real)

  datatype SearchResults = SearchResults(qaResults: seq<Scored<QaCandidate>>, pageResults: seq<Scored<PageCandidate>>)

  function Sim<T>(s: Scored<T>): real { s.similarity }

  predicate Relevant<T>(s: Scored<T>) { s.similarity > SimilarityThreshold }

  function QaEmbedding(c: QaCandidate): Embedding { c.embedding }

  function PageEmbedding(c: PageCandidate): Embedding { c.embedding }

  // ---------------------------------------------------------------------------
  // searchSimilarContent

  /** The `map` adding each row's similarity to the query. */
  function Score<T>(rows: seq<T>, query: Embedding, embedding: T -> Embedding, sqrt: real -> real): (scored: seq<Scored<T>>)
    ensures |scored| == |rows|
    ensures forall i | 0 <= i < |rows| :: scored[i] == Scored(rows[i], Cosine(query, embedding(rows[i]), sqrt))
  {
    if |rows| == 0 then []
    else [Scored(rows[0], Cosine(query, embedding(rows[0]), sqrt))] + Score(rows[1..], query, embedding, sqrt)
  }

  /** `filter` above the threshold, `sort` by descending similarity, `slice(0, limit)`. */
  function Rank<T>(scored: seq<Scored<T>>, limit: int): seq<Scored<T>> {
    JsSliceTo(SortDesc(Filter(scored, Relevant), Sim), limit)
  }

  /** The ranking keeps relevant results only, in non-increasing order, and at most
      `limit` of them. */
  lemma RankOrdered<T>(scored: seq<Scored<T>>, limit: int)
    ensures var r := Rank(scored, limit);
      && (forall i | 0 <= i < |r| :: r[i].similarity > SimilarityThreshold)
      && SortedDesc(r, Sim)
      && (limit >= 0 ==> |r| <= limit)
  {
    var f := Filter(scored, Relevant);
    var sorted := SortDesc(f, Sim);
    var r := Rank(scored, limit);
    SortDescSpec(f, Sim);
    SortedPrefix(sorted, Sim, |r|);
    forall i | 0 <= i < |r| ensures r[i].similarity > SimilarityThreshold {
      assert r[i] == sorted[i];
      assert sorted[i] in multiset(f);
    }
  }

  /** The ranking draws its results from the input without duplication, and drops none
      of the relevant ones when they all fit. */
  lemma RankDrawn<T>(scored: seq<Scored<T>>, limit: int)
    ensures var r := Rank(scored, limit);
      && multiset(r) <= multiset(scored)
      && (limit >= |Filter(scored, Relevant)| ==> multiset(r) == multiset(Filter(scored, Relevant)))
  {
    var f := Filter(scored, Relevant);
    var sorted := SortDesc(f, Sim);
    var r := Rank(scored, limit);
    SortDescSpec(f, Sim);
    FilterMultiset(scored, Relevant);
    assert r == sorted[..|r|];
    PrefixMultiset(sorted, |r|);
    if limit >= |f| {
      assert r == sorted;
    }
  }

  /** A relevant candidate the ranking leaves out scores no higher than any result. */
  lemma RankKeepsTop<T>(scored: seq<Scored<T>>, limit: int, x: Scored<T>)
    requires x in scored && Relevant(x) && x !in Rank(scored, limit)
    ensures forall i | 0 <= i < |Rank(scored, limit)| :: Rank(scored, limit)[i].similarity >= x.similarity
  {
    var f := Filter(scored, Relevant);
    var sorted := SortDesc(f, Sim);
    var r := Rank(scored, limit);
    SortDescSpec(f, Sim);
    FilterMembers(scored, Relevant);
    assert x in multiset(sorted);
    var j :| 0 <= j < |sorted| && sorted[j] == x;
    forall i | 0 <= i < |r| ensures r[i].similarity >= x.similarity {
      assert r[i] == sorted[i];
    }
  }

  /** A ranked result is one of the scored rows, with its score against the query. */
  lemma RankedRow<T>(rows: seq<T>, query: Embedding, embedding: T -> Embedding, sqrt: real -> real, limit: int, i: nat)
    requires i < |Rank(Score(rows, query, embedding, sqrt), limit)|
    ensures var x := Rank(Score(rows, query, embedding, sqrt), limit)[i];
      x.item in rows && x.similarity == Cosine(query, embedding(x.item), sqrt)
  {
    var scored := Score(rows, query, embedding, sqrt);
    RankDrawn(scored, limit);
    var x := Rank(scored, limit)[i];
    assert x in multiset(scored);
    var j :| 0 <= j < |scored| && scored[j] == x;
  }

  /** `searchSimilarContent` over the rows its two limited queries returned (`None`
      when a query failed, read as `[]`). A failed query embedding is the thrown error
      caught at the end: both lists come back empty. */
  function Search(query: Result<seq<real>>, qaRows: Option<seq<QaCandidate>>, pageRows: Option<seq<PageCandidate>>,
                  limit: int, sqrt: real -> real): (r: SearchResults)
    ensures query.Err? ==> r == SearchResults([], [])
  {
    match query
    case Err(_) => SearchResults([], [])
    case Ok(q) =>
      SearchResults(Rank(Score(qaRows.GetOr([]), Vector(q), QaEmbedding, sqrt), limit),
                    Rank(Score(pageRows.GetOr([]), Vector(q), PageEmbedding, sqrt), limit))
  }

  /** Every search result is a fetched row scoring above the threshold against the query,
      each list is ordered by descending score and holds at most `limit` entries. */
  lemma SearchSpec(query: Result<seq<real>>, qaRows: Option<seq<QaCandidate>>, pageRows: Option<seq<PageCandidate>>,
                   limit: int, sqrt: real -> real)
    requires query.Ok?
    ensures var r := Search(query, qaRows, pageRows, limit, sqrt);
      && SortedDesc(r.qaResults, Sim) && SortedDesc(r.pageResults, Sim)
      && (limit >= 0 ==> |r.qaResults| <= limit && |r.pageResults| <= limit)
      && (forall i | 0 <= i < |r.qaResults| ::
            r.qaResults[i].item in qaRows.GetOr([])
            && r.qaResults[i].similarity == Cosine(Vector(query.value), r.qaResults[i].item.embedding, sqrt)
            && r.qaResults[i].similarity > SimilarityThreshold)
      && (forall i | 0 <= i < |r.pageResults| ::
            r.pageResults[i].item in pageRows.GetOr([])
            && r.pageResults[i].similarity == Cosine(Vector(query.value), r.pageResults[i].item.embedding, sqrt)
            && r.pageResults[i].similarity > SimilarityThreshold)
  {
    var q := Vector(query.value);
    RankOrdered(Score(qaRows.GetOr([]), q, QaEmbedding, sqrt), limit);
    RankOrdered(Score(pageRows.GetOr([]), q, PageEmbedding, sqrt), limit);
    var r := Search(query, qaRows, pageRows, limit, sqrt);
    forall i | 0 <= i < |r.qaResults|
      ensures r.qaResults[i].item in qaRows.GetOr([])
      ensures r.qaResults[i].similarity == Cosine(q, r.qaResults[i].item.embedding, sqrt)
    {
      RankedRow(qaRows.GetOr([]), q, QaEmbedding, sqrt, limit, i);
    }
    forall i | 0 <= i < |r.pageResults|
      ensures r.pageResults[i].item in pageRows.GetOr([])
      ensures r.pageResults[i].similarity == Cosine(q, r.pageResults[i].item.embedding, sqrt)
    {
      RankedRow(pageRows.GetOr([]), q, PageEmbedding, sqrt, limit, i);
    }
  }

  // ---------------------------------------------------------------------------
  // calculateConfidence

  function Sims<T>(xs: seq<Scored<T>>): (s: seq<real>)
    ensures |s| == |xs|
    ensures forall i | 0 <= i < |xs| :: s[i] == xs[i].similarity
  {
    if |xs| == 0 then [] else [xs[0].similarity] + Sims(xs[1..])
  }

  /** The average of a list, `0` for an empty one. */
  function Mean(xs: seq<real>): real {
    if |xs| == 0 then 0.0 else Sum(xs) / |xs| as real
  }

  function Max(a: real, b: real): real { if a >= b then a else b }

  /** `calculateConfidence`: the floor when nothing was found, else the larger of the two
      average similarities, floored. */
  function Confidence(r: SearchResults): (c: real)
    ensures c >= ConfidenceFloor
    ensures r.qaResults == [] && r.pageResults == [] ==> c == ConfidenceFloor
    ensures c >= Mean(Sims(r.qaResults)) && c >= Mean(Sims(r.pageResults))
    ensures c == ConfidenceFloor || c == Mean(Sims(r.qaResults)) || c == Mean(Sims(r.pageResults))
  {
    if r.qaResults == [] && r.pageResults == [] then ConfidenceFloor
    else Max(Max(Mean(Sims(r.qaResults)), Mean(Sims(r.pageResults))), ConfidenceFloor)
  }

  lemma DivMonotone(a: real, b: real, n: real)
    requires n > 0.0 && a <= b
    ensures a / n <= b / n
  {
    assert b / n - a / n == (b - a) / n;
  }

  lemma MeanMonotone(a: seq<real>, b: seq<real>)
    requires |a| == |b| && forall i | 0 <= i < |a| :: a[i] <= b[i]
    ensures Mean(a) <= Mean(b)
  {
    if |a| > 0 {
      SumMonotone(a, b);
      DivMonotone(Sum(a), Sum(b), |a| as real);
    }
  }

  /** Raising the similarity of any result never lowers the confidence. */
  lemma ConfidenceMonotone(r: SearchResults, r': SearchResults)
    requires |r.qaResults| == |r'.qaResults| && |r.pageResults| == |r'.pageResults|
    requires forall i | 0 <= i < |r.qaResults| :: r.qaResults[i].similarity <= r'.qaResults[i].similarity
    requires forall i | 0 <= i < |r.pageResults| :: r.pageResults[i].similarity <= r'.pageResults[i].similarity
    ensures Confidence(r) <= Confidence(r')
  {
    MeanMonotone(Sims(r.qaResults), Sims(r'.qaResults));
    MeanMonotone(Sims(r.pageResults), Sims(r'.pageResults));
  }

  lemma {:induction false} SumAbove(a: seq<real>, lo: real)
    requires forall i | 0 <= i < |a| :: a[i] > lo
    ensures |a| > 0 ==> Sum(a) > |a| as real * lo
  {
    if |a| > 0 {
      SumAbove(a[1..], lo);
    }
  }

  lemma MeanAbove(a: seq<real>, lo: real)
    requires |a| > 0 && forall i | 0 <= i < |a| :: a[i] > lo
    ensures Mean(a) > lo
  {
    SumAbove(a, lo);
    var n := |a| as real;
    assert Sum(a) / n > (n * lo) / n by {
      assert Sum(a) / n - (n * lo) / n == (Sum(a) - n * lo) / n;
    }
    assert (n * lo) / n == lo;
  }

  /** Whenever a search found anything, the confidence is above the similarity threshold. */
  lemma FoundMeansConfident(query: Result<seq<real>>, qaRows: Option<seq<QaCandidate>>, pageRows: Option<seq<PageCandidate>>,
                            limit: int, sqrt: real -> real)
    requires var r := Search(query, qaRows, pageRows, limit, sqrt); r.qaResults != [] || r.pageResults != []
    ensures Confidence(Search(query, qaRows, pageRows, limit, sqrt)) > SimilarityThreshold
  {
    var r := Search(query, qaRows, pageRows, limit, sqrt);
    SearchSpec(query, qaRows, pageRows, limit, sqrt);
    if r.qaResults != [] {
      MeanAbove(Sims(r.qaResults), SimilarityThreshold);
    } else {
      MeanAbove(Sims(r.pageResults), SimilarityThreshold);
    }
  }

  // ---------------------------------------------------------------------------
  // extractSources

  /** The `source_pages` arrays of the QA results, concatenated in order. */
  function QaSourceUrls(qas: seq<Scored<QaCandidate>>): seq<string> {
    if |qas| == 0 then [] else qas[0].item.sourcePages.GetOr([]) + QaSourceUrls(qas[1..])
  }

  function PageUrls(pages: seq<Scored<PageCandidate>>): (urls: seq<string>)
    ensures |urls| == |pages|
    ensures forall i | 0 <= i < |pages| :: urls[i] == pages[i].item.url
  {
    if |pages| == 0 then [] else [pages[0].item.url] + PageUrls(pages[1..])
  }

  /** `extractSources`: a `Set` filled with the QA sources, then the page URLs. */
  function ExtractSources(r: SearchResults): seq<string> {
    AddAll(AddAll([], QaSourceUrls(r.qaResults)), PageUrls(r.pageResults))
  }

  /** The sources are duplicate-free and are exactly the QA sources and page URLs, QA
      sources first (in order of first mention); nothing is cut off. */
  lemma ExtractSourcesSpec(r: SearchResults)
    ensures var s := ExtractSources(r);
      && Distinct(s)
      && (forall u :: u in s <==> u in QaSourceUrls(r.qaResults) || u in PageUrls(r.pageResults))
      && |Dedup(QaSourceUrls(r.qaResults))| <= |s|
      && s[..|Dedup(QaSourceUrls(r.qaResults))|] == Dedup(QaSourceUrls(r.qaResults))
      && s == Dedup(QaSourceUrls(r.qaResults) + PageUrls(r.pageResults))
  {
    var qs := QaSourceUrls(r.qaResults);
    DedupSpec(qs);
    AddAllSpec(Dedup(qs), PageUrls(r.pageResults));
    AddAllAppend([], qs, PageUrls(r.pageResults));
  }

  // ---------------------------------------------------------------------------
  // context assembly

  datatype QaPair = QaPair(question: string, answer: string)

  function QaEntries(pairs: seq<QaPair>): string {
    if |pairs| == 0 then "" else "Q: " + pairs[0].question + "\nA: " + pairs[0].answer + "\n\n" + QaEntries(pairs[1..])
  }

  function PairsOf(qas: seq<Scored<QaCandidate>>): (pairs: seq<QaPair>)
    ensures |pairs| == |qas|
  {
    if |qas| == 0 then [] else [QaPair(qas[0].item.question, qas[0].item.answer)] + PairsOf(qas[1..])
  }

  /** One page's entry: its title and at most the first 400 characters of its content. */
  function PageEntry(p: PageCandidate): string {
    "Page: " + p.title + "\nContent: " + Take(p.content, ExcerptLength) + "...\n\n"
  }

  function PageEntries(pages: seq<Scored<PageCandidate>>): string {
    if |pages| == 0 then "" else PageEntry(pages[0].item) + PageEntries(pages[1..])
  }

  /** The context built from the search results: the Q/A block, then the page block. */
  function SearchContext(r: SearchResults): string {
    (if |r.qaResults| > 0 then "Relevant Information:\n" + QaEntries(PairsOf(r.qaResults)) else "")
    + (if |r.pageResults| > 0 then "Website Content:\n" + PageEntries(r.pageResults) else "")
  }

  /** The fallback Q/A rows replace a blank context when there are any. */
  function WithFallback(context: string, fallback: Option<seq<QaPair>>): string {
    if Trim(context) == "" && fallback.Some? && |fallback.value| > 0
    then "General Information:\n" + QaEntries(fallback.value)
    else context
  }

  /** A context over the limit keeps its first 3000 characters and gains `...`. */
  function CapContext(c: string): (r: string)
    ensures |r| <= MaxContextLength + 3
    ensures |c| <= MaxContextLength ==> r == c
    ensures |c| > MaxContextLength ==>
      |r| == MaxContextLength + 3 && r[..MaxContextLength] == c[..MaxContextLength] && r[MaxContextLength..] == "..."
  {
    if |c| > MaxContextLength then c[..MaxContextLength] + "..." else c
  }

  function BuildContext(r: SearchResults, fallback: Option<seq<QaPair>>): string {
    CapContext(WithFallback(SearchContext(r), fallback))
  }

  /** The assembled context is blank exactly when the search found nothing. */
  lemma SearchContextBlank(r: SearchResults)
    ensures AllSpace(SearchContext(r)) <==> r.qaResults == [] && r.pageResults == []
  {
    var c := SearchContext(r);
    if |r.qaResults| > 0 {
      assert c[0] == 'R';
    } else if |r.pageResults| > 0 {
      assert c[0] == 'W';
    }
  }

  /** The fallback rows are consulted only when the search found nothing: otherwise they
      make no difference to the context. */
  lemma FallbackOnlyWithoutResults(r: SearchResults, fallback: Option<seq<QaPair>>, fallback': Option<seq<QaPair>>)
    requires r.qaResults != [] || r.pageResults != []
    ensures BuildContext(r, fallback) == BuildContext(r, fallback')
  {
    SearchContextBlank(r);
  }

  /** With no search results the context is the fallback block, or empty without one. */
  lemma ContextWithoutResults(fallback: Option<seq<QaPair>>)
    ensures var c := BuildContext(SearchResults([], []), fallback);
      fallback.Some? && |fallback.value| > 0 ==> c == CapContext("General Information:\n" + QaEntries(fallback.value))
    ensures fallback.None? || fallback == Some([]) ==> BuildContext(SearchResults([], []), fallback) == ""
  {
    SearchContextBlank(SearchResults([], []));
  }

  /** Each page entry quotes a prefix of the page's content of at most 400 characters. */
  lemma PageEntryQuotesPrefix(p: PageCandidate)
    ensures exists k: nat | k <= ExcerptLength && k <= |p.content| ::
      PageEntry(p) == "Page: " + p.title + "\nContent: " + p.content[..k] + "...\n\n"
  {
    var k := |Take(p.content, ExcerptLength)|;
    assert Take(p.content, ExcerptLength) == p.content[..k];
  }

  // ---------------------------------------------------------------------------
  // generateContextualResponse

  /** The chatbot fields handed to the reply generator. */
  datatype ChatbotConfig = ChatbotConfig(websiteName: string, botType: string, description: string)

  /** What the store answers: the chatbot record, the rows the two limited search
      queries return, and the rows of the limited fallback query, per chatbot id. */
  datatype RagStore = RagStore(
    chatbot: string -> Option<ChatbotConfig>,
    qaRows: string -> Option<seq<QaCandidate>>,
    pageRows: string -> Option<seq<PageCandidate>>,
    fallbackQa: string -> Option<seq<QaPair>>)

  /** The model calls: the AI service whose `generateEmbeddings` embeds the query, the
      reply given query, context and chatbot, and `Math.sqrt`. */
  datatype Responder = Responder(
    ai: Compiler.Ai,
    reply: (string, string, ChatbotConfig) -> Result<string>,
    sqrt: real -> real)

  /** A `chatbot_interactions` row (the timestamp is left out). */
  datatype Interaction = Interaction(chatbotId: string, userQuery: string, botResponse: string, confidence: real, sources: seq<string>)

  datatype Answer = Answer(response: string, confidence: real, sources: seq<string>)

  /** The answer and the interaction logged for it. */
  datatype Exchange = Exchange(answer: Answer, logged: Interaction)

  function SearchFor(store: RagStore, rsp: Responder, chatbotId: string, userQuery: string): SearchResults {
    Search(Compiler.GenerateEmbeddings(rsp.ai, userQuery), store.qaRows(chatbotId), store.pageRows(chatbotId), ContextSearchLimit, rsp.sqrt)
  }

  /** `generateContextualResponse`: an unknown chatbot and a failed reply are errors;
      otherwise the reply is returned with its confidence and sources, and the same
      values are logged. */
  function GenerateContextualResponse(store: RagStore, rsp: Responder, chatbotId: string, userQuery: string): (r: Result<Exchange>)
    ensures store.chatbot(chatbotId).None? ==> r == Err(ChatbotNotFound)
    ensures store.chatbot(chatbotId).Some? ==>
      var results := SearchFor(store, rsp, chatbotId, userQuery);
      var context := BuildContext(results, store.fallbackQa(chatbotId));
      var reply := rsp.reply(userQuery, context, store.chatbot(chatbotId).value);
      && (r.Err? <==> reply.Err?)
      && (r.Err? ==> r.error == reply.error)
      && (r.Ok? ==>
            && r.value.answer.response == reply.value
            && r.value.answer.confidence == Confidence(results) >= ConfidenceFloor
            && r.value.answer.sources == ExtractSources(results)
            && r.value.logged == Interaction(chatbotId, userQuery, reply.value, r.value.answer.confidence, r.value.answer.sources))
  {
    match store.chatbot(chatbotId)
    case None => Err(ChatbotNotFound)
    case Some(config) =>
      var results := SearchFor(store, rsp, chatbotId, userQuery);
      var context := BuildContext(results, store.fallbackQa(chatbotId));
      match rsp.reply(userQuery, context, config)
      case Err(e) => Err(e)
      case Ok(response) =>
        var answer := Answer(response, Confidence(results), ExtractSources(results));
        Ok(Exchange(answer, Interaction(chatbotId, userQuery, response, answer.confidence, answer.sources)))
  }

  /** A blank query cannot be embedded, so the search finds nothing and the answer rests
      on the fallback rows alone, at the floor confidence. */
  lemma BlankQueryFindsNothing(store: RagStore, rsp: Responder, chatbotId: string, userQuery: string)
    requires AllSpace(userQuery)
    ensures SearchFor(store, rsp, chatbotId, userQuery) == SearchResults([], [])
    ensures Confidence(SearchFor(store, rsp, chatbotId, userQuery)) == ConfidenceFloor
    ensures ExtractSources(SearchFor(store, rsp, chatbotId, userQuery)) == []
  {
  }

  /** The sources of an answer are duplicate-free and its context never exceeds the cap. */
  lemma AnswerShape(store: RagStore, rsp: Responder, chatbotId: string, userQuery: string)
    requires GenerateContextualResponse(store, rsp, chatbotId, userQuery).Ok?
    ensures Distinct(GenerateContextualResponse(store, rsp, chatbotId, userQuery).value.answer.sources)
    ensures |BuildContext(SearchFor(store, rsp, chatbotId, userQuery), store.fallbackQa(chatbotId))| <= MaxContextLength + 3
  {
    ExtractSourcesSpec(SearchFor(store, rsp, chatbotId, userQuery));
  }
}

=== FILE: scraping.dfy ===
/** `scrapeWebsite`: pick the URLs (sitemap first, crawl otherwise), cap them, scrape
    each, keep the pages with enough text and record the failures. Timestamps, logging
    and the pause between requests are left out. */
module Scraping {
  import opened Base
  import opened Text
  import opened Urls
  import opened Discovery
  import opened Crawl
  import opened PageExtraction

  /** `parseInt(process.env.MAX_PAGES_PER_SITE) || 50`; `None` is an unset or
      non-numeric variable (`NaN`). */
  function MaxPagesPerSite(setting: Option<int>): (n: int)
    ensures n != 0
    ensures setting.Some? && setting.value != 0 ==> n == setting.value
    ensures setting.None? || setting == Some(0) ==> n == 50
  {
    if setting.Some? && setting.value != 0 then setting.value else 50
  }

  /** The caller's options; a missing field takes its default. */
  datatype ScrapeOptions = ScrapeOptions(
    maxPages: Option<int>,
    includeSubdomains: Option<bool>,
    excludePatterns: Option<seq<string>>)

  /** One failed page: its URL and the error message (the timestamp is left out). */
  datatype PageError = PageError(url: string, error: string)

  datatype Metadata = Metadata(totalPages: nat, errors: seq<PageError>, sitemapFound: bool)

  datatype ScrapedSite = ScrapedSite(baseUrl: string, pages: seq<Page>, metadata: Metadata)

  /** What the scraper sees of the web: the sitemap and robots fetches, the anchors of
      a page, link resolution, and the fetch of a page for scraping. */
  datatype Site = Site(web: Web, anchors: string -> seq<string>, resolve: Resolver, fetch: string -> Fetched)

  /** A page is kept only when its cleaned text is longer than this. */
  const MinTextLength := 100

  const FailurePrefix := "Website scraping failed: "

  /** Scraping one URL: fetch it, then extract the page. */
  function Scraper(fetch: string -> Fetched): string -> Result<Page> {
    url => ScrapePage(url, fetch(url))
  }

  /** The page a URL contributes: its record when the scrape succeeds with enough text. */
  function KeptAt(scrape: string -> Result<Page>, url: string): (ps: seq<Page>)
    ensures |ps| <= 1
    ensures |ps| == 1 <==> scrape(url).Ok? && |scrape(url).value.textContent| > MinTextLength
    ensures |ps| == 1 ==> ps[0] == scrape(url).value
  {
    match scrape(url)
    case Ok(p) => if |p.textContent| > MinTextLength then [p] else []
    case Err(_) => []
  }

  /** The error a URL contributes: one entry when its scrape fails. */
  function FailedAt(scrape: string -> Result<Page>, url: string): (es: seq<PageError>)
    ensures |es| <= 1
    ensures |es| == 1 <==> scrape(url).Err?
    ensures |es| == 1 ==> es[0] == PageError(url, scrape(url).error)
  {
    match scrape(url)
    case Ok(_) => []
    case Err(e) => [PageError(url, e)]
  }

  /** The pages kept from a list of URLs, in order. */
  function KeptPages(scrape: string -> Result<Page>, urls: seq<string>): seq<Page>
    decreases |urls|
  {
    if urls == [] then [] else KeptPages(scrape, urls[..|urls| - 1]) + KeptAt(scrape, urls[|urls| - 1])
  }

  /** The failures recorded for a list of URLs, in order. */
  function FailedPages(scrape: string -> Result<Page>, urls: seq<string>): seq<PageError>
    decreases |urls|
  {
    if urls == [] then [] else FailedPages(scrape, urls[..|urls| - 1]) + FailedAt(scrape, urls[|urls| - 1])
  }

  /** A page is kept exactly when some listed URL scraped to it with enough text. */
  lemma {:induction false} KeptPagesOrigin(scrape: string -> Result<Page>, urls: seq<string>, p: Page)
    ensures p in KeptPages(scrape, urls) <==>
      exists i | 0 <= i < |urls| :: scrape(urls[i]) == Ok(p) && |p.textContent| > MinTextLength
    decreases |urls|
  {
    if urls != [] {
      var init := urls[..|urls| - 1];
      var last := urls[|urls| - 1];
      KeptPagesOrigin(scrape, init, p);
      assert forall i | 0 <= i < |init| :: init[i] == urls[i];
      if exists i | 0 <= i < |urls| :: scrape(urls[i]) == Ok(p) && |p.textContent| > MinTextLength {
        var i :| 0 <= i < |urls| && scrape(urls[i]) == Ok(p) && |p.textContent| > MinTextLength;
        if i < |init| {
          assert scrape(init[i]) == Ok(p);
        } else {
          assert KeptAt(scrape, last) == [p];
        }
      }
    }
  }

  /** An error is recorded exactly when some listed URL failed with that message. */
  lemma {:induction false} FailedPagesOrigin(scrape: string -> Result<Page>, urls: seq<string>, e: PageError)
    ensures e in FailedPages(scrape, urls) <==>
      exists i | 0 <= i < |urls| :: urls[i] == e.url && scrape(urls[i]) == Err(e.error)
    decreases |urls|
  {
    if urls != [] {
      var init := urls[..|urls| - 1];
      var last := urls[|urls| - 1];
      FailedPagesOrigin(scrape, init, e);
      assert forall i | 0 <= i < |init| :: init[i] == urls[i];
      if exists i | 0 <= i < |urls| :: urls[i] == e.url && scrape(urls[i]) == Err(e.error) {
        var i :| 0 <= i < |urls| && urls[i] == e.url && scrape(urls[i]) == Err(e.error);
        if i < |init| {
          assert init[i] == e.url;
        } else {
          assert FailedAt(scrape, last) == [e];
        }
      }
    }
  }

  /** Each URL yields at most one of a page and an error; a URL whose page is too short
      yields neither. */
  lemma {:induction false} OutcomeCount(scrape: string -> Result<Page>, urls: seq<string>)
    ensures |KeptPages(scrape, urls)| + |FailedPages(scrape, urls)| <= |urls|
    ensures (forall i | 0 <= i < |urls| :: scrape(urls[i]).Ok? ==>
               |scrape(urls[i]).value.textContent| > MinTextLength)
            ==> |KeptPages(scrape, urls)| + |FailedPages(scrape, urls)| == |urls|
    decreases |urls|
  {
    if urls != [] {
      var init := urls[..|urls| - 1];
      assert forall i | 0 <= i < |init| :: init[i] == urls[i];
      OutcomeCount(scrape, init);
    }
  }

  /** The scraping loop over the chosen URLs. */
  method ScrapeEach(scrape: string -> Result<Page>, urls: seq<string>) returns (pages: seq<Page>, errors: seq<PageError>)
    ensures pages == KeptPages(scrape, urls)
    ensures errors == FailedPages(scrape, urls)
  {
    pages, errors := [], [];
    var i := 0;
    while i < |urls|
      invariant 0 <= i <= |urls|
      invariant pages == KeptPages(scrape, urls[..i])
      invariant errors == FailedPages(scrape, urls[..i])
    {
      var url := urls[i];
      match scrape(url) {
        case Ok(p) =>
          if |p.textContent| > MinTextLength {
            pages := pages + [p];
          }
        case Err(e) =>
          errors := errors + [PageError(url, e)];
      }
      assert urls[..i + 1][..i] == urls[..i];
      i := i + 1;
    }
    assert urls[..i] == urls;
  }

  /** `scrapeWebsite`. The sitemap URLs are used when there are any, the crawl otherwise;
      either list is cut to `maxPages` with `slice(0, maxPages)`. The only failure is a
      crawl whose base URL does not parse. `scraped` is the list of URLs that was scraped. */
  method ScrapeWebsite(site: Site, baseUrl: string, options: ScrapeOptions, maxPagesPerSite: int)
    returns (r: Result<ScrapedSite>, scraped: seq<string>)
    ensures var sitemap := GetSitemapUrls(site.web, baseUrl);
      r.Err? <==> sitemap == [] && site.web.parse(baseUrl).None?
    ensures r.Err? ==> r.error == FailurePrefix + InvalidUrlMessage
    ensures r.Ok? ==> r.value.baseUrl == baseUrl
    ensures r.Ok? ==> (r.value.metadata.sitemapFound <==> GetSitemapUrls(site.web, baseUrl) != [])
    ensures r.Ok? ==> r.value.pages == KeptPages(Scraper(site.fetch), scraped)
    ensures r.Ok? ==> r.value.metadata.errors == FailedPages(Scraper(site.fetch), scraped)
    ensures r.Ok? ==> r.value.metadata.totalPages == |r.value.pages|
    ensures r.Ok? ==> forall i | 0 <= i < |r.value.pages| :: |r.value.pages[i].textContent| > MinTextLength
    ensures var maxPages := options.maxPages.GetOr(maxPagesPerSite);
      var sitemap := GetSitemapUrls(site.web, baseUrl);
      && (maxPages >= 0 ==> |scraped| <= maxPages)
      && (sitemap != [] ==> scraped == JsSliceTo(sitemap, maxPages) && AllValid(site.web.parse, scraped))
      && (sitemap == [] && r.Ok? ==>
            exists discovered: seq<string>, extracted: seq<string> ::
              && CrawlOutcome(Crawler(maxPages, options.includeSubdomains.GetOr(false),
                                      options.excludePatterns.GetOr(DefaultExcludePatterns),
                                      site.web.parse(baseUrl).value.hostname, site.anchors, site.resolve),
                              baseUrl, discovered, extracted)
              && scraped == JsSliceTo(discovered, maxPages))
  {
    var maxPages := options.maxPages.GetOr(maxPagesPerSite);
    var includeSubdomains := options.includeSubdomains.GetOr(false);
    var excludePatterns := options.excludePatterns.GetOr(DefaultExcludePatterns);
    var urls := GetSitemapUrls(site.web, baseUrl);
    var sitemapFound := urls != [];
    if !sitemapFound {
      var crawled, c, extracted := CrawlWebsite(baseUrl, maxPages, includeSubdomains, excludePatterns,
                                                site.web.parse, site.anchors, site.resolve);
      if crawled.Err? {
        return Err(FailurePrefix + crawled.error), [];
      }
      urls := crawled.value;
    } else {
      SliceKeepsValid(site.web.parse, urls, maxPages);
    }
    scraped := JsSliceTo(urls, maxPages);
    var pages, errors := ScrapeEach(Scraper(site.fetch), scraped);
    KeptPagesLong(Scraper(site.fetch), scraped);
    r := Ok(ScrapedSite(baseUrl, pages, Metadata(|pages|, errors, sitemapFound)));
  }

  lemma SliceKeepsValid(parse: Parser, urls: seq<string>, end: int)
    requires AllValid(parse, urls)
    ensures AllValid(parse, JsSliceTo(urls, end))
  {
    var r := JsSliceTo(urls, end);
    assert forall i | 0 <= i < |r| :: r[i] == urls[i];
  }

  /** Every kept page has more than the minimum amount of text. */
  lemma KeptPagesLong(scrape: string -> Result<Page>, urls: seq<string>)
    ensures forall i | 0 <= i < |KeptPages(scrape, urls)| :: |KeptPages(scrape, urls)[i].textContent| > MinTextLength
  {
    forall i | 0 <= i < |KeptPages(scrape, urls)|
      ensures |KeptPages(scrape, urls)[i].textContent| > MinTextLength
    {
      var p := KeptPages(scrape, urls)[i];
      KeptPagesOrigin(scrape, urls, p);
    }
  }
}

=== FILE: seqs.dfy ===
/** Sequence vocabulary shared by the services: duplicate freedom, JavaScript `Set`
    insertion order, subsequences, occurrence counts and sums. */
module Seqs {

  predicate Distinct<T(==)>(s: seq<T>) {
    forall i, j | 0 <= i < j < |s| :: s[i] != s[j]
  }

  /** Adds each element of `xs` to the ordered set `acc`, as `set.add` does in a loop:
      an element already present keeps its place, a new one goes to the end. */
  function AddAll<T(==)>(acc: seq<T>, xs: seq<T>): (r: seq<T>)
    decreases |xs|
  {
    if |xs| == 0 then acc
    else AddAll(if xs[0] in acc then acc else acc + [xs[0]], xs[1..])
  }

  /** The ordered set keeps what it had at the front, stays duplicate-free, and holds
      exactly the old members and the added elements. */
  lemma {:induction false} AddAllSpec<T>(acc: seq<T>, xs: seq<T>)
    requires Distinct(acc)
    ensures var r := AddAll(acc, xs);
      && |acc| <= |r| && r[..|acc|] == acc
      && Distinct(r)
      && (forall x :: x in r <==> x in acc || x in xs)
    decreases |xs|
  {
    if |xs| > 0 {
      var acc' := if xs[0] in acc then acc else acc + [xs[0]];
      assert Distinct(acc');
      AddAllSpec(acc', xs[1..]);
      var r := AddAll(acc', xs[1..]);
      assert r[..|acc|] == r[..|acc'|][..|acc|];
      assert forall x :: x in xs <==> x == xs[0] || x in xs[1..] by {
        assert xs == [xs[0]] + xs[1..];
      }
    }
  }

  /** Adding two lists one after the other is adding their concatenation. */
  lemma {:induction false} AddAllAppend<T>(acc: seq<T>, xs: seq<T>, ys: seq<T>)
    ensures AddAll(AddAll(acc, xs), ys) == AddAll(acc, xs + ys)
    decreases |xs|
  {
    if |xs| == 0 {
      assert xs + ys == ys;
    } else {
      assert (xs + ys)[0] == xs[0];
      assert (xs + ys)[1..] == xs[1..] + ys;
      AddAllAppend(if xs[0] in acc then acc else acc + [xs[0]], xs[1..], ys);
    }
  }

  /** `Array.from(new Set(xs))`: first occurrences, in order. */
  function Dedup<T(==)>(xs: seq<T>): seq<T> {
    AddAll([], xs)
  }

  lemma DedupSpec<T>(xs: seq<T>)
    ensures Distinct(Dedup(xs))
    ensures forall x :: x in Dedup(xs) <==> x in xs
    ensures |Dedup(xs)| <= |xs|
  {
    AddAllSpec([], xs);
    DedupLength(xs);
  }

  lemma {:induction false} AddAllLength<T>(acc: seq<T>, xs: seq<T>)
    ensures |AddAll(acc, xs)| <= |acc| + |xs|
    decreases |xs|
  {
    if |xs| > 0 {
      AddAllLength(if xs[0] in acc then acc else acc + [xs[0]], xs[1..]);
    }
  }

  lemma DedupLength<T>(xs: seq<T>)
    ensures |Dedup(xs)| <= |xs|
  {
    AddAllLength([], xs);
  }

  /** A duplicate-free list is its own deduplication. */
  lemma {:induction false} AddAllOfFresh<T>(acc: seq<T>, xs: seq<T>)
    requires Distinct(acc + xs)
    ensures AddAll(acc, xs) == acc + xs
    decreases |xs|
  {
    if |xs| > 0 {
      assert xs[0] !in acc by {
        assert (acc + xs)[|acc|] == xs[0];
        assert forall i | 0 <= i < |acc| :: (acc + xs)[i] == acc[i];
      }
      assert acc + [xs[0]] + xs[1..] == acc + xs;
      AddAllOfFresh(acc + [xs[0]], xs[1..]);
    }
  }

  // ---------------------------------------------------------------------------

  /** `xs.filter(p)` */
  function Filter<T>(xs: seq<T>, p: T -> bool): (r: seq<T>)
    ensures |r| <= |xs|
    ensures forall i | 0 <= i < |r| :: p(r[i])
  {
    if |xs| == 0 then []
    else
      var rest := Filter(xs[1..], p);
      if p(xs[0]) then [xs[0]] + rest else rest
  }

  /** The filter keeps exactly the elements that pass. */
  lemma {:induction false} FilterMembers<T>(xs: seq<T>, p: T -> bool)
    ensures forall x :: x in Filter(xs, p) <==> x in xs && p(x)
  {
    if |xs| > 0 {
      FilterMembers(xs[1..], p);
      assert forall x :: x in xs <==> x == xs[0] || x in xs[1..] by { assert xs == [xs[0]] + xs[1..]; }
    }
  }

  /** The filter keeps a sub-multiset of its input. */
  lemma {:induction false} FilterMultiset<T>(xs: seq<T>, p: T -> bool)
    ensures multiset(Filter(xs, p)) <= multiset(xs)
  {
    if |xs| > 0 {
      FilterMultiset(xs[1..], p);
      assert xs == [xs[0]] + xs[1..];
    }
  }

  /** A prefix holds a sub-multiset of the sequence. */
  lemma PrefixMultiset<T>(xs: seq<T>, n: nat)
    requires n <= |xs|
    ensures multiset(xs[..n]) <= multiset(xs)
  {
    assert xs == xs[..n] + xs[n..];
    assert multiset(xs) == multiset(xs[..n]) + multiset(xs[n..]);
  }

  lemma {:induction false} FilterAppend<T>(a: seq<T>, b: seq<T>, p: T -> bool)
    ensures Filter(a + b, p) == Filter(a, p) + Filter(b, p)
  {
    if |a| == 0 {
      assert a + b == b;
    } else {
      assert (a + b)[1..] == a[1..] + b;
      FilterAppend(a[1..], b, p);
    }
  }

  // ---------------------------------------------------------------------------

  /** `a` can be obtained from `b` by deleting elements. */
  predicate IsSubseq<T(==)>(a: seq<T>, b: seq<T>)
    decreases |b|
  {
    |a| == 0 || (|b| > 0 && if a[0] == b[0] then IsSubseq(a[1..], b[1..]) else IsSubseq(a, b[1..]))
  }

  lemma {:induction false} SubseqRefl<T>(a: seq<T>)
    ensures IsSubseq(a, a)
    decreases |a|
  {
    if |a| > 0 {
      SubseqRefl(a[1..]);
    }
  }

  /** Dropping the front element of `b` keeps `a` a subsequence of `[x] + b`. */
  lemma {:induction false} SubseqCons<T>(a: seq<T>, x: T, b: seq<T>)
    requires IsSubseq(a, b)
    ensures IsSubseq(a, [x] + b)
    decreases |b|, 1
  {
    if |a| > 0 && a[0] == x {
      // the greedy match takes `x`; the rest of `a` still fits in `b`
      SubseqTail(a, b);
      assert ([x] + b)[1..] == b;
    } else if |a| > 0 {
      assert ([x] + b)[1..] == b;
    }
  }

  /** A subsequence without its head is a subsequence of the same list. */
  lemma {:induction false} SubseqTail<T>(a: seq<T>, b: seq<T>)
    requires IsSubseq(a, b) && |a| > 0
    ensures IsSubseq(a[1..], b)
    decreases |b|, 0
  {
    if a[0] == b[0] {
      SubseqCons(a[1..], b[0], b[1..]);
      assert [b[0]] + b[1..] == b;
    } else {
      SubseqTail(a, b[1..]);
      SubseqCons(a[1..], b[0], b[1..]);
      assert [b[0]] + b[1..] == b;
    }
  }

  /** Any prefix of a subsequence is a subsequence. */
  lemma {:induction false} SubseqPrefix<T>(a: seq<T>, b: seq<T>, k: nat)
    requires IsSubseq(a, b) && k <= |a|
    ensures IsSubseq(a[..k], b)
    decreases |b|
  {
    if k > 0 {
      assert a[..k][0] == a[0];
      assert a[..k][1..] == a[1..][..k - 1];
      if a[0] == b[0] {
        SubseqPrefix(a[1..], b[1..], k - 1);
      } else {
        SubseqPrefix(a, b[1..], k);
      }
    }
  }

  /** Being a subsequence is transitive. */
  lemma {:induction false} SubseqTrans<T>(a: seq<T>, b: seq<T>, c: seq<T>)
    requires IsSubseq(a, b) && IsSubseq(b, c)
    ensures IsSubseq(a, c)
    decreases |c|
  {
    if |a| > 0 {
      if b[0] == c[0] {
        if a[0] == b[0] {
          SubseqTrans(a[1..], b[1..], c[1..]);
        } else {
          SubseqTrans(a, b[1..], c[1..]);
          SubseqCons(a, c[0], c[1..]);
          assert [c[0]] + c[1..] == c;
        }
      } else {
        SubseqTrans(a, b, c[1..]);
        SubseqCons(a, c[0], c[1..]);
        assert [c[0]] + c[1..] == c;
      }
    }
  }

  // ---------------------------------------------------------------------------

  /** Number of positions of `s` holding `x`. */
  function Count<T(==)>(s: seq<T>, x: T): nat {
    if |s| == 0 then 0 else (if s[0] == x then 1 else 0) + Count(s[1..], x)
  }

  lemma {:induction false} CountAppend<T>(a: seq<T>, b: seq<T>, x: T)
    ensures Count(a + b, x) == Count(a, x) + Count(b, x)
  {
    if |a| == 0 {
      assert a + b == b;
    } else {
      assert (a + b)[1..] == a[1..] + b;
      CountAppend(a[1..], b, x);
    }
  }

  lemma {:induction false} CountPositive<T>(s: seq<T>, x: T)
    ensures Count(s, x) > 0 <==> x in s
  {
    if |s| > 0 {
      CountPositive(s[1..], x);
      assert x in s <==> x == s[0] || x in s[1..] by { assert s == [s[0]] + s[1..]; }
    }
  }

  function Sum(s: seq<real>): real {
    if |s| == 0 then 0.0 else s[0] + Sum(s[1..])
  }

  /** Raising entries never lowers the sum. */
  lemma {:induction false} SumMonotone(a: seq<real>, b: seq<real>)
    requires |a| == |b| && forall i | 0 <= i < |a| :: a[i] <= b[i]
    ensures Sum(a) <= Sum(b)
  {
    if |a| > 0 {
      SumMonotone(a[1..], b[1..]);
    }
  }

  /** A sum of entries within [lo, hi] lies within [n*lo, n*hi]. */
  lemma {:induction false} SumBounds(a: seq<real>, lo: real, hi: real)
    requires forall i | 0 <= i < |a| :: lo <= a[i] <= hi
    ensures |a| as real * lo <= Sum(a) <= |a| as real * hi
  {
    if |a| > 0 {
      SumBounds(a[1..], lo, hi);
    }
  }
}

=== FILE: similarity.dfy ===
/** `calculateSimilarity`: cosine similarity of two stored embeddings. Arithmetic is on
    `real`, so rounding is not modelled; `Math.sqrt` is a parameter. */
module Similarity {

  /** A stored embedding as the service receives it: missing (or otherwise falsy), some
      non-array value, or an array of numbers. */
  datatype Embedding = Absent | NonArray | Vector(components: seq<real>)

  /** The first `n` terms of the running sum `a[i] * b[i]`. */
  function Dot(a: seq<real>, b: seq<real>, n: nat): real
    requires n <= |a| && n <= |b|
  {
    if n == 0 then 0.0 else Dot(a, b, n - 1) + a[n - 1] * b[n - 1]
  }

  function Min(a: int, b: int): int { if a <= b then a else b }

  /** What the loop accumulates: the three sums over the common prefix. */
  datatype Sums = Sums(dot: real, norm1: real, norm2: real)

  function SumsOf(a: seq<real>, b: seq<real>): Sums {
    var n := Min(|a|, |b|);
    Sums(Dot(a, b, n), Dot(a, a, n), Dot(b, b, n))
  }

  /** The similarity of two embeddings: zero unless both are arrays, and zero when the
      product of the norms' roots is not positive. */
  function Cosine(e1: Embedding, e2: Embedding, sqrt: real -> real): (s: real)
    ensures !e1.Vector? || !e2.Vector? ==> s == 0.0
  {
    if !e1.Vector? || !e2.Vector? then 0.0
    else
      var sums := SumsOf(e1.components, e2.components);
      var magnitude := sqrt(sums.norm1) * sqrt(sums.norm2);
      if magnitude > 0.0 then sums.dot / magnitude else 0.0
  }

  /** `calculateSimilarity`: the loop over the common prefix of the two arrays. */
  method CalculateSimilarity(e1: Embedding, e2: Embedding, sqrt: real -> real) returns (s: real)
    ensures s == Cosine(e1, e2, sqrt)
  {
    if !e1.Vector? || !e2.Vector? {
      return 0.0;
    }
    var a, b := e1.components, e2.components;
    var n := Min(|a|, |b|);
    var dot, norm1, norm2 := 0.0, 0.0, 0.0;
    var i := 0;
    while i < n
      invariant 0 <= i <= n
      invariant dot == Dot(a, b, i) && norm1 == Dot(a, a, i) && norm2 == Dot(b, b, i)
    {
      dot := dot + a[i] * b[i];
      norm1 := norm1 + a[i] * a[i];
      norm2 := norm2 + b[i] * b[i];
      i := i + 1;
    }
    var magnitude := sqrt(norm1) * sqrt(norm2);
    s := if magnitude > 0.0 then dot / magnitude else 0.0;
  }

  lemma {:induction false} DotSymmetric(a: seq<real>, b: seq<real>, n: nat)
    requires n <= |a| && n <= |b|
    ensures Dot(a, b, n) == Dot(b, a, n)
  {
    if n > 0 {
      DotSymmetric(a, b, n - 1);
    }
  }

  /** The sum only reads the first `n` components. */
  lemma {:induction false} DotPrefix(a: seq<real>, b: seq<real>, a': seq<real>, b': seq<real>, n: nat)
    requires n <= |a| && n <= |b| && n <= |a'| && n <= |b'|
    requires a[..n] == a'[..n] && b[..n] == b'[..n]
    ensures Dot(a, b, n) == Dot(a', b', n)
  {
    if n > 0 {
      assert a[n - 1] == a[..n][n - 1] && a'[n - 1] == a'[..n][n - 1];
      assert b[n - 1] == b[..n][n - 1] && b'[n - 1] == b'[..n][n - 1];
      assert a[..n - 1] == a[..n][..n - 1] && a'[..n - 1] == a'[..n][..n - 1];
      assert b[..n - 1] == b[..n][..n - 1] && b'[..n - 1] == b'[..n][..n - 1];
      DotPrefix(a, b, a', b', n - 1);
    }
  }

  /** A sum of squares is never negative. */
  lemma {:induction false} SquaresNonNegative(a: seq<real>, n: nat)
    requires n <= |a|
    ensures Dot(a, a, n) >= 0.0
  {
    if n > 0 {
      SquaresNonNegative(a, n - 1);
      var x := a[n - 1];
      assert x * x >= 0.0 by {
        if x < 0.0 {
          assert x * x == (-x) * (-x);
        }
      }
    }
  }

  /** The similarity is symmetric in its arguments. */
  lemma CosineSymmetric(e1: Embedding, e2: Embedding, sqrt: real -> real)
    ensures Cosine(e1, e2, sqrt) == Cosine(e2, e1, sqrt)
  {
    if e1.Vector? && e2.Vector? {
      var a, b := e1.components, e2.components;
      DotSymmetric(a, b, Min(|a|, |b|));
      var r1, r2 := sqrt(Dot(a, a, Min(|a|, |b|))), sqrt(Dot(b, b, Min(|a|, |b|)));
      assert r1 * r2 == r2 * r1;
    }
  }

  /** Components beyond the shorter array's length are ignored: truncating the longer
      array to the common length changes nothing. */
  lemma CosineUsesCommonPrefix(a: seq<real>, b: seq<real>, sqrt: real -> real)
    ensures var n := Min(|a|, |b|);
      Cosine(Vector(a), Vector(b), sqrt) == Cosine(Vector(a[..n]), Vector(b[..n]), sqrt)
  {
    var n := Min(|a|, |b|);
    assert a[..n][..n] == a[..n] && b[..n][..n] == b[..n];
    DotPrefix(a, b, a[..n], b[..n], n);
    DotPrefix(a, a, a[..n], a[..n], n);
    DotPrefix(b, b, b[..n], b[..n], n);
  }

  /** `sqrt` behaves as the square root on the non-negative reals. */
  ghost predicate IsSquareRoot(sqrt: real -> real) {
    && sqrt(0.0) == 0.0
    && forall x: real | x > 0.0 :: sqrt(x) > 0.0 && sqrt(x) * sqrt(x) == x
  }

  /** With a true square root, a non-zero vector is fully similar to itself. */
  lemma SelfSimilarity(a: seq<real>, sqrt: real -> real)
    requires IsSquareRoot(sqrt)
    requires Dot(a, a, |a|) != 0.0
    ensures Cosine(Vector(a), Vector(a), sqrt) == 1.0
  {
    var norm := Dot(a, a, |a|);
    SquaresNonNegative(a, |a|);
    assert Min(|a|, |a|) == |a|;
    assert SumsOf(a, a) == Sums(norm, norm, norm);
    assert sqrt(norm) * sqrt(norm) == norm;
    assert norm / norm == 1.0;
  }

  /** With a true square root, a vector of zeros is similar to nothing. */
  lemma ZeroVectorDissimilar(a: seq<real>, b: seq<real>, sqrt: real -> real)
    requires IsSquareRoot(sqrt)
    requires forall i | 0 <= i < |a| :: a[i] == 0.0
    ensures Cosine(Vector(a), Vector(b), sqrt) == 0.0
  {
    var n := Min(|a|, |b|);
    ZerosSquareToZero(a, n);
    SquaresNonNegative(b, n);
    assert sqrt(Dot(a, a, n)) == 0.0;
  }

  lemma {:induction false} ZerosSquareToZero(a: seq<real>, n: nat)
    requires n <= |a| && forall i | 0 <= i < |a| :: a[i] == 0.0
    ensures Dot(a, a, n) == 0.0
  {
    if n > 0 {
      ZerosSquareToZero(a, n - 1);
    }
  }
}

=== FILE: sorting.dfy ===
/** `Array.prototype.sort` with a descending comparator `(a, b) => key(b) - key(a)`.
    The engine's sort is stable; it is modelled by a stable insertion sort. */
module Sorting {

  /** Non-increasing by `key` over every pair of positions. */
  ghost predicate SortedDesc<T>(s: seq<T>, key: T -> real) {
    forall i, j | 0 <= i < j < |s| :: key(s[i]) >= key(s[j])
  }

  /** Places `x` in front of the first element whose key does not exceed its own,
      so `x` stays ahead of equal keys that came after it in the input. */
  function Insert<T>(x: T, t: seq<T>, key: T -> real): seq<T>
    decreases |t|
  {
    if |t| == 0 || key(t[0]) <= key(x) then [x] + t
    else [t[0]] + Insert(x, t[1..], key)
  }

  function SortDesc<T>(s: seq<T>, key: T -> real): seq<T>
    decreases |s|
  {
    if |s| == 0 then [] else Insert(s[0], SortDesc(s[1..], key), key)
  }

  ghost predicate AllAtMost<T>(s: seq<T>, key: T -> real, bound: real) {
    forall j | 0 <= j < |s| :: key(s[j]) <= bound
  }

  lemma {:induction false} InsertMultiset<T>(x: T, t: seq<T>, key: T -> real)
    ensures multiset(Insert(x, t, key)) == multiset([x] + t)
    ensures |Insert(x, t, key)| == |t| + 1
    decreases |t|
  {
    if |t| > 0 && key(t[0]) > key(x) {
      InsertMultiset(x, t[1..], key);
      assert t == [t[0]] + t[1..];
    }
  }

  lemma {:induction false} InsertAtMost<T>(x: T, t: seq<T>, key: T -> real, bound: real)
    requires AllAtMost(t, key, bound) && key(x) <= bound
    ensures AllAtMost(Insert(x, t, key), key, bound)
    decreases |t|
  {
    var r := Insert(x, t, key);
    if |t| == 0 || key(t[0]) <= key(x) {
      assert forall j | 1 <= j < |r| :: r[j] == t[j - 1];
    } else {
      var rest := Insert(x, t[1..], key);
      assert AllAtMost(t[1..], key, bound) by {
        assert forall j | 0 <= j < |t| - 1 :: t[1..][j] == t[j + 1];
      }
      InsertAtMost(x, t[1..], key, bound);
      assert forall j | 1 <= j < |r| :: r[j] == rest[j - 1];
    }
  }

  lemma ConsSorted<T>(y: T, rest: seq<T>, key: T -> real)
    requires SortedDesc(rest, key) && AllAtMost(rest, key, key(y))
    ensures SortedDesc([y] + rest, key)
  {
    var r := [y] + rest;
    forall i, j | 0 <= i < j < |r| ensures key(r[i]) >= key(r[j]) {
      assert r[j] == rest[j - 1];
      if i > 0 {
        assert r[i] == rest[i - 1];
      }
    }
  }

  lemma TailSorted<T>(t: seq<T>, key: T -> real)
    requires SortedDesc(t, key) && |t| > 0
    ensures SortedDesc(t[1..], key) && AllAtMost(t[1..], key, key(t[0]))
  {
    forall i, j | 0 <= i < j < |t| - 1 ensures key(t[1..][i]) >= key(t[1..][j]) {
      assert t[1..][i] == t[i + 1] && t[1..][j] == t[j + 1];
    }
    forall j | 0 <= j < |t| - 1 ensures key(t[1..][j]) <= key(t[0]) {
      assert t[1..][j] == t[j + 1];
    }
  }

  lemma {:induction false} InsertSorted<T>(x: T, t: seq<T>, key: T -> real)
    requires SortedDesc(t, key)
    ensures SortedDesc(Insert(x, t, key), key)
    decreases |t|
  {
    if |t| == 0 || key(t[0]) <= key(x) {
      if |t| > 0 {
        assert AllAtMost(t, key, key(x)) by {
          forall j | 0 <= j < |t| ensures key(t[j]) <= key(x) {
            if j > 0 {
              assert key(t[0]) >= key(t[j]);
            }
          }
        }
      }
      ConsSorted(x, t, key);
    } else {
      TailSorted(t, key);
      InsertSorted(x, t[1..], key);
      InsertAtMost(x, t[1..], key, key(t[0]));
      ConsSorted(t[0], Insert(x, t[1..], key), key);
    }
  }

  /** The sort returns a permutation of its input, ordered non-increasingly by key. */
  lemma {:induction false} SortDescSpec<T>(s: seq<T>, key: T -> real)
    ensures SortedDesc(SortDesc(s, key), key)
    ensures multiset(SortDesc(s, key)) == multiset(s)
    ensures |SortDesc(s, key)| == |s|
    decreases |s|
  {
    if |s| > 0 {
      SortDescSpec(s[1..], key);
      InsertSorted(s[0], SortDesc(s[1..], key), key);
      InsertMultiset(s[0], SortDesc(s[1..], key), key);
      assert s == [s[0]] + s[1..];
    }
  }

  lemma SortedPrefix<T>(s: seq<T>, key: T -> real, n: nat)
    requires SortedDesc(s, key) && n <= |s|
    ensures SortedDesc(s[..n], key)
  {
    forall i, j | 0 <= i < j < n ensures key(s[..n][i]) >= key(s[..n][j]) {
      assert s[..n][i] == s[i] && s[..n][j] == s[j];
    }
  }
}

=== FILE: text.dfy ===
/** The JavaScript string operations the services rely on, over Dafny strings:
    `trim`, `replace(/\s+/g, ' ')`, `split`, `includes`, `startsWith`,
    `substring(0, n)`, ASCII `toLowerCase` and whitespace tokenisation. */
module Text {

  /** ECMAScript white space and line terminators: exactly the characters `\s` matches
      and `String.prototype.trim` removes. */
  predicate IsSpace(c: char) {
    || c == ' ' || c == '\t' || c == '\n' || c == '\U{B}' || c == '\U{C}' || c == '\r'
    || c == '\U{A0}' || c == '\U{1680}' || ('\U{2000}' <= c <= '\U{200A}')
    || c == '\U{2028}' || c == '\U{2029}' || c == '\U{202F}' || c == '\U{205F}'
    || c == '\U{3000}' || c == '\U{FEFF}'
  }

  predicate AllSpace(s: string) {
    forall i | 0 <= i < |s| :: IsSpace(s[i])
  }

  predicate NoSpace(s: string) {
    forall i | 0 <= i < |s| :: !IsSpace(s[i])
  }

  /** The characters of `s` that are not white space, in order. */
  function NonSpace(s: string): string {
    if |s| == 0 then ""
    else if IsSpace(s[0]) then NonSpace(s[1..])
    else [s[0]] + NonSpace(s[1..])
  }

  lemma {:induction false} NonSpaceAppend(a: string, b: string)
    ensures NonSpace(a + b) == NonSpace(a) + NonSpace(b)
  {
    if |a| > 0 {
      assert (a + b)[1..] == a[1..] + b;
      NonSpaceAppend(a[1..], b);
    } else {
      assert a + b == b;
    }
  }

  lemma {:induction false} NonSpaceOfAllSpace(s: string)
    requires AllSpace(s)
    ensures NonSpace(s) == ""
  {
    if |s| > 0 {
      NonSpaceOfAllSpace(s[1..]);
    }
  }

  lemma {:induction false} NonSpaceEmptyIsAllSpace(s: string)
    requires NonSpace(s) == ""
    ensures AllSpace(s)
  {
    if |s| > 0 {
      NonSpaceEmptyIsAllSpace(s[1..]);
    }
  }

  // ---------------------------------------------------------------------------
  // prefixes, containment, substring

  /** `s.startsWith(p)` */
  predicate StartsWith(s: string, p: string) {
    |p| <= |s| && s[..|p|] == p
  }

  /** `s.endsWith(p)` */
  predicate EndsWith(s: string, p: string) {
    |p| <= |s| && s[|s| - |p|..] == p
  }

  /** `s.includes(sub)`: some position of `s` starts an occurrence of `sub`. */
  predicate Contains(s: string, sub: string)
    decreases |s|
  {
    StartsWith(s, sub) || (|s| > 0 && Contains(s[1..], sub))
  }

  /** An occurrence of `sub` at index `i` makes `Contains` hold. */
  lemma {:induction false} ContainsAt(s: string, sub: string, i: int)
    requires 0 <= i <= |s| - |sub| && s[i..i + |sub|] == sub
    ensures Contains(s, sub)
    decreases i
  {
    if i > 0 {
      assert s[1..][i - 1..i - 1 + |sub|] == s[i..i + |sub|];
      ContainsAt(s[1..], sub, i - 1);
    } else {
      assert s[..|sub|] == s[i..i + |sub|];
    }
  }

  /** Conversely, `Contains` names an index where `sub` occurs. */
  lemma {:induction false} ContainsWitness(s: string, sub: string) returns (i: int)
    requires Contains(s, sub)
    ensures 0 <= i <= |s| - |sub| && s[i..i + |sub|] == sub
    decreases |s|
  {
    if StartsWith(s, sub) {
      i := 0;
      assert s[0..0 + |sub|] == s[..|sub|];
    } else {
      var j := ContainsWitness(s[1..], sub);
      i := j + 1;
      assert s[i..i + |sub|] == s[1..][j..j + |sub|];
    }
  }

  lemma SuffixContained(s: string, k: nat)
    requires k <= |s|
    ensures Contains(s, s[k..])
  {
    var sub := s[k..];
    assert k + |sub| == |s|;
    assert s[k..k + |sub|] == sub;
    ContainsAt(s, sub, k);
  }

  /** `s.substring(0, n)`: at most the first `n` characters (a negative `n` acts as 0). */
  function Take(s: string, n: int): (r: string)
    ensures |r| <= |s| && (n >= 0 ==> |r| <= n)
    ensures r == s[..|r|]
    ensures |r| == if n <= 0 then 0 else if n < |s| then n else |s|
  {
    if n <= 0 then "" else if n < |s| then s[..n] else s
  }

  /** `s.slice(0, end)` with JavaScript's reading of a negative end as counted from the back. */
  function JsSliceTo<T>(s: seq<T>, end: int): (r: seq<T>)
    ensures |r| <= |s| && r == s[..|r|]
    ensures end >= 0 ==> |r| == if end < |s| then end else |s|
    ensures end < 0 ==> |r| == if |s| + end > 0 then |s| + end else 0
  {
    if end >= 0 then (if end < |s| then s[..end] else s)
    else if |s| + end > 0 then s[..|s| + end] else []
  }

  // ---------------------------------------------------------------------------
  // trimming

  /** `s.trimStart()` */
  function TrimStart(s: string): (r: string)
    ensures |r| <= |s| && r == s[|s| - |r|..]
    ensures forall i | 0 <= i < |s| - |r| :: IsSpace(s[i])
    ensures |r| > 0 ==> !IsSpace(r[0])
    decreases |s|
  {
    if |s| > 0 && IsSpace(s[0]) then TrimStart(s[1..]) else s
  }

  /** `s.trimEnd()` */
  function TrimEnd(s: string): (r: string)
    ensures |r| <= |s| && r == s[..|r|]
    ensures forall i | |r| <= i < |s| :: IsSpace(s[i])
    ensures |r| > 0 ==> !IsSpace(r[|r| - 1])
    decreases |s|
  {
    if |s| > 0 && IsSpace(s[|s| - 1]) then TrimEnd(s[..|s| - 1]) else s
  }

  /** `s.trim()`: no white space at either end, and blank exactly when `s` is. */
  function Trim(s: string): (r: string)
    ensures |r| <= |s|
    ensures |r| > 0 ==> !IsSpace(r[0]) && !IsSpace(r[|r| - 1])
    ensures |r| == 0 <==> AllSpace(s)
  {
    TrimBlankIffAllSpace(s);
    TrimEnd(TrimStart(s))
  }

  lemma TrimBlankIffAllSpace(s: string)
    ensures |TrimEnd(TrimStart(s))| == 0 <==> AllSpace(s)
  {
    var t := TrimStart(s);
    var r := TrimEnd(t);
    if |r| == 0 {
      assert |t| == 0;
    } else {
      assert r[0] == t[0];
      assert !AllSpace(s) by { assert s[|s| - |t|] == t[0]; }
    }
  }

  lemma {:induction false} TrimStartNonSpace(s: string)
    ensures NonSpace(TrimStart(s)) == NonSpace(s)
    decreases |s|
  {
    if |s| > 0 && IsSpace(s[0]) {
      TrimStartNonSpace(s[1..]);
    }
  }

  lemma TrimEndNonSpace(s: string)
    ensures NonSpace(TrimEnd(s)) == NonSpace(s)
  {
    var t := TrimEnd(s);
    var post := s[|t|..];
    assert s == t + post;
    assert AllSpace(post) by {
      forall i | 0 <= i < |post| ensures IsSpace(post[i]) {
        assert post[i] == s[|t| + i];
      }
    }
    NonSpaceAppend(t, post);
    NonSpaceOfAllSpace(post);
  }

  /** Trimming removes white space only. */
  lemma TrimNonSpace(s: string)
    ensures NonSpace(Trim(s)) == NonSpace(s)
  {
    TrimStartNonSpace(s);
    TrimEndNonSpace(TrimStart(s));
  }

  /** Trimming an already trimmed string changes nothing. */
  lemma TrimOfTrimmed(s: string)
    requires |s| > 0 ==> !IsSpace(s[0]) && !IsSpace(s[|s| - 1])
    ensures Trim(s) == s
  {
  }

  // ---------------------------------------------------------------------------
  // whitespace collapsing: `replace(/\s+/g, ' ')`

  /** Every white-space character is a plain space and no two spaces are adjacent. */
  predicate Collapsed(s: string) {
    && (forall i | 0 <= i < |s| :: IsSpace(s[i]) ==> s[i] == ' ')
    && (forall i | 0 <= i < |s| - 1 :: !(s[i] == ' ' && s[i + 1] == ' '))
  }

  /** Each maximal run of white space becomes one plain space. */
  function Collapse(s: string): (r: string)
    ensures |r| <= |s|
    ensures |r| == 0 <==> |s| == 0
    ensures |s| > 0 && IsSpace(s[0]) ==> r[0] == ' '
    ensures |s| > 0 && !IsSpace(s[0]) ==> r[0] == s[0]
    ensures Collapsed(r)
    decreases |s|
  {
    if |s| == 0 then ""
    else if IsSpace(s[0]) then
      var rest := Collapse(TrimStart(s[1..]));
      assert |rest| > 0 ==> rest[0] != ' ';
      " " + rest
    else
      var rest := Collapse(s[1..]);
      [s[0]] + rest
  }

  /** Collapsing keeps every non-space character, in order. */
  lemma {:induction false} CollapseNonSpace(s: string)
    ensures NonSpace(Collapse(s)) == NonSpace(s)
    decreases |s|
  {
    if |s| > 0 {
      if IsSpace(s[0]) {
        var t := TrimStart(s[1..]);
        CollapseNonSpace(t);
        TrimStartNonSpace(s[1..]);
        NonSpaceAppend(" ", Collapse(t));
      } else {
        CollapseNonSpace(s[1..]);
        NonSpaceAppend([s[0]], Collapse(s[1..]));
      }
    }
  }

  /** A string already in collapsed form is left unchanged, so collapsing is idempotent. */
  lemma {:induction false} CollapseOfCollapsed(s: string)
    requires Collapsed(s)
    ensures Collapse(s) == s
    decreases |s|
  {
    if |s| > 0 {
      assert Collapsed(s[1..]);
      if IsSpace(s[0]) {
        assert TrimStart(s[1..]) == s[1..];
      }
      CollapseOfCollapsed(s[1..]);
    }
  }

  lemma CollapseIdempotent(s: string)
    ensures Collapse(Collapse(s)) == Collapse(s)
  {
    CollapseOfCollapsed(Collapse(s));
  }

  lemma CollapsedInfix(s: string, i: nat, j: nat)
    requires Collapsed(s) && i <= j <= |s|
    ensures Collapsed(s[i..j])
  {
    assert forall k | 0 <= k < j - i :: s[i..j][k] == s[i + k];
  }

  lemma CollapsedTrim(s: string)
    requires Collapsed(s)
    ensures Collapsed(Trim(s))
  {
    var t := TrimStart(s);
    CollapsedInfix(s, |s| - |t|, |s|);
    CollapsedInfix(t, 0, |TrimEnd(t)|);
  }

  /** `replace(/\n+/g, ' ')`: each run of line feeds becomes one space. */
  function ReplaceNewlineRuns(s: string): (r: string)
    ensures '\n' !in r
    decreases |s|
  {
    if |s| == 0 then ""
    else if s[0] == '\n' then " " + ReplaceNewlineRuns(DropNewlines(s[1..]))
    else [s[0]] + ReplaceNewlineRuns(s[1..])
  }

  function DropNewlines(s: string): (r: string)
    ensures |r| <= |s|
    decreases |s|
  {
    if |s| > 0 && s[0] == '\n' then DropNewlines(s[1..]) else s
  }

  /** A string without line feeds is unaffected by the line-feed rewrite. */
  lemma {:induction false} ReplaceNewlineRunsNoop(s: string)
    requires '\n' !in s
    ensures ReplaceNewlineRuns(s) == s
    decreases |s|
  {
    if |s| > 0 {
      assert s[0] in s;
      assert '\n' !in s[1..] by { assert forall k | 0 <= k < |s| - 1 :: s[1..][k] == s[k + 1]; }
      ReplaceNewlineRunsNoop(s[1..]);
    }
  }

  lemma CollapsedHasNoNewline(s: string)
    requires Collapsed(s)
    ensures '\n' !in s
  {
    if '\n' in s {
      var i :| 0 <= i < |s| && s[i] == '\n';
      assert IsSpace(s[i]);
    }
  }

  // ---------------------------------------------------------------------------
  // words: `s.split(/\s+/).filter(w => w.length > 0)`

  /** Length of the leading run of non-space characters. */
  function WordEnd(t: string): (k: nat)
    ensures k <= |t|
    ensures forall i | 0 <= i < k :: !IsSpace(t[i])
    ensures k < |t| ==> IsSpace(t[k])
    decreases |t|
  {
    if |t| == 0 || IsSpace(t[0]) then 0 else 1 + WordEnd(t[1..])
  }

  predicate IsWord(w: string) { |w| > 0 && NoSpace(w) }

  lemma LeadingWord(t: string)
    requires |t| > 0 && !IsSpace(t[0])
    ensures IsWord(t[..WordEnd(t)])
  {
    var k := WordEnd(t);
    assert forall i | 0 <= i < k :: t[..k][i] == t[i];
  }

  lemma ConsWords(w: string, rest: seq<string>)
    requires IsWord(w) && forall i | 0 <= i < |rest| :: IsWord(rest[i])
    ensures forall i | 0 <= i < |rest| + 1 :: IsWord(([w] + rest)[i])
  {
  }

  /** The maximal runs of non-space characters of `s`, in order. */
  function Words(s: string): (ws: seq<string>)
    ensures forall i | 0 <= i < |ws| :: IsWord(ws[i])
    decreases |s|
  {
    var t := TrimStart(s);
    if |t| == 0 then []
    else
      var k := WordEnd(t);
      var w := t[..k];
      var rest := Words(t[k..]);
      LeadingWord(t);
      ConsWords(w, rest);
      [w] + rest
  }

  function Flatten(ws: seq<string>): string {
    if |ws| == 0 then "" else ws[0] + Flatten(ws[1..])
  }

  lemma NonSpaceOfNoSpace(w: string)
    requires NoSpace(w)
    ensures NonSpace(w) == w
  {
    if |w| > 0 {
      assert NoSpace(w[1..]);
      NonSpaceOfNoSpace(w[1..]);
    }
  }

  lemma FlattenCons(w: string, ws: seq<string>)
    ensures Flatten([w] + ws) == w + Flatten(ws)
  {
    assert ([w] + ws)[1..] == ws;
  }

  lemma WordsStep(s: string)
    requires |TrimStart(s)| > 0
    ensures var t := TrimStart(s); var k := WordEnd(t);
      0 < k && Words(s) == [t[..k]] + Words(t[k..])
  {
  }

  lemma NonSpaceSplitAt(t: string, k: nat)
    requires k <= |t|
    ensures NonSpace(t) == NonSpace(t[..k]) + NonSpace(t[k..])
  {
    assert t == t[..k] + t[k..];
    NonSpaceAppend(t[..k], t[k..]);
  }

  /** Words lose only white space: gluing them back gives the non-space characters. */
  lemma {:induction false} WordsCoverNonSpace(s: string)
    ensures Flatten(Words(s)) == NonSpace(s)
    decreases |s|
  {
    var t := TrimStart(s);
    TrimStartNonSpace(s);
    if |t| > 0 {
      var k := WordEnd(t);
      WordsStep(s);
      FlattenCons(t[..k], Words(t[k..]));
      WordsCoverNonSpace(t[k..]);
      NonSpaceSplitAt(t, k);
      NonSpaceOfNoSpace(t[..k]);
    }
  }

  lemma {:induction false} WordsOfBlank(s: string)
    ensures |Words(s)| == 0 <==> AllSpace(s)
  {
    var t := TrimStart(s);
    if |t| == 0 {
      assert forall i | 0 <= i < |s| :: IsSpace(s[i]);
    } else {
      assert s[|s| - |t|] == t[0];
    }
  }

  // ---------------------------------------------------------------------------
  // splitting on one character, `s.split(c)`, and its inverse `parts.join(c)`

  /** First index of `c` in `s`, or -1. */
  function IndexOf(s: string, c: char): (i: int)
    ensures -1 <= i < |s|
    ensures i >= 0 ==> s[i] == c && c !in s[..i]
    ensures i < 0 ==> c !in s
    decreases |s|
  {
    if |s| == 0 then -1
    else if s[0] == c then 0
    else
      var j := IndexOf(s[1..], c);
      if j < 0 then -1
      else
        assert s[..j + 1] == [s[0]] + s[1..][..j];
        j + 1
  }

  lemma {:induction false} IndexOfJoined(a: string, c: char, b: string)
    requires c !in a
    ensures IndexOf(a + [c] + b, c) == |a|
    decreases |a|
  {
    if |a| > 0 {
      assert (a + [c] + b)[1..] == a[1..] + [c] + b;
      assert c !in a[1..] by { assert forall k | 0 <= k < |a| - 1 :: a[1..][k] == a[k + 1]; }
      IndexOfJoined(a[1..], c, b);
    }
  }

  /** `s.split(c)`: the pieces between occurrences of `c`; never empty. */
  function Split(s: string, c: char): (parts: seq<string>)
    ensures |parts| >= 1
    ensures forall i | 0 <= i < |parts| :: c !in parts[i]
    decreases |s|
  {
    var i := IndexOf(s, c);
    if i < 0 then [s]
    else
      var rest := Split(s[i + 1..], c);
      ConsPieces(s[..i], rest, c);
      [s[..i]] + rest
  }

  lemma ConsPieces(p: string, rest: seq<string>, c: char)
    requires c !in p && forall i | 0 <= i < |rest| :: c !in rest[i]
    ensures forall i | 0 <= i < |rest| + 1 :: c !in ([p] + rest)[i]
  {
    forall i | 0 <= i < |rest| + 1 ensures c !in ([p] + rest)[i] {
      if i > 0 {
        assert ([p] + rest)[i] == rest[i - 1];
      }
    }
  }

  /** `parts.join(c)` */
  function Join(parts: seq<string>, c: char): string {
    if |parts| == 0 then ""
    else if |parts| == 1 then parts[0]
    else parts[0] + [c] + Join(parts[1..], c)
  }

  /** `parts.join(sep)` with a string separator. */
  function JoinWith(parts: seq<string>, sep: string): string {
    if |parts| == 0 then ""
    else if |parts| == 1 then parts[0]
    else parts[0] + sep + JoinWith(parts[1..], sep)
  }

  /** Joining the pieces of a split restores the string. */
  lemma {:induction false} JoinSplit(s: string, c: char)
    ensures Join(Split(s, c), c) == s
    decreases |s|
  {
    var i := IndexOf(s, c);
    if i >= 0 {
      var tail := s[i + 1..];
      SplitStep(s, c);
      var parts := Split(s, c);
      assert parts[0] == s[..i] && parts[1..] == Split(tail, c);
      assert Join(parts, c) == s[..i] + [c] + Join(Split(tail, c), c);
      JoinSplit(tail, c);
      assert s == s[..i] + [c] + tail;
    }
  }

  /** Splitting a join of `c`-free pieces gives the pieces back. */
  lemma {:induction false} SplitJoin(parts: seq<string>, c: char)
    requires |parts| >= 1
    requires forall i | 0 <= i < |parts| :: c !in parts[i]
    ensures Split(Join(parts, c), c) == parts
    decreases |parts|
  {
    if |parts| > 1 {
      var rest := Join(parts[1..], c);
      IndexOfJoined(parts[0], c, rest);
      var s := parts[0] + [c] + rest;
      assert s[..|parts[0]|] == parts[0];
      assert s[|parts[0]| + 1..] == rest;
      SplitJoin(parts[1..], c);
    } else {
      assert IndexOf(parts[0], c) < 0;
    }
  }

  /** One step of `Split`: the piece before the first `c`, then the split of the rest. */
  lemma SplitStep(s: string, c: char)
    requires IndexOf(s, c) >= 0
    ensures var i := IndexOf(s, c); Split(s, c) == [s[..i]] + Split(s[i + 1..], c)
  {
  }

  lemma DropCons<T>(x: T, rest: seq<T>, k: nat)
    requires 1 <= k <= |rest| + 1
    ensures ([x] + rest)[k..] == rest[k - 1..]
  {
  }

  lemma SuffixOfSuffix<T>(s: seq<T>, a: nat, b: nat)
    requires a <= |s| && b <= |s| - a
    ensures s[a..][b..] == s[a + b..]
  {
  }

  /** Dropping `k >= 1` pieces of a split drops the first piece and `k - 1` of the rest. */
  lemma SplitDrop(s: string, c: char, k: nat)
    requires 1 <= k < |Split(s, c)|
    ensures IndexOf(s, c) >= 0
    ensures k - 1 < |Split(s[IndexOf(s, c) + 1..], c)|
    ensures Split(s, c)[k..] == Split(s[IndexOf(s, c) + 1..], c)[k - 1..]
  {
    var i := IndexOf(s, c);
    SplitStep(s, c);
    DropCons(s[..i], Split(s[i + 1..], c), k);
  }

  /** Joining the trailing pieces of a split yields a suffix of the string. */
  lemma {:induction false} JoinSuffixOfSplit(s: string, c: char, k: nat) returns (m: nat)
    requires k < |Split(s, c)|
    ensures m <= |s| && s[m..] == Join(Split(s, c)[k..], c)
    decreases |s|
  {
    if k == 0 {
      JoinSplit(s, c);
      assert Split(s, c)[0..] == Split(s, c);
      m := 0;
    } else {
      SplitDrop(s, c, k);
      var i := IndexOf(s, c);
      var tail := s[i + 1..];
      var m' := JoinSuffixOfSplit(tail, c, k - 1);
      SuffixOfSuffix(s, i + 1, m');
      m := i + 1 + m';
    }
  }

  // ---------------------------------------------------------------------------
  // ASCII case folding (`toLowerCase` restricted to A-Z)

  function Lower(c: char): char {
    if 'A' <= c <= 'Z' then (c as int + 32) as char else c
  }

  function LowerStr(s: string): (r: string)
    ensures |r| == |s|
    ensures forall i | 0 <= i < |s| :: r[i] == Lower(s[i])
  {
    seq(|s|, i requires 0 <= i < |s| => Lower(s[i]))
  }

  /** Lowering is idempotent, so a lowered key is its own lower form. */
  lemma LowerStrIdempotent(s: string)
    ensures LowerStr(LowerStr(s)) == LowerStr(s)
  {
  }

  // ---------------------------------------------------------------------------
  // decimal rendering of a status code

  function DigitChar(d: nat): (c: char)
    requires d < 10
    ensures '0' <= c <= '9'
  {
    ('0' as int + d) as char
  }

  /** The decimal digits of `n`, as `String(n)` renders a non-negative integer. */
  function NatToDecimal(n: nat): (r: string)
    ensures |r| >= 1
    ensures forall i | 0 <= i < |r| :: '0' <= r[i] <= '9'
    ensures n >= 10 ==> r[0] != '0'
  {
    if n < 10 then [DigitChar(n)] else NatToDecimal(n / 10) + [DigitChar(n % 10)]
  }

  function DecimalValue(s: string): nat
    requires forall i | 0 <= i < |s| :: '0' <= s[i] <= '9'
  {
    if |s| == 0 then 0 else DecimalValue(s[..|s| - 1]) * 10 + (s[|s| - 1] as int - '0' as int)
  }

  /** Reading the rendered digits back gives the number. */
  lemma {:induction false} DecimalRoundTrip(n: nat)
    ensures DecimalValue(NatToDecimal(n)) == n
  {
    if n >= 10 {
      var r := NatToDecimal(n);
      assert r[..|r| - 1] == NatToDecimal(n / 10);
      DecimalRoundTrip(n / 10);
    }
  }
}

=== FILE: urls.dfy ===
/** The parts of a WHATWG `URL` object the services read. Parsing itself is not modelled:
    every component receives a parse function `string -> Option<Url>` (`None` where the
    `URL` constructor throws) or a resolver for `new URL(link, base)`. */
module Urls {
  import opened Base

  /** `protocol` keeps its trailing colon (`"https:"`), as the `URL` object reports it. */
  datatype Url = Url(protocol: string, hostname: string, pathname: string, href: string)

  type Parser = string -> Option<Url>

  /** `new URL(link, base)`: the first argument is resolved against the second. */
  type Resolver = (string, string) -> Option<Url>

  predicate IsHttpProtocol(protocol: string) {
    protocol == "http:" || protocol == "https:"
  }

  /** `isValidUrl`: the string parses and its scheme is http or https. */
  predicate IsValidHttpUrl(parse: Parser, s: string) {
    parse(s).Some? && IsHttpProtocol(parse(s).value.protocol)
  }
}

=== FILE: validation.dfy ===
/** The request validators: URL admission, bot types, input sanitising and chat
    messages. */
module Validation {
  import opened Base
  import opened Text
  import opened Seqs
  import opened Urls

  datatype UrlCheck = ValidUrl(url: string) | InvalidUrl(error: string)

  const FormatError := "Invalid URL format"
  const ProtocolError := "URL must use HTTP or HTTPS protocol"
  const HostnameError := "Invalid hostname"
  const PrivateError := "Private and local URLs are not allowed"

  /** The private-host test on the lower-cased hostname. It is a textual test, not an
      address-range test: every `10.`-prefixed name is refused, `172.16.0.0/12` is not. */
  predicate IsPrivateHost(hostname: string) {
    var h := LowerStr(hostname);
    h == "localhost" || StartsWith(h, "127.") || StartsWith(h, "192.168.")
    || StartsWith(h, "10.") || Contains(h, "0.0.0.0")
  }

  /** `validateUrl` applied to the outcome of `new URL(url)`. The checks run in order:
      parse, scheme, hostname, private host; the first that fails names the error. */
  function ValidateUrl(parsed: Option<Url>): (r: UrlCheck)
    ensures r.ValidUrl? <==>
      parsed.Some? && IsHttpProtocol(parsed.value.protocol)
      && parsed.value.hostname != "" && !IsPrivateHost(parsed.value.hostname)
    ensures r.ValidUrl? ==> r.url == parsed.value.href
    ensures parsed.None? ==> r == InvalidUrl(FormatError)
    ensures parsed.Some? && !IsHttpProtocol(parsed.value.protocol) ==> r == InvalidUrl(ProtocolError)
    ensures parsed.Some? && IsHttpProtocol(parsed.value.protocol) && parsed.value.hostname == ""
            ==> r == InvalidUrl(HostnameError)
    ensures parsed.Some? && IsHttpProtocol(parsed.value.protocol) && parsed.value.hostname != ""
            && IsPrivateHost(parsed.value.hostname)
            ==> r == InvalidUrl(PrivateError)
    ensures r.InvalidUrl? && r.error == PrivateError ==> IsPrivateHost(parsed.value.hostname)
  {
    match parsed
    case None => InvalidUrl(FormatError)
    case Some(u) =>
      if !IsHttpProtocol(u.protocol) then InvalidUrl(ProtocolError)
      else if u.hostname == "" then InvalidUrl(HostnameError)
      else if IsPrivateHost(u.hostname) then InvalidUrl(PrivateError)
      else ValidUrl(u.href)
  }

  /** Every accepted URL is one the scraper itself considers valid. */
  lemma AcceptedUrlIsScrapable(parse: Parser, s: string)
    requires ValidateUrl(parse(s)).ValidUrl?
    ensures IsValidHttpUrl(parse, s)
  {
  }

  /** The textual test refuses public names that merely start with `10.`. */
  lemma PrivateTestRefusesPublicName()
    ensures ValidateUrl(Some(Url("https:", "10.example.com", "/", "https://10.example.com/"))) == InvalidUrl(PrivateError)
  {
    assert StartsWith(LowerStr("10.example.com"), "10.");
  }

  /** A string none of whose possible start positions holds the first character of
      `sub` does not contain `sub`. */
  lemma {:induction false} NotContainsByFirstChar(s: string, sub: string)
    requires |sub| > 0
    requires forall i | 0 <= i <= |s| - |sub| :: s[i] != sub[0]
    ensures !Contains(s, sub)
    decreases |s|
  {
    if |s| >= |sub| {
      assert s[..|sub|][0] != sub[0];
    }
    if |s| > 0 {
      assert forall i | 0 <= i <= |s| - 1 - |sub| :: s[1..][i] == s[i + 1];
      NotContainsByFirstChar(s[1..], sub);
    }
  }

  /** A host in the `172.16.0.0/12` private range. */
  const Range172Host := "172.16.0.1"

  /** The textual test admits the `172.16.0.0/12` private range. */
  lemma PrivateTestAdmitsRange172()
    ensures ValidateUrl(Some(Url("http:", Range172Host, "/", "http://" + Range172Host + "/"))).ValidUrl?
  {
    Range172HostNotPrivate();
  }

  lemma Range172HostNotPrivate()
    ensures !IsPrivateHost(Range172Host)
  {
    var host := Range172Host;
    var h := LowerStr(host);
    assert h == host;
    assert !StartsWith(h, "127.") by { assert h[2] != "127."[2]; }
    assert !StartsWith(h, "192.168.") by { assert h[1] != "192.168."[1]; }
    assert !StartsWith(h, "10.") by { assert h[1] != "10."[1]; }
    NotContainsByFirstChar(h, "0.0.0.0");
  }

  // ---------------------------------------------------------------------------

  const BotTypes: seq<string> := ["navigation", "qa", "whatsapp", "support", "general"]

  /** `validateBotType`: one of the five assistant flavours. */
  function ValidateBotType(botType: string): (ok: bool)
    ensures ok <==> botType in {"navigation", "qa", "whatsapp", "support", "general"}
  {
    botType in BotTypes
  }

  // ---------------------------------------------------------------------------

  /** `\w` without the Unicode flag: ASCII letters, digits and underscore. */
  predicate IsWordChar(c: char) {
    ('a' <= c <= 'z') || ('A' <= c <= 'Z') || ('0' <= c <= '9') || c == '_'
  }

  /** The class `[\w\s\-_.]` that survives sanitising. */
  predicate IsSafeChar(c: char) {
    IsWordChar(c) || IsSpace(c) || c == '-' || c == '_' || c == '.'
  }

  /** `replace(/[<>]/g, '')`. */
  function DropAngles(s: string): (r: string)
    ensures '<' !in r && '>' !in r
    ensures IsSubseq(r, s)
    ensures '<' !in s && '>' !in s ==> r == s
  {
    if |s| == 0 then ""
    else
      var rest := DropAngles(s[1..]);
      if s[0] == '<' || s[0] == '>' then
        SubseqCons(rest, s[0], s[1..]);
        assert s == [s[0]] + s[1..];
        rest
      else
        assert ([s[0]] + rest)[1..] == rest;
        [s[0]] + rest
  }

  /** `replace(/[^\w\s\-_.]/g, '')`. */
  function KeepSafe(s: string): (r: string)
    ensures forall i | 0 <= i < |r| :: IsSafeChar(r[i])
    ensures IsSubseq(r, s)
    ensures (forall i | 0 <= i < |s| :: IsSafeChar(s[i])) ==> r == s
  {
    if |s| == 0 then ""
    else
      var rest := KeepSafe(s[1..]);
      if IsSafeChar(s[0]) then
        assert ([s[0]] + rest)[1..] == rest;
        [s[0]] + rest
      else
        SubseqCons(rest, s[0], s[1..]);
        assert s == [s[0]] + s[1..];
        rest
  }

  /** `sanitizeInput`: a non-string yields the empty string; otherwise trim, drop angle
      brackets, drop everything outside the safe class, and keep at most 200 chars. */
  function SanitizeInput(input: Option<string>): (r: string)
    ensures |r| <= 200
    ensures forall i | 0 <= i < |r| :: IsSafeChar(r[i])
    ensures input.None? ==> r == ""
    ensures input.Some? ==> IsSubseq(r, Trim(input.value))
  {
    match input
    case None => ""
    case Some(s) =>
      var t := Trim(s);
      var kept := KeepSafe(DropAngles(t));
      SubseqTrans(kept, DropAngles(t), t);
      var r := Take(kept, 200);
      SubseqPrefix(kept, t, |r|);
      r
  }

  /** Angle brackets are outside the safe class, so the first replacement never changes
      the outcome of the second. */
  lemma {:induction false} DropAnglesSubsumed(s: string)
    ensures KeepSafe(DropAngles(s)) == KeepSafe(s)
  {
    if |s| > 0 {
      DropAnglesSubsumed(s[1..]);
    }
  }

  lemma SanitizeSteps(s: string)
    ensures SanitizeInput(Some(s)) == Take(KeepSafe(DropAngles(Trim(s))), 200)
  {
  }

  /** Trimming happens before characters are removed, so the result can still carry
      leading white space, which a second pass would trim: sanitising is not idempotent.
      Any `<` followed by safe text that starts with white space shows it, `<  a` say. */
  lemma SanitizeCanLeadWithSpace(t: string)
    requires 0 < |t| <= 200 && IsSpace(t[0]) && !IsSpace(t[|t| - 1])
    requires forall i | 0 <= i < |t| :: IsSafeChar(t[i])
    ensures SanitizeInput(Some("<" + t)) == t
    ensures Trim(SanitizeInput(Some("<" + t))) != SanitizeInput(Some("<" + t))
  {
    var s := "<" + t;
    LeadingAngleTrimmed(t);
    LeadingAngleDropped(t);
    assert KeepSafe(t) == t;
    SanitizeSteps(s);
    TrimmedDiffers(t);
  }

  lemma LeadingAngleTrimmed(t: string)
    requires 0 < |t| && !IsSpace(t[|t| - 1])
    ensures Trim("<" + t) == "<" + t
  {
    var s := "<" + t;
    assert s[|s| - 1] == t[|t| - 1];
    TrimOfTrimmed(s);
  }

  lemma LeadingAngleDropped(t: string)
    requires forall i | 0 <= i < |t| :: IsSafeChar(t[i])
    ensures DropAngles("<" + t) == t
  {
    var s := "<" + t;
    assert s[1..] == t;
    forall i | 0 <= i < |t| ensures t[i] != '<' && t[i] != '>' {
      assert IsSafeChar(t[i]);
    }
  }

  /** Trimming changes a string that starts with white space but is not blank. */
  lemma TrimmedDiffers(t: string)
    requires 0 < |t| && IsSpace(t[0]) && !IsSpace(t[|t| - 1])
    ensures Trim(t) != t
  {
    assert !AllSpace(t);
  }

  // ---------------------------------------------------------------------------

  datatype MessageCheck = ValidMessage(message: string) | InvalidMessage(error: string)

  const MissingMessage := "Message is required and must be a string"
  const EmptyMessage := "Message cannot be empty"
  const LongMessage := "Message too long (max 1000 characters)"
  const MaxMessageLength := 1000

  /** `validateChatMessage`: `None` stands for a non-string or missing value. The length
      limit applies to the raw message, the accepted message is the trimmed one. */
  function ValidateChatMessage(message: Option<string>): (r: MessageCheck)
    ensures message.None? || message == Some("") ==> r == InvalidMessage(MissingMessage)
    ensures message.Some? && message.value != "" && AllSpace(message.value)
            ==> r == InvalidMessage(EmptyMessage)
    ensures message.Some? && !AllSpace(message.value) && |message.value| > MaxMessageLength
            ==> r == InvalidMessage(LongMessage)
    ensures r.ValidMessage? <==>
      message.Some? && !AllSpace(message.value) && |message.value| <= MaxMessageLength
    ensures r.ValidMessage? ==> r.message == Trim(message.value)
  {
    match message
    case None => InvalidMessage(MissingMessage)
    case Some(m) =>
      if m == "" then InvalidMessage(MissingMessage)
      else if |Trim(m)| == 0 then InvalidMessage(EmptyMessage)
      else if |m| > MaxMessageLength then InvalidMessage(LongMessage)
      else ValidMessage(Trim(m))
  }

  /** An accepted message is non-empty, within the limit and carries no edge whitespace. */
  lemma AcceptedMessageShape(message: Option<string>)
    requires ValidateChatMessage(message).ValidMessage?
    ensures var m := ValidateChatMessage(message).message;
      0 < |m| <= MaxMessageLength && !IsSpace(m[0]) && !IsSpace(m[|m| - 1])
  {
  }
}
